=== FILE: README.md ===
# QuickBlog core, modelled in Dafny

This project models the logic of a blogging site (the "QuickBlog" client and its
Express server) as pure Dafny functions, and proves properties of that model.
It covers:

- **Accounts** (`Auth`, `auth.dfy`). This is the server's registration with an
  emailed one-time code (OTP), OTP verification, login and token refresh, over a
  user collection.
- **Client session** (`Session`, `session.dfy`). This is the token kept in
  React state, local storage and the default `Authorization` header; the
  refresh call; the request and response interceptors that retry once after a
  401; the initial load from storage; and the theme toggle.
- **Authentication modals** (`AuthModal`, `auth_modal.dfy`) and the signup
  form's password rules (`SignupForm`, `signup.dfy`).
- **Newsletter** (`Subscribers`, `subscribers.dfy`). This covers subscribe, the
  mail retry loop, the notification of new posts with delivery records, and
  unsubscribe.
- **AI helpers on the server** (`Ai`, `ai.dfy`). These are the normalisation of
  resume data, the input check and voice choice of text-to-speech, the parsing
  of numbered points out of a model reply, and the extraction-based fallback
  summary.
- **Blog page helpers** (`Blog`, `blog.dfy`). These cover the choice of a
  speech voice, the sentence and 450-character chunking of the text read
  aloud, the compaction of a summary and the capped text sent to the server's
  speech endpoint.
- **The resume wizard's form state** (`ResumeBuilder`, `resume.dfy`) and **the
  feature menu's local summary and dispatch** (`FeatureMenu`,
  `feature_menu.dfy`).

String helpers shared by several modules live in `Text` (`text.dfy`). `Option`
lives in `Wrappers` (`wrappers.dfy`).

Effects are parameters:

- the bcrypt hash and comparison;
- JWT signing and verification;
- the outcome of each mail send;
- the random draws;
- the current time;
- the replies of the refresh endpoint and of the model API.

Every handler becomes a function from the inputs and the store to the reply and
the new store. The user collection is a sequence in natural order, so
`findOne` is "the first record that matches". This gives deterministic
lookups, and it makes "the collection is exactly as before" plain sequence
equality.

Notes on what the code does:

- **Password not trimmed.** `register` trims name, lastname and email but not
  the password (authController.js:17).
- **Verified records.** A verified record holds `otp = ""`, not `null`
  (authController.js:132).
- **Mail failure messages.** A mail failure whose message looks like an SMTP
  authentication error gets its own client message (authController.js:99-102).
- **A repeated OTP.** Re-registering an unverified email issues whatever code
  the draw gives, which may equal the previous one. The model does not promise
  a different code.

## Model

| member | source | states |
|---|---|---|
| Auth.GenerateOtp | server/controllers/authController.js:7 | the code is six decimal digits whose value is 100000 plus the draw, so it lies in [100000, 999999] |
| Auth.FindByEmail | server/controllers/authController.js:41 | `findOne` by email returns the first record with that email, and none only when no record has it |
| Auth.FindById | server/controllers/authController.js:120 | `findById` returns the first record with that id, and none only when the id is unused |
| Auth.MissingFields | server/controllers/authController.js:27-32 | no field is reported missing exactly when all four normalised fields are non-empty |
| Auth.MissingMember | server/controllers/authController.js:27-31 | a field is pushed exactly when one of the checks names it with an empty value |
| Auth.MissingKeepsOrder | server/controllers/authController.js:27-31 | the pushed fields keep the order in which they are checked |
| Auth.MissingFieldsInOrder | server/controllers/authController.js:27-31 | the 400 message names a field exactly when it is empty after normalising, in the order name, lastname, email, password |
| Auth.RollbackRoundTrip | server/controllers/authController.js:47-92 | restoring the snapshot taken before the overwrite gives back the unverified record unchanged, with the same id |
| Auth.RegisterRejectsMissingFields | server/controllers/authController.js:26-34 | a missing field is answered 400, with nothing written and no mail sent |
| Auth.RegisterRejectsVerifiedEmail | server/controllers/authController.js:61-64 | the email of a verified account is refused with "Email already exists", the store unchanged |
| Auth.RegisterFreshEmail | server/controllers/authController.js:65-104 | a new email adds exactly one unverified record holding the code and a ten-minute expiry if the mail goes out; if the mail fails, the store is as before and the status is 500 |
| Auth.RegisterUnverifiedEmail | server/controllers/authController.js:43-95 | an unverified record keeps id, email and state while its five mutable fields are overwritten; if the mail fails, all five are restored |
| Auth.RegisterKeepsVerifiedRecords | server/controllers/authController.js:40-105 | whatever the request and mail outcome, every verified record keeps its position and contents |
| Auth.RegisterPreservesValid | server/controllers/authController.js:36-105 | ids and emails stay unique and verified records carry no pending code |
| Auth.VerifyOtpMismatchFirst | server/controllers/authController.js:123-125 | a wrong code is refused with 400 "Invalid OTP" before expiry is looked at, and nothing changes |
| Auth.VerifyOtpExpiredDeletes | server/controllers/authController.js:125-129 | a matching expired code deletes the record, so a later attempt for that id finds no user |
| Auth.VerifyOtpSingleUse | server/controllers/authController.js:123-136 | a matching unexpired code verifies the account and clears the code; the same code is then refused as invalid |
| Auth.VerifyOtpPreservesValid | server/controllers/authController.js:112-140 | verification keeps ids and emails unique and verified records without a pending code |
| Auth.LoginRejects | server/controllers/authController.js:143-160 | a missing email or password is 400 (and only then); with both given, an unknown normalised address is 404 "User not found" and a verified record with a non-matching password is 401 "Incorrect password" |
| Auth.LoginRejectsUnverified | server/controllers/authController.js:154-155 | an unverified account gets 401 whatever the password |
| Auth.LoginSucceedsIff | server/controllers/authController.js:143-175 | login succeeds exactly for a verified record of the normalised email with a matching password; the token is for that id and isAdmin is exact |
| Auth.BearerTokenRoundTrip | server/controllers/authController.js:189 | the `Bearer ` prefix is removed exactly once and a bare token passes through |
| Auth.RefreshSucceedsIff | server/controllers/authController.js:182-208 | refresh answers 200 exactly when the header's token verifies to an existing verified record, re-signing for that id; otherwise 401 |
| Auth.RegisterThenVerify | server/controllers/authController.js:36-136 | register a fresh email, then verify in time: exactly one record is added, verified and without a code |
| Auth.LoginThenRefresh | server/controllers/authController.js:143-205 | the login token, bare or prefixed, refreshes to a new token for the same account |
| Session.SetAuthToken | client/src/context/AppContext.jsx:20-29 | state, storage and default header agree afterwards; a falsy token clears both copies; other storage keys and the theme are untouched |
| Session.SetAuthTokenIdempotent | client/src/context/AppContext.jsx:20-29 | setting a token twice equals setting it once |
| Session.SetAuthTokenFixesInStep | client/src/context/AppContext.jsx:20-29 | a session whose copies agree is a fixed point of re-setting its own token |
| Session.CurrentToken | client/src/context/AppContext.jsx:38 | the state token when truthy, else the stored one, else empty |
| Session.Attach | client/src/context/AppContext.jsx:59-63 | a truthy captured token overrides the request's header; otherwise the header is kept |
| Session.RefreshHeader | client/src/context/AppContext.jsx:38-40 | the refresh request carries the current token when there is one, else the default header |
| Session.ErrorToast | client/src/context/AppContext.jsx:82-84 | a toast is shown exactly for status 400 or more, with the server's message when there is one |
| Session.React | client/src/context/AppContext.jsx:73-84 | a failed request is refreshed and retried exactly on a 401 without `_retry`; any other status of 400 or more is toasted with the error toast |
| Session.RefreshToken | client/src/context/AppContext.jsx:35-53 | as written, the call never returns exactly when the refresh endpoint answers 401; otherwise it sent the current token, returns a new token exactly on a successful reply with a truthy token and installs it, and clears the session on any other reply |
| Session.RefreshRefusedLoops | client/src/context/AppContext.jsx:35-78 | a refused refresh re-enters the interceptor and calls `refreshToken` again, so no number of nested calls ever returns |
| Session.RefreshCallsAgree | client/src/context/AppContext.jsx:35-53 | any reply but 401 is settled by the first call; allowing more nested calls changes nothing |
| Session.RefreshLive | client/src/context/AppContext.jsx:35-53 | the corrected refresh always returns: a token exactly on a successful reply, otherwise the server's error toast and a cleared session |
| Session.RefreshVersionsAgree | client/src/context/AppContext.jsx:35-53 | the two refresh versions agree exactly on the replies that are not 401 |
| Session.Send | client/src/context/AppContext.jsx:58-88 | a request is sent at most twice and refreshes at most once; the first attempt carries the interceptor's header; it never settles exactly when both it and the refresh get a 401 |
| Session.SendRetriesOnlyAfter401 | client/src/context/AppContext.jsx:73-78 | a refresh happens exactly after a 401; a second attempt happens exactly when that refresh returned a token; the request stays pending exactly when the refresh never returns |
| Session.SendOtherErrorNoRetry | client/src/context/AppContext.jsx:82-86 | any other error status is rejected at once with its error toast: no refresh, no retry, session unchanged |
| Session.SendRefreshFailureClears | client/src/context/AppContext.jsx:48-81 | a 401 whose refresh returns no token clears the session, shows the refresh's toasts then the expiry toast, and rejects; as written the same holds for every refresh reply but 401 |
| Session.SendRefusedRefresh | client/src/context/AppContext.jsx:35-81 | as written, a 401 whose refresh is refused with 401 stays pending with no toast and an untouched session; corrected, it rejects with the refusal's toast and the expiry toast and clears the session |
| Session.SendKeepsInStep | client/src/context/AppContext.jsx:58-88 | every outcome of either version keeps the token's three copies in step |
| Session.SendLive | client/src/context/AppContext.jsx:73-78 | the corrected request keeps the send and refresh bounds of `Send` and always settles |
| Session.SendLiveRetryCarriesNewToken | client/src/context/AppContext.jsx:75-78 | in the corrected version a retry carries exactly the refreshed token |
| Session.SendAgreesWithoutRetry | client/src/context/AppContext.jsx:67-88 | a request sent once behaves the same in both versions exactly when it does not stay pending |
| Session.StaleRetryWitness | client/src/context/AppContext.jsx:58-78 | as written, a 401 under token `old` that refreshes to `fresh` retries with `old` and fails; the corrected version succeeds |
| Session.StripQuotes | client/src/context/AppContext.jsx:129 | the result is an infix of the stored token, with only quotes outside it and no quote at either end |
| Session.StripQuotesKeeps | client/src/context/AppContext.jsx:129 | an unquoted token is kept as is, and stripping is idempotent |
| Session.InitialLoad | client/src/context/AppContext.jsx:126-134 | an empty or "undefined" stored token is ignored, any other is unquoted and installed in step; the stored theme is used, or light when none is stored |
| Session.ReloadKeepsToken | client/src/context/AppContext.jsx:127-130 | reloading after a token was set installs the same token |
| Session.ToggleTheme | client/src/context/AppContext.jsx:115-121 | the theme becomes light or dark, differs from before, is persisted, and the token is untouched |
| Session.ToggleTwice | client/src/context/AppContext.jsx:115-121 | toggling a light or dark theme twice restores it, and storage then holds it |
| AuthModal.OpenLogin | client/src/context/AuthContext.jsx:10 | shows the login modal and keeps the pending id |
| AuthModal.OpenSignup | client/src/context/AuthContext.jsx:11 | shows the signup modal and keeps the pending id |
| AuthModal.OpenOtp | client/src/context/AuthContext.jsx:12-15 | shows the OTP modal for exactly the given id |
| AuthModal.CloseModal | client/src/context/AuthContext.jsx:16 | hides the modal and keeps the pending id |
| AuthModal.CloseSignup | client/src/context/AuthContext.jsx:17 | the same effect as closeModal |
| AuthModal.CloseOtp | client/src/context/AuthContext.jsx:18-21 | returns to the initial state |
| AuthModal.CloseOtpUndoesOpenOtp | client/src/context/AuthContext.jsx:12-21 | closing the OTP modal undoes opening it, while closeModal keeps the id |
| AuthModal.RunMatchesReference | client/src/context/AuthContext.jsx:7-21 | after any actions, the modal is the one the last action shows and the pending id is that of the last openOTP not followed by closeOTP |
| SignupForm.ValidatePassword | client/src/components/auth/SignupModal.jsx:45-52 | none exactly when all five rules hold; otherwise the first failing rule in order |
| SignupForm.Run8IsLength | client/src/components/auth/SignupModal.jsx:46 | without line breaks, `/.{8,}/` is exactly "at least 8 characters" |
| SignupForm.ValidateAgreesWithLiveChecks | client/src/components/auth/SignupModal.jsx:26-52 | an accepted password passes the live checklist, and without line breaks the two agree |
| SignupForm.LineBreakDefeatsLength | client/src/components/auth/SignupModal.jsx:27-46 | a ten-character password with a line break passes the live checks but fails validation |
| SignupForm.Submit | client/src/components/auth/SignupModal.jsx:54-88 | a request is sent iff the password is valid and confirmed; rule errors come before a mismatch; success opens the OTP modal for the returned id |
| SignupForm.SubmittedFormIsLiveValid | client/src/components/auth/SignupModal.jsx:26-72 | a submitted form has a matching confirmation and satisfies every live check |
| Subscribers.ValidEmailIsRegex | server/controllers/subscriberController.js:40 | the email check is exactly the regular expression `^[^@\s]+@[^@\s]+\.[^@\s]+$` |
| Subscribers.FindEmail | server/controllers/subscriberController.js:44 | the first subscriber with that email, and none only when there is none |
| Subscribers.Subscribe | server/controllers/subscriberController.js:37-145 | bad emails get 400; a known valid email gets 200 "Already subscribed", is reactivated and gets no welcome; a valid new email gets 200 with the success message, is appended as an active subscriber under the new id and is welcomed; deliveries are never touched |
| Subscribers.SubscribeExistingChangesOnlyActive | server/controllers/subscriberController.js:44-51 | a known email creates nothing and changes only that record's active flag |
| Subscribers.SubscribeIdempotent | server/controllers/subscriberController.js:37-51 | subscribing twice has the effect of subscribing once |
| Subscribers.SubscribePreservesValid | server/controllers/subscriberController.js:44-54 | ids and emails stay unique |
| Subscribers.SendEmailWithRetry | server/controllers/subscriberController.js:19-35 | at most retries+1 attempts, stopping at the first success; the i-th pause is 1000·(i+1) ms; total failure throws the last error |
| Subscribers.Active | server/controllers/subscriberController.js:150 | exactly the active subscribers |
| Subscribers.Notify | server/controllers/subscriberController.js:156-234 | every target without a delivery of this blog is mailed; a delivery is recorded only for a mail that went out |
| Subscribers.NotifySubscribers | server/controllers/subscriberController.js:148-240 | subscribers unchanged, deliveries only appended, nothing at all when no one is active |
| Subscribers.NotifyTargetsActiveUndelivered | server/controllers/subscriberController.js:150-160 | only active subscribers without a delivery of this blog are mailed |
| Subscribers.NotifyAgainSkipsDelivered | server/controllers/subscriberController.js:159-229 | a second run for the same blog skips everyone whose mail was delivered |
| Subscribers.Unrelated | server/controllers/subscriberController.js:296-307 | after both cleanups, exactly the deliveries mentioning neither the email nor the id remain |
| Subscribers.UnsubscribeAsWritten | server/controllers/subscriberController.js:244-450 | as written, a missing email ends in the catch block's 500 page with nothing changed |
| Subscribers.Unsubscribe | server/controllers/subscriberController.js:242-312 | missing email gives 400, unknown gives 404; success removes the subscriber and its deliveries |
| Subscribers.UnsubscribeMissingEmailStatus | server/controllers/subscriberController.js:245-246 | the two versions differ only in 500 versus 400 for a missing email, neither changing the store |
| Subscribers.UnsubscribeRemovesSubscriber | server/controllers/subscriberController.js:270-309 | in a valid store the one record with that email goes and every other stays |
| Subscribers.SubscribeThenUnsubscribe | server/controllers/subscriberController.js:37-309 | subscribing a new email then unsubscribing restores the database |
| Ai.ListOrEmpty | server/controllers/aiController.js:45-47 | a non-empty list passes through, an absent or empty one becomes `[]` |
| Ai.GenerateResumeAsWritten | server/controllers/aiController.js:23-58 | as written, a request without a summary reaches the undefined helper and is answered 500 |
| Ai.GenerateResume | server/controllers/aiController.js:23-56 | 400 exactly when data, fullName or email is missing; otherwise the resume keeps personal, adds `enhanced` (title or "Professional") and normalises the lists; `generatedAt` is the clock reading `now` |
| Ai.ResumeVersionsAgreeWithSummary | server/controllers/aiController.js:44 | both versions agree whenever a summary is given |
| Ai.GenerateResumeIdempotent | server/controllers/aiController.js:39-49 | feeding a generated resume back in, at any later time, yields the same resume with only `generatedAt` renewed |
| Ai.SelectVoice | server/controllers/aiController.js:227-229 | an explicit voice name wins, English gets the neural default voice, anything else its language code (hi becomes hi-IN), so a language-only voice is never bare `en` nor bare `hi` |
| Ai.GenerateTts | server/controllers/aiController.js:213-229 | unusable text gives 400, before a missing key's 501; otherwise the text is synthesised with `SelectVoice` |
| Ai.LangCode | server/controllers/aiController.js:226 | hi becomes hi-IN, en becomes en-US, any other code is passed on unchanged |
| Ai.ParsePoints | server/controllers/aiController.js:366-370 | every parsed point is non-empty, trimmed and single-line |
| Ai.StripMarker | server/controllers/aiController.js:369 | the point left after the number and its `.` or `)` is trimmed and shorter than the line |
| Ai.Points | server/controllers/aiController.js:366-370 | one point at most per line, each non-empty and trimmed |
| Ai.PointsAppend | server/controllers/aiController.js:366-370 | the points of two blocks of lines are the points of the first followed by those of the second, so line order is kept |
| Ai.PointsMembers | server/controllers/aiController.js:366-370 | a string is a point exactly when it is the non-empty, marker-stripped, trimmed text of some numbered line |
| Ai.ParsePointsMembers | server/controllers/aiController.js:366-370 | a point of a reply is exactly the non-empty stripped text of one of the reply's numbered lines |
| Ai.StripMarkerOfMarker | server/controllers/aiController.js:367-368 | digits followed by `.` or by `)` both start a numbered line, and stripping leaves the rest of the line trimmed |
| Ai.ParseFormattedPoints | server/controllers/aiController.js:366-370 | parsing a numbered list of single-line trimmed points gives the points back |
| Ai.PointsOfNumbered | server/controllers/aiController.js:366-370 | numbering single-line trimmed points from any start and reading the lines back gives the points |
| Ai.Sentences | server/controllers/aiController.js:399-403 | the candidates are exactly the first min(10, n) of the n trimmed pieces longer than 15 characters, in order; each is free of sentence-ending punctuation |
| Ai.LongSentences | server/controllers/aiController.js:399-402 | at most one sentence per piece, each trimmed, longer than 15 characters and free of `.`, `!`, `?` |
| Ai.LongSentencesAppend | server/controllers/aiController.js:399-402 | filtering the pieces of a concatenation is filtering each part, in order |
| Ai.LongSentencesMembers | server/controllers/aiController.js:399-402 | a string is kept exactly when it is the trimmed form, longer than 15, of some piece |
| Ai.SentencesFromContent | server/controllers/aiController.js:399-403 | every candidate is a long trimmed piece of the content; with fewer than ten candidates every such piece is one |
| Ai.WordGroupsCoverWords | server/controllers/aiController.js:407-410 | the five word chunks, concatenated, are exactly the words |
| Ai.WordGroups | server/controllers/aiController.js:406-410 | the words always fall into exactly five groups |
| Ai.ShortenChunk | server/controllers/aiController.js:411 | a chunk of more than 10 characters becomes its first 120 plus "..."; a shorter one is kept; at most 123 characters |
| Ai.ChunkPoints | server/controllers/aiController.js:405-412 | at most five chunk points, each non-empty and at most 123 characters |
| Ai.Truncate150 | server/controllers/aiController.js:428 | points of at most 150 characters are kept; longer ones become their first 150 plus "..." |
| Ai.PickFrom | server/controllers/aiController.js:425-431 | the first pass appends only distinct truncated sentences, after what was selected |
| Ai.Fill | server/controllers/aiController.js:434-439 | the corrected top-up adds distinct truncated sentences until five points or until every sentence is used |
| Ai.TopUpAsWritten | server/controllers/aiController.js:434-439 | when the written loop ends on a non-empty sentence list, it holds five points; it only appends, so the points picked before it stay first, no point appears twice, and from at most five picks it never goes past five |
| Ai.FallbackSummaryAsWritten | server/controllers/aiController.js:397-442 | the fallback as written: under five sentences, the word chunks; otherwise, once the top-up finishes, exactly five distinct points that start with the fixed picks, so the cut to seven at line 441 never removes a point |
| Ai.TopUpStuck | server/controllers/aiController.js:434-439 | when every sentence is already selected and fewer than five are, no sequence of draws ends the loop |
| Ai.RepeatedSentenceNeverFinishes | server/controllers/aiController.js:416-439 | content of five copies of one sentence never finishes as written |
| Ai.LongPointAfterTopUp | server/controllers/aiController.js:437 | as written, the top-up can add an untruncated sentence longer than 153 characters |
| Ai.Select | server/controllers/aiController.js:415-441 | corrected selection: at most five distinct points from the sentences, each at most 153 characters, all used when fewer than five |
| Ai.FallbackSummary | server/controllers/aiController.js:397-442 | at most five non-empty points of at most 153 characters; with five or more sentences, distinct and drawn from them |
| Ai.FallbackVersionsAgree | server/controllers/aiController.js:397-442 | whenever the first pass already yields five points or chunking applies, the written and corrected versions agree |
| Ai.CleanContent | server/controllers/aiController.js:331-334 | the first min(2000, n) characters of the sanitised content: no leading space, whitespace collapsed |
| Ai.CleanContentOfPlainText | server/controllers/aiController.js:331-334 | plain text without tags or entities, trimmed, collapsed and at most 2000 characters long is its own cleaned form |
| Ai.BlogSummary | server/controllers/aiController.js:322-390 | the request is rejected, with 400 and "Blog title and content are required", exactly when the title or the content is missing or empty; five or more parsed model points are used as they are, otherwise the corrected fallback summary of the cleaned content; every point is non-empty |
| Ai.BlogSummaryAsWritten | server/controllers/aiController.js:322-390 | the handler on the fallback as written: missing title or content is rejected with 400; a valid request with five or more model points gets them; otherwise it gets the as-written fallback's points once its top-up finishes; there is no reply exactly when the request is valid, the model gave fewer than five points and the top-up has not finished |
| Ai.BlogSummaryVersionsAgree | server/controllers/aiController.js:322-390 | both versions give the same reply whenever the random top-up is not reached |
| Text.Sanitize | client/src/Pages/Blog.jsx:192-193 | the sanitised text is trimmed and has every whitespace run collapsed to one space |
| Text.CollapseSpacesOfCollapsed | client/src/Pages/Blog.jsx:193 | collapsing whitespace that is already collapsed changes nothing |
| Blog.Find | client/src/Pages/Blog.jsx:156 | the first voice satisfying the test, and none only when no voice does |
| Blog.Filter | client/src/Pages/Blog.jsx:152-153 | exactly the voices of the list that pass the test |
| Blog.FindIn | client/src/Pages/Blog.jsx:160-166 | the preferred names are tried in list order: the result is the first voice matching the first name that any voice matches, and none only when no voice matches any name |
| Blog.Fallback | client/src/Pages/Blog.jsx:174-178 | the first en-us voice, else the first en voice, else the first heuristic match, else the first voice |
| Blog.PickUnselected | client/src/Pages/Blog.jsx:159-178 | among the en-us voices, if any is preferred, the first voice for the first preferred name matched there; else the same among the en voices; else `Fallback` |
| Blog.PickVoice | client/src/Pages/Blog.jsx:149-179 | none exactly for an empty list; otherwise a voice of the list, the selected one when present |
| Blog.PickVoicePriority | client/src/Pages/Blog.jsx:149-179 | the full priority order of the voice choice when no selected voice applies |
| Blog.SplitAtBreaks | client/src/Pages/Blog.jsx:197-198 | splitting yields at least one piece |
| Blog.SplitAtBreaksJoin | client/src/Pages/Blog.jsx:197-198 | on collapsed text, joining the pieces with a space gives the text back |
| Blog.SplitAtBreaksWhole | client/src/Pages/Blog.jsx:196-197 | the text stays one piece exactly when the split expression matches nowhere in it |
| Blog.SplitAtBreaksAtFirst | client/src/Pages/Blog.jsx:196-197 | the first piece is the text before the leftmost split point, and the rest are the pieces of what follows that whitespace run |
| Blog.SplitAtBreaksPiece | client/src/Pages/Blog.jsx:196-197 | no piece holds a split point of its own |
| Blog.SplitAtBreaksPieces | client/src/Pages/Blog.jsx:196-197 | every piece is free of split points |
| Blog.SplitAtBreaksLeading | client/src/Pages/Blog.jsx:342 | every piece but the last is non-empty, since a split point never sits at the start |
| Text.SplitRuns | server/controllers/aiController.js:400 | at least one piece; no piece holds a separator; the pieces concatenated are the text with every separator removed |
| Text.SplitRunsWhole | server/controllers/aiController.js:400 | the text stays one piece exactly when it holds no separator |
| Text.SplitRunsAtRun | server/controllers/aiController.js:400 | the first piece is the text before the first maximal run of separators, and the rest are the pieces of what follows that run |
| Blog.TrimNonEmpty | client/src/Pages/Blog.jsx:198 | the pieces kept are non-empty and trimmed, at most one per input |
| Blog.TrimNonEmptyAppend | client/src/Pages/Blog.jsx:198 | trimming and filtering a concatenation is doing so to each part, in order |
| Blog.TrimNonEmptyMembers | client/src/Pages/Blog.jsx:198 | a string is kept exactly when it is the non-empty trimmed form of some piece |
| Blog.FullText | client/src/Pages/Blog.jsx:194 | with a title, the text is the title, ". " and the sanitised body; without one, the sanitised body alone |
| Blog.SentencePieces | client/src/Pages/Blog.jsx:197-198 | the pieces are non-empty and trimmed, at most one per part between sentence breaks |
| Blog.SentencePiecesFromText | client/src/Pages/Blog.jsx:194-198 | a string is a piece exactly when it is the non-empty trimmed form of a part of the text between breaks |
| Blog.SlicesCover | client/src/Pages/Blog.jsx:207-209 | the 450-character slices are non-empty, at most 450 long, and concatenate to the chunk |
| Blog.CutSlices | client/src/Pages/Blog.jsx:207-209 | the slicing loop yields exactly the consecutive 450-character slices of the piece |
| Blog.FinalChunks | client/src/Pages/Blog.jsx:200-211 | each piece in turn gives one chunk when at most 450 long, and its consecutive 450-character slices otherwise; every chunk is at most 450 long and nothing is lost or reordered |
| Blog.UtterancesCover | client/src/Pages/Blog.jsx:200-211 | the chunks are at most 450 long, non-empty when the pieces are, concatenate back to the pieces, and are the pieces themselves when none is longer than 450 |
| Blog.UtterancesAppend | client/src/Pages/Blog.jsx:200-211 | the chunks of two runs of pieces are the chunks of the first followed by those of the second, so each piece is chunked on its own |
| Blog.SpeechChunks | client/src/Pages/Blog.jsx:182-211 | an empty text is not read; otherwise each sentence piece gives one utterance, or its 450-character slices when longer, and every utterance is non-empty and at most 450 long |
| Blog.CompactSummary | client/src/Pages/Blog.jsx:338-347 | a list is kept; a string with two or more non-empty sentences becomes exactly its first min(3, n) of them, in order; a string with at most one is kept as it is |
| Blog.CompactSummaryIdempotent | client/src/Pages/Blog.jsx:338-347 | compacting a compacted summary changes nothing |
| Blog.CompactSummaryLeading | client/src/Pages/Blog.jsx:338-347 | the points of a compacted text are its leading sentence pieces, and on collapsed text they read, joined by a space, as the start of the text |
| Blog.NonEmptyPartsOfLeading | client/src/Pages/Blog.jsx:342 | when only the last piece may be empty, dropping empty pieces leaves a prefix of the pieces |
| Blog.HqText | client/src/Pages/Blog.jsx:274-275 | the HQ text is at most 20000 characters |
| Blog.HqRequestAccepted | client/src/Pages/Blog.jsx:274-279 | with a key and a title under the cap, the server accepts the HQ text and reads it with the default English voice |
| ResumeBuilder.Next | client/src/Pages/ResumeBuilder.jsx:84 | one step forward, never past step 4 |
| ResumeBuilder.Back | client/src/Pages/ResumeBuilder.jsx:85 | one step back, never before step 1 |
| ResumeBuilder.NextBackInverse | client/src/Pages/ResumeBuilder.jsx:84-85 | forward then back (and back then forward) returns to the step, except at the ends |
| ResumeBuilder.PressesStayInRange | client/src/Pages/ResumeBuilder.jsx:54-85 | any sequence of presses keeps the step in [1, 4], and the step moves by no more than the number of presses |
| ResumeBuilder.UpdatePersonal | client/src/Pages/ResumeBuilder.jsx:64-69 | only the named personal field changes, to the new value |
| ResumeBuilder.UpdatePersonalOverwrites | client/src/Pages/ResumeBuilder.jsx:64-69 | the later update of a field wins; updates of different fields commute |
| ResumeBuilder.UpdateExperience | client/src/Pages/ResumeBuilder.jsx:71-75 | only that field of that entry changes; the list keeps its length |
| ResumeBuilder.UpdateExperienceSameValue | client/src/Pages/ResumeBuilder.jsx:71-75 | writing back a field's own value changes nothing |
| ResumeBuilder.AddExperience | client/src/Pages/ResumeBuilder.jsx:77-82 | exactly one default entry ending "Present" is appended; existing entries stay |
| ResumeBuilder.AddThenUpdateExperience | client/src/Pages/ResumeBuilder.jsx:71-82 | editing the entry just added changes only that entry; the earlier entries and the rest of the form are as before the addition |
| ResumeBuilder.SplitSkills | client/src/Pages/ResumeBuilder.jsx:176 | one skill per comma-separated piece, each trimmed and comma-free |
| ResumeBuilder.ClearedSkills | client/src/Pages/ResumeBuilder.jsx:176 | clearing the input leaves one empty skill, not an empty list |
| ResumeBuilder.SkillsRoundTrip | client/src/Pages/ResumeBuilder.jsx:175-176 | showing a list of trimmed comma-free skills and reading it back gives the same list |
| FeatureMenu.NonBlank | client/src/components/FeatureMenu.jsx:36 | exactly the non-blank pieces are kept |
| FeatureMenu.NonBlankAppend | client/src/components/FeatureMenu.jsx:36 | filtering a concatenation is filtering each part, in order |
| FeatureMenu.Sentences | client/src/components/FeatureMenu.jsx:35-36 | the sentences are the non-blank pieces between runs of `.`, `!`, `?` of the tag-free content, in order; each is free of those characters |
| FeatureMenu.KeptSentences | client/src/components/FeatureMenu.jsx:37 | the first ceil(n/3) sentences, in order |
| FeatureMenu.Summarize | client/src/components/FeatureMenu.jsx:31-41 | empty content gives no summary; otherwise the kept sentences joined by ". " and closed with a period, so that without punctuation it is the kept sentences separated by spaces |
| FeatureMenu.SummaryKeepsAThird | client/src/components/FeatureMenu.jsx:37 | at least a third of the sentences are kept and fewer than a third plus one; any sentence at all gives at least one |
| FeatureMenu.PunctuationOnly | client/src/components/FeatureMenu.jsx:35-37 | content of punctuation only summarises to a lone period |
| FeatureMenu.HandleFeature | client/src/components/FeatureMenu.jsx:63-71 | the id is always recorded; the three known ids run their handlers with their own error cases; any other id reports "Feature not available" |
| FeatureMenu.HandleFeatureReads | client/src/components/FeatureMenu.jsx:63-71 | a button's outcome depends only on what its handler reads: nothing for resume and unknown ids, the title and the summary for summarize, whether a title is given for image generation |

## Left out

- **I/O and rendering.** PDF generation (`downloadResume`), the files written by
  TTS and image generation, the image endpoint, all rendering, toasts as UI,
  animation and routing are left out. The toast text is kept where it is the
  observable result.
- **External services.** The HTTP calls to OpenAI, Google TTS and the
  speech-synthesis engine are replaced by their outcome as a parameter. Their
  payloads are not modelled.
- **Persistence.** Mongoose and the database are a sequence of records. A
  database error inside a handler (the generic 500 catch) is not modelled. For
  the newsletter, a failing `Delivery.findOne`, `Delivery.create` or
  `deleteMany` is not modelled either; those are logged and skipped.
- **Timing.** Timers and asynchrony are left out. The fire-and-forget welcome
  and notification mails are modelled as completed in loop order, with their
  outcome as a parameter. The `setTimeout` delays are recorded, not awaited.
  React state updates are applied immediately, except where the stale closure
  matters (the interceptor retry).
- **Characters and case.** Characters are Unicode code points, where
  JavaScript's `length` and `slice` count UTF-16 code units. Lower-casing
  covers ASCII letters only. `\s` is the JavaScript whitespace set.
- **Environment values.** The Subscriber schema is not part of this model.
  `isActive` of a created subscriber is taken to default to `true`.
  `process.env` values are parameters.
- **Uncovered response cases.** A language of `null` in the TTS request is not
  modelled. A 3xx status that reaches the response interceptor is rejected
  without a toast; redirects the browser follows itself are not modelled.
- Auth.Register: the function itself has no contract; its behaviour is stated
  case by case in the `Register…` lemmas, because one contract would have to
  repeat the handler.
- Ai.Fill: the corrected top-up takes unused sentences in order rather than at
  random, because with random draws a fixed number of draws cannot promise to
  end. The set of points it can add is the same.
- ResumeBuilder.UpdateExperience: requires an index of an existing entry. The
  page only calls it from the rendered entries, and writing past the end of a
  JavaScript array (which makes a sparse array) is not modelled.
- Blog.HqRequestAccepted: requires a title shorter than the 20000-character
  cap. A longer title made only of whitespace would be refused with 400.
- Session.RefreshToken: the refresh endpoint is a function of the header, so a
  nested call meets the same reply as the first. A server that answered a
  repeated refresh differently is not modelled.

## Findings

| source | as written | input that shows it | evidently intended | confidence | as-written member | corrected member |
|---|---|---|---|---|---|---|
| server/controllers/aiController.js:44 | a missing summary calls `generateDefaultSummary`, which is defined nowhere, so the request fails with 500 | `resumeData = { personal: { fullName: "A", email: "a@b.c" } }` | a default summary built from the professional title | high, not executed | Ai.GenerateResumeAsWritten | Ai.GenerateResume |
| server/controllers/aiController.js:434-439 | the top-up loop draws until it finds an unselected sentence, and there may be none | content whose sentences are five copies of one 20-character sentence | stop when every sentence is selected | high, not executed | Ai.RepeatedSentenceNeverFinishes | Ai.FallbackSummary |
| server/controllers/aiController.js:437 | the truncated point is computed and discarded, so the top-up can add a point of any length | sentences `[a, a, b, c, d]` with `a` longer than 153 characters | `point = point.substring(0, 150) + '...'` as in the first pass | high, not executed | Ai.LongPointAfterTopUp | Ai.FallbackSummary |
| server/controllers/subscriberController.js:245-246 | `res.status(400).html(...)` is not an Express method; the TypeError becomes the 500 error page | `GET /unsubscribe` without `email` | `res.status(400).send(...)`, the "Email address is required" page | high, not executed | Subscribers.UnsubscribeAsWritten | Subscribers.Unsubscribe |
| client/src/context/AppContext.jsx:58-78 | the retried request goes back through the request interceptor, which still holds the token of the last render and overwrites the refreshed header | session token `old` answered 401; refresh returns `fresh`; the server rejects `old` | the retry carries the refreshed token | medium (depends on React re-render timing), not executed | Session.StaleRetryWitness | Session.SendLive |
| client/src/context/AppContext.jsx:35-81 | the refresh request goes through the same response interceptor without `_retry`; the endpoint refuses with 401, so the interceptor awaits a nested `refreshToken()` that is refused again, for ever; only a network error clears the session | a stored token for a user deleted since, so the refresh endpoint answers 401 "User not found or not verified" | a refused refresh clears the session, shows the expiry toast and rejects the request | high, not executed | Session.SendRefusedRefresh | Session.SendLive |

=== FILE: ai.dfy ===
/**
 * The text logic of `server/controllers/aiController.js`: resume
 * normalisation, the input check and voice choice of the TTS endpoint,
 * parsing of the numbered points an AI model returns, and the extractive
 * fallback summary. HTTP calls to external services are replaced by their
 * outcome, supplied by the caller.
 */
module Ai {
  import opened Wrappers
  import opened Text

  // ----------------------------------------------------------------------
  // generateResume
  // ----------------------------------------------------------------------

  /** A JSON object with string fields (`personal`, an experience or education entry). */
  type Record = map<string, string>

  datatype ResumeData = ResumeData(personal: Option<Record>, experience: Option<seq<Record>>,
                                   education: Option<seq<Record>>, skills: Option<seq<string>>,
                                   summary: Option<string>)

  /** `generatedAt` is the handler's clock reading, in milliseconds. */
  datatype Resume = Resume(personal: Record, summary: string, experience: seq<Record>,
                           education: seq<Record>, skills: seq<string>, generatedAt: int)

  datatype ResumeReply = ResumeRejected(status: nat, message: string) | ResumeGenerated(resume: Resume)

  /** A field that is present and truthy. */
  predicate HasField(r: Record, key: string) { key in r && r[key] != "" }

  /** `personal.professionalTitle`, when truthy. */
  function Title(r: Record): Option<string> {
    if HasField(r, "professionalTitle") then Some(r["professionalTitle"]) else None
  }

  /** `xs && xs.length > 0 ? xs : []` */
  function ListOrEmpty<T>(xs: Option<seq<T>>): (r: seq<T>)
    ensures xs.Some? && xs.value != [] ==> r == xs.value
    ensures xs.None? || xs.value == [] ==> r == []
  {
    if xs.Some? && |xs.value| > 0 then xs.value else []
  }

  /** The checks that precede formatting; `None` when the request may proceed. */
  function ResumeCheck(data: Option<ResumeData>): Option<ResumeReply> {
    if data.None? then Some(ResumeRejected(400, "Resume data is required"))
    else if data.value.personal.None? || !HasField(data.value.personal.value, "fullName")
            || !HasField(data.value.personal.value, "email") then
      Some(ResumeRejected(400, "Personal details (fullName, email) are required"))
    else None
  }

  /** The formatted resume, given the summary it ends up with and the time `now`. */
  function Format(d: ResumeData, summary: string, now: int): Resume
    requires d.personal.Some?
  {
    var p := d.personal.value;
    Resume(p["enhanced" := Title(p).GetOr("Professional")], summary,
           ListOrEmpty(d.experience), ListOrEmpty(d.education), ListOrEmpty(d.skills), now)
  }

  predicate HasSummary(d: ResumeData) { d.summary.Some? && d.summary.value != "" }

  const UndefinedHelper: string := "generateDefaultSummary is not defined"

  /**
   * `generateResume` as written: when no summary is supplied the handler
   * calls `generateDefaultSummary`, which is defined nowhere; the resulting
   * ReferenceError is answered with status 500 and its message.
   */
  function GenerateResumeAsWritten(data: Option<ResumeData>, now: int): (r: ResumeReply)
    ensures ResumeCheck(data).Some? ==> r == ResumeCheck(data).value
    ensures ResumeCheck(data).None? && !HasSummary(data.value) ==> r == ResumeRejected(500, UndefinedHelper)
  {
    if ResumeCheck(data).Some? then ResumeCheck(data).value
    else if !HasSummary(data.value) then ResumeRejected(500, UndefinedHelper)
    else ResumeGenerated(Format(data.value, data.value.summary.value, now))
  }

  /**
   * `generateResume` as intended: a missing summary is produced by
   * `defaultSummary` from the professional title. `now` is `new Date()`.
   */
  function GenerateResume(data: Option<ResumeData>, defaultSummary: Option<string> -> string, now: int): (r: ResumeReply)
    ensures r.ResumeRejected? <==> ResumeCheck(data).Some?
    ensures r.ResumeRejected? ==> r.status == 400
    ensures r.ResumeGenerated? ==>
      var d := data.value; var p := d.personal.value;
      && r.resume.personal == p["enhanced" := if HasField(p, "professionalTitle") then p["professionalTitle"] else "Professional"]
      && r.resume.summary == (if HasSummary(d) then d.summary.value else defaultSummary(Title(p)))
      && (d.experience.Some? && d.experience.value != [] ==> r.resume.experience == d.experience.value)
      && (d.experience.None? || d.experience.value == [] ==> r.resume.experience == [])
      && (d.education.Some? && d.education.value != [] ==> r.resume.education == d.education.value)
      && (d.education.None? || d.education.value == [] ==> r.resume.education == [])
      && (d.skills.Some? && d.skills.value != [] ==> r.resume.skills == d.skills.value)
      && (d.skills.None? || d.skills.value == [] ==> r.resume.skills == [])
      && r.resume.generatedAt == now
  {
    if ResumeCheck(data).Some? then ResumeCheck(data).value
    else
      var d := data.value;
      ResumeGenerated(Format(d, if HasSummary(d) then d.summary.value else defaultSummary(Title(d.personal.value)), now))
  }

  /** Both versions agree whenever a summary is supplied. */
  lemma ResumeVersionsAgreeWithSummary(data: Option<ResumeData>, defaultSummary: Option<string> -> string, now: int)
    requires data.Some? && HasSummary(data.value)
    ensures GenerateResumeAsWritten(data, now) == GenerateResume(data, defaultSummary, now)
  {
  }

  /**
   * A resume that was generated, sent back later with its own summary, is
   * generated unchanged apart from its time stamp.
   */
  lemma {:induction false} GenerateResumeIdempotent(data: Option<ResumeData>, defaultSummary: Option<string> -> string,
                                                    now: int, later: int)
    requires GenerateResume(data, defaultSummary, now).ResumeGenerated?
    requires GenerateResume(data, defaultSummary, now).resume.summary != ""
    ensures var r := GenerateResume(data, defaultSummary, now).resume;
      GenerateResume(Some(ResumeData(Some(r.personal), Some(r.experience), Some(r.education),
                                     Some(r.skills), Some(r.summary))), defaultSummary, later)
      == ResumeGenerated(r.(generatedAt := later))
  {
    var r := GenerateResume(data, defaultSummary, now).resume;
    var p := data.value.personal.value;
    assert "fullName" != "enhanced" && "email" != "enhanced" && "professionalTitle" != "enhanced";
    assert Title(r.personal) == Title(p);
    var e := Title(p).GetOr("Professional");
    assert r.personal["enhanced" := e] == r.personal;
  }

  // ----------------------------------------------------------------------
  // generateTTS
  // ----------------------------------------------------------------------

  /** The `text` field of the request body: a string or some other JSON value. */
  datatype TextValue = Str(s: string) | NotAString

  /** `language` and `voiceName` are `None` when absent (their defaults `'en'` and `''` apply). */
  datatype TtsRequest = TtsRequest(text: Option<TextValue>, language: Option<string>, voiceName: Option<string>)

  datatype Voice = ByName(name: string) | ByLanguage(languageCode: string)

  /** Either a rejection, or the synthesis request that is sent to the speech service. */
  datatype TtsReply = TtsRejected(status: nat, message: string) | TtsSynthesize(text: string, voice: Voice)

  const DefaultEnglishVoice: string := "en-US-Neural2-J"

  /** Language tag sent to the speech service. */
  function LangCode(language: string): (c: string)
    ensures language == "hi" ==> c == "hi-IN"
    ensures language == "en" ==> c == "en-US"
    ensures language != "hi" && language != "en" ==> c == language
  {
    if language == "hi" then "hi-IN" else if language == "en" then "en-US" else language
  }

  /** Voice choice: an explicit name, else the neural English voice for `en`, else the language alone. */
  function SelectVoice(language: string, voiceName: string): (v: Voice)
    ensures voiceName != "" ==> v == ByName(voiceName)
    ensures voiceName == "" && language == "en" ==> v == ByName(DefaultEnglishVoice)
    ensures voiceName == "" && language != "en" ==> v == ByLanguage(LangCode(language))
    ensures v.ByLanguage? ==> v.languageCode != "en" && v.languageCode != "hi"
  {
    if voiceName != "" then ByName(voiceName)
    else if language == "en" then ByName(DefaultEnglishVoice)
    else ByLanguage(LangCode(language))
  }

  /** The text is present, a string, and not all whitespace. */
  predicate UsableText(t: Option<TextValue>) {
    t.Some? && t.value.Str? && Trim(t.value.s) != ""
  }

  /**
   * `generateTTS` up to the call to the speech service: 400 for unusable
   * text, then 501 when no API key is configured.
   */
  function GenerateTts(req: TtsRequest, apiKey: Option<string>): (r: TtsReply)
    ensures !UsableText(req.text) ==> r == TtsRejected(400, "Text is required for TTS")
    ensures UsableText(req.text) && (apiKey.None? || apiKey.value == "") ==> r.TtsRejected? && r.status == 501
    ensures r.TtsSynthesize? <==> UsableText(req.text) && apiKey.Some? && apiKey.value != ""
    ensures r.TtsSynthesize? ==>
      r.text == req.text.value.s && r.voice == SelectVoice(req.language.GetOr("en"), req.voiceName.GetOr(""))
  {
    if !UsableText(req.text) then TtsRejected(400, "Text is required for TTS")
    else if apiKey.None? || apiKey.value == "" then
      TtsRejected(501, "Server-side TTS not configured. Set GOOGLE_TTS_API_KEY in .env.")
    else TtsSynthesize(req.text.value.s, SelectVoice(req.language.GetOr("en"), req.voiceName.GetOr("")))
  }

  // ----------------------------------------------------------------------
  // Numbered points returned by the model
  // ----------------------------------------------------------------------

  /** The length of the run of decimal digits at the start of `s`. */
  function DigitRun(s: string): (n: nat)
    ensures n <= |s|
    ensures forall k :: 0 <= k < n ==> IsDigit(s[k])
    ensures n == |s| || !IsDigit(s[n])
  {
    if |s| > 0 && IsDigit(s[0]) then 1 + DigitRun(s[1..]) else 0
  }

  /** `/^\d+\.|^\d+\)/.test(line)` */
  predicate IsNumbered(line: string) {
    var n := DigitRun(line);
    0 < n < |line| && (line[n] == '.' || line[n] == ')')
  }

  /**
   * The marker removal and trim of a numbered line. The replaced pattern
   * (digits then `.`, or digits then `)`, then whitespace) first matches at
   * the start of such a line, so the marker and the whitespace after it go.
   */
  function StripMarker(line: string): (p: string)
    requires IsNumbered(line)
    ensures IsTrimmed(p) && |p| < |line|
  {
    Trim(line[DigitRun(line) + 1..])
  }

  /** Keep numbered lines, strip their markers, drop what is left empty. */
  function Points(lines: seq<string>): (ps: seq<string>)
    ensures |ps| <= |lines|
    ensures forall k :: 0 <= k < |ps| ==> ps[k] != "" && IsTrimmed(ps[k])
  {
    if lines == [] then []
    else
      var rest := Points(lines[1..]);
      if !IsNumbered(lines[0]) then rest
      else
        var p := StripMarker(lines[0]);
        if p == "" then rest else [p] + rest
  }

  /** The points of a model reply: its lines, numbered ones only, markers removed. */
  function ParsePoints(reply: string): (ps: seq<string>)
    ensures forall k :: 0 <= k < |ps| ==> ps[k] != "" && IsTrimmed(ps[k]) && '\n' !in ps[k]
  {
    var lines := Split(reply, '\n');
    var ps := Points(lines);
    PointsInLines(lines);
    ps
  }

  lemma {:induction false} PointsInLines(lines: seq<string>)
    requires forall k :: 0 <= k < |lines| ==> '\n' !in lines[k]
    ensures forall k :: 0 <= k < |Points(lines)| ==> '\n' !in Points(lines)[k]
    decreases |lines|
  {
    if lines != [] {
      PointsInLines(lines[1..]);
      if IsNumbered(lines[0]) {
        var l := lines[0][DigitRun(lines[0]) + 1..];
        assert NoneIn(l, {'\n'});
        NoneInTrim(l, {'\n'});
      }
    }
  }

  /** Keeping points distributes over concatenation, so the lines' order is kept. */
  lemma {:induction false} PointsAppend(a: seq<string>, b: seq<string>)
    ensures Points(a + b) == Points(a) + Points(b)
    decreases |a|
  {
    if a != [] {
      var h := if IsNumbered(a[0]) && StripMarker(a[0]) != "" then [StripMarker(a[0])] else [];
      AppendHead(a, b);
      assert Points(a + b) == h + Points(a[1..] + b);
      assert Points(a) == h + Points(a[1..]);
      PointsAppend(a[1..], b);
      AppendAssoc(h, Points(a[1..]), Points(b));
    } else {
      assert a + b == b;
    }
  }

  /** `p` is what is left, non-empty, of a numbered line among `lines` once its marker is stripped. */
  predicate PointFrom(p: string, lines: seq<string>) {
    exists k :: 0 <= k < |lines| && IsNumbered(lines[k]) && p == StripMarker(lines[k]) && p != ""
  }

  lemma PointFromLine(lines: seq<string>, k: nat, p: string)
    requires k < |lines| && IsNumbered(lines[k]) && p == StripMarker(lines[k]) && p != ""
    ensures PointFrom(p, lines)
  {
  }

  /** Every point comes from a numbered line: the index of one such line. */
  lemma {:induction false} PointsSource(lines: seq<string>, p: string) returns (k: nat)
    requires p in Points(lines)
    ensures k < |lines| && IsNumbered(lines[k]) && p == StripMarker(lines[k]) && p != ""
    decreases |lines|
  {
    var rest := lines[1..];
    var h := if IsNumbered(lines[0]) && StripMarker(lines[0]) != "" then [StripMarker(lines[0])] else [];
    assert Points(lines) == h + Points(rest);
    if p in h {
      k := 0;
    } else {
      var k' := PointsSource(rest, p);
      assert lines[k' + 1] == rest[k'];
      k := k' + 1;
    }
  }

  /** Every numbered line whose text is not empty once the marker is stripped gives a point. */
  lemma {:induction false} PointsComplete(lines: seq<string>, k: nat)
    requires k < |lines| && IsNumbered(lines[k]) && StripMarker(lines[k]) != ""
    ensures StripMarker(lines[k]) in Points(lines)
    decreases k
  {
    var rest := lines[1..];
    var h := if IsNumbered(lines[0]) && StripMarker(lines[0]) != "" then [StripMarker(lines[0])] else [];
    assert Points(lines) == h + Points(rest);
    if k > 0 {
      assert rest[k - 1] == lines[k];
      PointsComplete(rest, k - 1);
    }
  }

  /** A string is a point exactly when it is the non-empty stripped text of a numbered line. */
  lemma {:induction false} PointsMembers(lines: seq<string>, p: string)
    ensures p in Points(lines) <==> PointFrom(p, lines)
  {
    if p in Points(lines) {
      var k := PointsSource(lines, p);
      PointFromLine(lines, k, p);
    }
    if PointFrom(p, lines) {
      var k :| 0 <= k < |lines| && IsNumbered(lines[k]) && p == StripMarker(lines[k]) && p != "";
      PointsComplete(lines, k);
    }
  }

  /** A point of a reply is exactly the non-empty stripped text of one of its numbered lines. */
  lemma {:induction false} ParsePointsMembers(reply: string, p: string)
    ensures p in ParsePoints(reply) <==> PointFrom(p, Split(reply, '\n'))
  {
    PointsMembers(Split(reply, '\n'), p);
  }

  /**
   * Both marker forms are recognised: digits then `.` or `)` start a numbered
   * line, and stripping leaves the rest of the line, trimmed.
   */
  lemma {:induction false} StripMarkerOfMarker(d: string, sep: char, rest: string)
    requires d != [] && forall k :: 0 <= k < |d| ==> IsDigit(d[k])
    requires sep == '.' || sep == ')'
    ensures IsNumbered(d + [sep] + rest)
    ensures StripMarker(d + [sep] + rest) == Trim(rest)
  {
    var line := d + [sep] + rest;
    assert line == d + ([sep] + rest);
    DigitRunOfNumeral(d, [sep] + rest);
    assert line[|d|] == sep;
    assert line[|d| + 1..] == rest;
  }

  /** A list rendered as `1. p`, `2. p`, … one per line, numbering from `k`. */
  function Numbered(ps: seq<string>, k: nat): (lines: seq<string>)
    ensures |lines| == |ps|
  {
    if ps == [] then [] else [DecimalString(k) + ". " + ps[0]] + Numbered(ps[1..], k + 1)
  }

  function FormatPoints(ps: seq<string>): string {
    Join(Numbered(ps, 1), "\n")
  }

  predicate Renderable(p: string) { p != "" && IsTrimmed(p) && '\n' !in p }

  lemma {:induction false} DigitRunOfNumeral(d: string, rest: string)
    requires forall k :: 0 <= k < |d| ==> IsDigit(d[k])
    requires rest != [] && !IsDigit(rest[0])
    ensures DigitRun(d + rest) == |d|
    decreases |d|
  {
    if d != [] {
      assert (d + rest)[1..] == d[1..] + rest;
      DigitRunOfNumeral(d[1..], rest);
    } else {
      assert d + rest == rest;
    }
  }

  lemma {:induction false} PointsOfNumbered(ps: seq<string>, k: nat)
    requires forall i :: 0 <= i < |ps| ==> Renderable(ps[i])
    ensures Points(Numbered(ps, k)) == ps
    decreases |ps|
  {
    if ps != [] {
      var lines := Numbered(ps, k);
      assert lines[0] == DecimalString(k) + ". " + ps[0];
      assert lines[1..] == Numbered(ps[1..], k + 1);
      MarkerOfNumbered(k, ps[0]);
      PointsOfNumbered(ps[1..], k + 1);
    }
  }

  /** The line `k. p` is numbered, and removing its marker gives `p` back. */
  lemma MarkerOfNumbered(k: nat, p: string)
    requires Renderable(p)
    ensures IsNumbered(DecimalString(k) + ". " + p)
    ensures StripMarker(DecimalString(k) + ". " + p) == p
  {
    var d := DecimalString(k);
    var line := d + ". " + p;
    assert line == d + (". " + p);
    DigitRunOfNumeral(d, ". " + p);
    assert line[|d|] == '.';
    assert line[|d| + 1..] == " " + p;
    TrimAfterSpace(p);
  }

  /** Rendering points as a numbered list and parsing the reply gives the points back. */
  lemma {:induction false} ParseFormattedPoints(ps: seq<string>)
    requires forall i :: 0 <= i < |ps| ==> Renderable(ps[i])
    ensures ParsePoints(FormatPoints(ps)) == ps
  {
    var lines := Numbered(ps, 1);
    if ps == [] {
      assert FormatPoints(ps) == "";
      assert Split("", '\n') == [""];
      assert !IsNumbered("");
    } else {
      NumberedHasNoNewline(ps, 1);
      SplitOfJoin(lines, '\n');
      PointsOfNumbered(ps, 1);
    }
  }

  lemma {:induction false} NumberedHasNoNewline(ps: seq<string>, k: nat)
    requires forall i :: 0 <= i < |ps| ==> Renderable(ps[i])
    ensures forall i :: 0 <= i < |ps| ==> '\n' !in Numbered(ps, k)[i]
    decreases |ps|
  {
    if ps != [] {
      NumberedHasNoNewline(ps[1..], k + 1);
      var d := DecimalString(k);
      var line := d + ". " + ps[0];
      forall j | 0 <= j < |line| ensures line[j] != '\n' {
        if j < |d| { assert IsDigit(d[j]); }
        else if j >= |d| + 2 { assert line[j] == ps[0][j - |d| - 2]; }
      }
      assert Numbered(ps, k)[0] == line;
      assert forall i :: 1 <= i < |ps| ==> Numbered(ps, k)[i] == Numbered(ps[1..], k + 1)[i - 1];
    }
  }

  // ----------------------------------------------------------------------
  // generateFallbackSummary
  // ----------------------------------------------------------------------

  const SentenceEnds: set<char> := {'.', '!', '?'}

  /** A usable sentence: trimmed, longer than 15 characters, without sentence-ending punctuation. */
  predicate IsSentence(s: string) {
    |s| > 15 && IsTrimmed(s) && NoneIn(s, SentenceEnds)
  }

  /** Trimmed pieces longer than 15 characters, in order (`.map(trim).filter(len > 15)`). */
  function LongSentences(pieces: seq<string>): (r: seq<string>)
    requires forall k :: 0 <= k < |pieces| ==> NoneIn(pieces[k], SentenceEnds)
    ensures |r| <= |pieces|
    ensures forall k :: 0 <= k < |r| ==> IsSentence(r[k])
  {
    if pieces == [] then []
    else
      var t := Trim(pieces[0]);
      NoneInTrim(pieces[0], SentenceEnds);
      (if |t| > 15 then [t] else []) + LongSentences(pieces[1..])
  }

  /** Filtering distributes over concatenation, so the pieces' order is kept. */
  lemma {:induction false} LongSentencesAppend(a: seq<string>, b: seq<string>)
    requires forall k :: 0 <= k < |a| ==> NoneIn(a[k], SentenceEnds)
    requires forall k :: 0 <= k < |b| ==> NoneIn(b[k], SentenceEnds)
    ensures LongSentences(a + b) == LongSentences(a) + LongSentences(b)
    decreases |a|
  {
    assert forall k :: 0 <= k < |a + b| ==> NoneIn((a + b)[k], SentenceEnds) by {
      forall k | 0 <= k < |a + b| ensures NoneIn((a + b)[k], SentenceEnds) {
        if k < |a| { assert (a + b)[k] == a[k]; } else { assert (a + b)[k] == b[k - |a|]; }
      }
    }
    if a != [] {
      var t := Trim(a[0]);
      var h := if |t| > 15 then [t] else [];
      AppendHead(a, b);
      assert LongSentences(a + b) == h + LongSentences(a[1..] + b);
      assert LongSentences(a) == h + LongSentences(a[1..]);
      LongSentencesAppend(a[1..], b);
      AppendAssoc(h, LongSentences(a[1..]), LongSentences(b));
    } else {
      assert a + b == b;
    }
  }

  /** `t` is the trimmed form, longer than 15 characters, of one of `pieces`. */
  predicate LongPiece(t: string, pieces: seq<string>) {
    exists k :: 0 <= k < |pieces| && t == Trim(pieces[k]) && |t| > 15
  }

  /** Every kept sentence is the trimmed form, longer than 15, of some piece. */
  lemma {:induction false} LongSentencesSound(pieces: seq<string>, t: string)
    requires forall k :: 0 <= k < |pieces| ==> NoneIn(pieces[k], SentenceEnds)
    requires t in LongSentences(pieces)
    ensures LongPiece(t, pieces)
    decreases |pieces|
  {
    var rest := pieces[1..];
    var u := Trim(pieces[0]);
    var h := if |u| > 15 then [u] else [];
    assert LongSentences(pieces) == h + LongSentences(rest);
    if t in h {
      assert t == Trim(pieces[0]) && |t| > 15;
    } else {
      LongSentencesSound(rest, t);
      var k :| 0 <= k < |rest| && t == Trim(rest[k]) && |t| > 15;
      assert pieces[k + 1] == rest[k];
    }
  }

  /** The trimmed form of every piece, when longer than 15, is kept. */
  lemma {:induction false} LongSentencesComplete(pieces: seq<string>, k: nat)
    requires forall k :: 0 <= k < |pieces| ==> NoneIn(pieces[k], SentenceEnds)
    requires k < |pieces| && |Trim(pieces[k])| > 15
    ensures Trim(pieces[k]) in LongSentences(pieces)
    decreases k
  {
    var rest := pieces[1..];
    var u := Trim(pieces[0]);
    var h := if |u| > 15 then [u] else [];
    assert LongSentences(pieces) == h + LongSentences(rest);
    if k > 0 {
      assert rest[k - 1] == pieces[k];
      LongSentencesComplete(rest, k - 1);
    }
  }

  /** A sentence is kept exactly when it is the trimmed form, longer than 15, of some piece. */
  lemma LongSentencesMembers(pieces: seq<string>, t: string)
    requires forall k :: 0 <= k < |pieces| ==> NoneIn(pieces[k], SentenceEnds)
    ensures t in LongSentences(pieces) <==> LongPiece(t, pieces)
  {
    if t in LongSentences(pieces) {
      LongSentencesSound(pieces, t);
    }
    if LongPiece(t, pieces) {
      var k :| 0 <= k < |pieces| && t == Trim(pieces[k]) && |t| > 15;
      LongSentencesComplete(pieces, k);
    }
  }

  /** The candidate sentences: split on runs of `.`, `!`, `?`, trimmed, longer than 15, the first 10. */
  function Sentences(content: string): (r: seq<string>)
    ensures |r| <= 10
    ensures forall k :: 0 <= k < |r| ==> IsSentence(r[k])
    ensures var all := LongSentences(SplitRuns(content, SentenceEnds));
      |r| == Min(10, |all|) && r == all[..|r|]
  {
    var pieces := SplitRuns(content, SentenceEnds);
    var all := LongSentences(pieces);
    var r := Prefix(all, 10);
    assert forall k :: 0 <= k < |r| ==> r[k] == all[k];
    r
  }

  /**
   * Every candidate is a trimmed piece of the content between sentence ends,
   * longer than 15; with fewer than ten such pieces, every one is a candidate.
   */
  lemma {:induction false} SentencesFromContent(content: string)
    ensures var pieces := SplitRuns(content, SentenceEnds);
      && (forall t :: t in Sentences(content) ==> LongPiece(t, pieces))
      && (|Sentences(content)| < 10 ==>
            forall k :: 0 <= k < |pieces| && |Trim(pieces[k])| > 15 ==> Trim(pieces[k]) in Sentences(content))
  {
    var pieces := SplitRuns(content, SentenceEnds);
    var all := LongSentences(pieces);
    var r := Sentences(content);
    forall t | t in r
      ensures LongPiece(t, pieces)
    {
      var i :| 0 <= i < |r| && r[i] == t;
      assert all[i] == t;
      LongSentencesMembers(pieces, t);
    }
    if |r| < 10 {
      assert r == all;
      forall k | 0 <= k < |pieces| && |Trim(pieces[k])| > 15
        ensures Trim(pieces[k]) in r
      {
        LongSentencesMembers(pieces, Trim(pieces[k]));
      }
    }
  }


  /** `xs.slice(from, to)` for `from <= to`. */
  function Slice<T>(xs: seq<T>, from: nat, to: nat): (r: seq<T>)
    requires from <= to
  {
    xs[Min(from, |xs|)..Min(to, |xs|)]
  }

  /**
   * `count` consecutive groups of `size` words, the first starting at word
   * `start`; group `i` of the source's loop starts at `i * size`.
   */
  function Groups(words: seq<string>, size: nat, start: nat, count: nat): (gs: seq<seq<string>>)
    ensures |gs| == count
    decreases count
  {
    if count == 0 then [] else [Slice(words, start, start + size)] + Groups(words, size, start + size, count - 1)
  }

  function Flatten<T>(xss: seq<seq<T>>): seq<T> {
    if xss == [] then [] else xss[0] + Flatten(xss[1..])
  }

  /** The words `count` groups of `size` words span: `count * size`, added up group by group. */
  function Span(size: nat, count: nat): nat {
    if count == 0 then 0 else size + Span(size, count - 1)
  }

  /** Consecutive groups together are the words from the first group's start to the last group's end. */
  lemma {:induction false} GroupsAreContiguous(words: seq<string>, size: nat, start: nat, count: nat)
    ensures Flatten(Groups(words, size, start, count))
            == words[Min(start, |words|)..Min(start + Span(size, count), |words|)]
    decreases count
  {
    if count > 0 {
      GroupsAreContiguous(words, size, start + size, count - 1);
      var gs := Groups(words, size, start, count);
      assert gs[1..] == Groups(words, size, start + size, count - 1);
      assert Span(size, count) == size + Span(size, count - 1);
      var a, b, c := Min(start, |words|), Min(start + size, |words|), Min(start + Span(size, count), |words|);
      assert gs[0] == words[a..b];
      assert Flatten(gs) == gs[0] + Flatten(gs[1..]);
      AdjacentSlices(words, a, b, c);
    }
  }

  lemma AdjacentSlices<T>(xs: seq<T>, a: nat, b: nat, c: nat)
    requires a <= b <= c <= |xs|
    ensures xs[a..b] + xs[b..c] == xs[a..c]
  {
  }

  /** The five word groups of `ceil(n / 5)` words each (the last ones possibly short or empty). */
  function WordGroups(words: seq<string>): (gs: seq<seq<string>>)
    requires |words| > 0
    ensures |gs| == 5
  {
    Groups(words, CeilDiv(|words|, 5), 0, 5)
  }

  /** The five groups together are exactly the words, in order. */
  lemma WordGroupsCoverWords(words: seq<string>)
    requires |words| > 0
    ensures Flatten(WordGroups(words)) == words
  {
    var size := CeilDiv(|words|, 5);
    assert size * 5 >= |words|;
    assert Span(size, 5) >= |words| by {
      assert Span(size, 1) == size;
      assert Span(size, 2) == size + size;
      assert Span(size, 3) == size + size + size;
      assert Span(size, 4) == size + size + size + size;
      assert Span(size, 5) == size + size + size + size + size;
    }
    GroupsAreContiguous(words, size, 0, 5);
  }

  /** `chunk.length > 10 ? chunk.substring(0, 120) + '...' : chunk` */
  function ShortenChunk(c: string): (r: string)
    ensures |r| <= 123
    ensures |c| > 10 ==> r == Prefix(c, 120) + "..."
    ensures |c| <= 10 ==> r == c
  {
    if |c| > 10 then Prefix(c, 120) + "..." else c
  }

  function NonEmpty(xs: seq<string>): (r: seq<string>)
    ensures |r| <= |xs|
    ensures forall k :: 0 <= k < |r| ==> r[k] != "" && r[k] in xs
    ensures forall k :: 0 <= k < |xs| && xs[k] != "" ==> xs[k] in r
  {
    if xs == [] then [] else (if xs[0] != "" then [xs[0]] else []) + NonEmpty(xs[1..])
  }

  /** The points made from word groups when there are fewer than 5 usable sentences. */
  function ChunkPoints(content: string): (r: seq<string>)
    ensures |r| <= 5
    ensures forall k :: 0 <= k < |r| ==> r[k] != "" && |r[k]| <= 123
  {
    var words := Split(content, ' ');
    var gs := WordGroups(words);
    NonEmpty(seq(5, i requires 0 <= i < 5 => ShortenChunk(Join(gs[i], " "))))
  }

  /** `point.length > 150 ? point.substring(0, 150) + '...' : point` */
  function Truncate150(s: string): (r: string)
    ensures |r| <= 153
    ensures |s| <= 150 ==> r == s
    ensures |s| > 150 ==> r == s[..150] + "..."
  {
    if |s| > 150 then s[..150] + "..." else s
  }

  predicate Distinct(xs: seq<string>) {
    forall i, j :: 0 <= i < j < |xs| ==> xs[i] != xs[j]
  }

  /** `p` is the (shortened) form of one of the sentences. */
  predicate FromSentence(p: string, sents: seq<string>) {
    exists i :: 0 <= i < |sents| && p == Truncate150(sents[i])
  }

  /** The fixed picks: first, quarter, middle, three-quarter and last sentence. */
  function PickIndices(n: nat): seq<int> {
    [0, n / 4, n / 2, (n * 3) / 4, n - 1]
  }

  /** The loop over the fixed picks: shorten each picked sentence and keep it unless already selected. */
  function PickFrom(sents: seq<string>, idxs: seq<int>, selected: seq<string>): (r: seq<string>)
    ensures |selected| <= |r| <= |selected| + |idxs| && r[..|selected|] == selected
    ensures Distinct(selected) ==> Distinct(r)
    ensures forall k :: |selected| <= k < |r| ==> FromSentence(r[k], sents)
  {
    if idxs == [] then selected
    else
      var i := idxs[0];
      var next :=
        if 0 <= i < |sents| && sents[i] != "" && Truncate150(sents[i]) !in selected
        then selected + [Truncate150(sents[i])] else selected;
      var r := PickFrom(sents, idxs[1..], next);
      assert r[..|selected|] == next[..|selected|];
      r
  }

  /**
   * The top-up as intended: sentences are taken in order, each shortened,
   * and added when new, until there are 5 points or no sentence is left.
   */
  function Fill(selected: seq<string>, cands: seq<string>, sents: seq<string>): (r: seq<string>)
    requires forall k :: 0 <= k < |cands| ==> cands[k] in sents
    ensures |selected| <= |r| <= Max(|selected|, 5) && r[..|selected|] == selected
    ensures Distinct(selected) ==> Distinct(r)
    ensures forall k :: |selected| <= k < |r| ==> FromSentence(r[k], sents)
    ensures |r| >= 5 || forall k :: 0 <= k < |cands| ==> Truncate150(cands[k]) in r
    decreases |cands|
  {
    if |selected| >= 5 || cands == [] then selected
    else
      var p := Truncate150(cands[0]);
      var next := if p in selected then selected else selected + [p];
      assert FromSentence(p, sents) by {
        var i :| 0 <= i < |sents| && sents[i] == cands[0];
      }
      assert Distinct(selected) ==> Distinct(next);
      var r := Fill(next, cands[1..], sents);
      assert r[..|selected|] == next[..|selected|];
      assert p in next && next == r[..|next|];
      r
  }

  /** The top-up loop as written; `draws[t]` is the index `Math.floor(Math.random() * n)` of iteration `t`. */
  function TopUpAsWritten(selected: seq<string>, sents: seq<string>, draws: seq<nat>): (r: Option<seq<string>>)
    requires forall t :: 0 <= t < |draws| ==> draws[t] < |sents|
    ensures r.Some? ==> |r.value| >= 5 || |sents| == 0
    ensures r.Some? && |selected| <= 5 ==> |r.value| <= 5
    ensures r.Some? && Distinct(selected) ==> Distinct(r.value)
    ensures r.Some? ==> |selected| <= |r.value| && r.value[..|selected|] == selected
    decreases |draws|
  {
    if |selected| >= 5 || |sents| == 0 then Some(selected)
    else if draws == [] then None  // the loop is still running after every supplied draw
    else
      // the shortened point is computed and discarded: the sentence is kept whole
      var p := sents[draws[0]];
      TopUpAsWritten(if p in selected then selected else selected + [p], sents, draws[1..])
  }

  predicate ValidDraws(draws: seq<nat>, n: nat) {
    forall t :: 0 <= t < |draws| ==> draws[t] < n
  }

  /**
   * `generateFallbackSummary` as written. `None` means the top-up loop has
   * not finished after the supplied random draws.
   */
  function FallbackSummaryAsWritten(content: string, draws: seq<nat>): (r: Option<seq<string>>)
    requires ValidDraws(draws, |Sentences(content)|)
    ensures |Sentences(content)| < 5 ==> r == Some(ChunkPoints(content))
    ensures r.Some? ==> |r.value| <= 5
    ensures r.Some? && |Sentences(content)| >= 5 ==>
              |r.value| == 5 && Distinct(r.value)
              && r.value[..|PickFrom(Sentences(content), PickIndices(|Sentences(content)|), [])|]
                 == PickFrom(Sentences(content), PickIndices(|Sentences(content)|), [])
  {
    var sents := Sentences(content);
    if |sents| < 5 then Some(ChunkPoints(content))
    else
      var picked := PickFrom(sents, PickIndices(|sents|), []);
      assert |picked| <= 5;
      assert Distinct(picked);
      match TopUpAsWritten(picked, sents, draws)
      case None => None
      case Some(sel) =>
        assert Prefix(sel, 7) == sel;
        Some(Prefix(sel, 7))
  }

  /** The fixed picks topped up in order: at most 5 distinct points, each a shortened sentence. */
  function Select(sents: seq<string>): (r: seq<string>)
    requires |sents| >= 5 && forall k :: 0 <= k < |sents| ==> sents[k] != ""
    ensures |r| <= 5 && Distinct(r)
    ensures forall k :: 0 <= k < |r| ==> FromSentence(r[k], sents) && r[k] != "" && |r[k]| <= 153
    ensures |r| == 5 || forall k :: 0 <= k < |sents| ==> Truncate150(sents[k]) in r
  {
    var picked := PickFrom(sents, PickIndices(|sents|), []);
    assert |picked| <= 5;
    assert Distinct(picked);
    var r := Fill(picked, sents, sents);
    assert forall k :: 0 <= k < |r| ==> FromSentence(r[k], sents) by {
      forall k | 0 <= k < |r| ensures FromSentence(r[k], sents) {
        if k < |picked| { assert r[k] == picked[k]; }
      }
    }
    forall k | 0 <= k < |r| ensures r[k] != "" && |r[k]| <= 153 {
      var i :| 0 <= i < |sents| && r[k] == Truncate150(sents[i]);
    }
    r
  }

  /** `generateFallbackSummary` with the terminating, truncating top-up. */
  function FallbackSummary(content: string): (r: seq<string>)
    ensures |r| <= 5
    ensures forall k :: 0 <= k < |r| ==> r[k] != "" && |r[k]| <= 153
    ensures |Sentences(content)| >= 5 ==>
      && Distinct(r)
      && (forall k :: 0 <= k < |r| ==> FromSentence(r[k], Sentences(content)))
      && (|r| == 5 || forall k :: 0 <= k < |Sentences(content)| ==> Truncate150(Sentences(content)[k]) in r)
  {
    var sents := Sentences(content);
    if |sents| < 5 then ChunkPoints(content)
    else
      var r := Select(sents);
      assert Prefix(r, 7) == r;
      Prefix(r, 7)
  }

  /** When the fixed picks already give 5 points, the random top-up does nothing and both versions agree. */
  lemma {:induction false} FallbackVersionsAgree(content: string, draws: seq<nat>)
    requires ValidDraws(draws, |Sentences(content)|)
    requires var s := Sentences(content); |s| < 5 || |PickFrom(s, PickIndices(|s|), [])| >= 5
    ensures FallbackSummaryAsWritten(content, draws) == Some(FallbackSummary(content))
  {
    var sents := Sentences(content);
    if |sents| >= 5 {
      var picked := PickFrom(sents, PickIndices(|sents|), []);
      assert TopUpAsWritten(picked, sents, draws) == Some(picked);
      assert FallbackSummaryAsWritten(content, draws) == Some(Prefix(picked, 7));
      assert Fill(picked, sents, sents) == picked;
      assert Select(sents) == picked;
      assert FallbackSummary(content) == Prefix(picked, 7);
    } else {
      assert FallbackSummaryAsWritten(content, draws) == Some(ChunkPoints(content));
      assert FallbackSummary(content) == ChunkPoints(content);
    }
  }

  /**
   * When every sentence is already among the selected points, the top-up
   * never adds one: with fewer than 5 points it runs past any number of draws.
   */
  lemma {:induction false} TopUpStuck(selected: seq<string>, sents: seq<string>, draws: seq<nat>)
    requires |selected| < 5 && |sents| > 0
    requires forall k :: 0 <= k < |sents| ==> sents[k] in selected
    requires ValidDraws(draws, |sents|)
    ensures TopUpAsWritten(selected, sents, draws) == None
    decreases |draws|
  {
    if draws != [] {
      TopUpStuck(selected, sents, draws[1..]);
    }
  }

  /** Five equal sentences of at most 150 characters: the summary as written never finishes. */
  lemma {:induction false} RepeatedSentenceNeverFinishes(a: string, draws: seq<nat>)
    requires 15 < |a| <= 150
    requires ValidDraws(draws, 5)
    ensures var sents := [a, a, a, a, a];
      && PickFrom(sents, PickIndices(5), []) == [a]
      && TopUpAsWritten(PickFrom(sents, PickIndices(5), []), sents, draws) == None
  {
    var sents := [a, a, a, a, a];
    PicksOfCopies(a);
    TopUpStuck([a], sents, draws);
  }

  /** The fixed picks from five copies of one short sentence are that sentence once. */
  lemma PicksOfCopies(a: string)
    requires 15 < |a| <= 150
    ensures PickFrom([a, a, a, a, a], PickIndices(5), []) == [a]
  {
    var sents := [a, a, a, a, a];
    assert PickIndices(5) == [0, 1, 2, 3, 4];
    assert Truncate150(a) == a;
    IndexTails();
    var e: seq<string> := [];
    assert e + [a] == [a];
    PickAdd(sents, [0, 1, 2, 3, 4], e);
    PickSkip(sents, [1, 2, 3, 4], [a]);
    PickSkip(sents, [2, 3, 4], [a]);
    PickSkip(sents, [3, 4], [a]);
    PickSkip(sents, [4], [a]);
  }

  lemma IndexTails()
    ensures [0, 1, 2, 3, 4][1..] == [1, 2, 3, 4] && [1, 2, 3, 4][1..] == [2, 3, 4]
    ensures [2, 3, 4][1..] == [3, 4] && [3, 4][1..] == [4] && [4][1..] == []
  {
  }

  /** A pick whose shortened sentence is already selected is skipped. */
  lemma PickSkip(sents: seq<string>, idxs: seq<int>, selected: seq<string>)
    requires idxs != [] && 0 <= idxs[0] < |sents| && Truncate150(sents[idxs[0]]) in selected
    ensures PickFrom(sents, idxs, selected) == PickFrom(sents, idxs[1..], selected)
  {
  }

  /** A pick whose shortened sentence is new is appended. */
  lemma PickAdd(sents: seq<string>, idxs: seq<int>, selected: seq<string>)
    requires idxs != [] && 0 <= idxs[0] < |sents| && sents[idxs[0]] != ""
    requires Truncate150(sents[idxs[0]]) !in selected
    ensures PickFrom(sents, idxs, selected) == PickFrom(sents, idxs[1..], selected + [Truncate150(sents[idxs[0]])])
  {
  }

  /** The fixed picks of `[a, a, b, c, d]`: `a` shortened, its repeat skipped, then `b`, `c`, `d`. */
  lemma PicksWithRepeat(a: string, b: string, c: string, d: string)
    requires |a| > 153 && 15 < |b| <= 150 && 15 < |c| <= 150 && 15 < |d| <= 150
    requires b != c && c != d && b != d
    ensures PickFrom([a, a, b, c, d], PickIndices(5), []) == [Truncate150(a), b, c, d]
  {
    var sents := [a, a, b, c, d];
    var t := Truncate150(a);
    assert PickIndices(5) == [0, 1, 2, 3, 4];
    assert |t| == 153;
    assert sents[2] == b && sents[3] == c && sents[4] == d;
    PicksRepeatedFirst(sents, t);
    PicksAfterRepeat(sents, t);
  }

  /** The first two picks of a repeated first sentence: it is taken once. */
  lemma PicksRepeatedFirst(sents: seq<string>, t: string)
    requires |sents| == 5 && sents[0] == sents[1] && sents[0] != "" && t == Truncate150(sents[0])
    ensures PickFrom(sents, [0, 1, 2, 3, 4], []) == PickFrom(sents, [2, 3, 4], [t])
  {
    IndexTails();
    var e: seq<string> := [];
    assert e + [t] == [t];
    PickAdd(sents, [0, 1, 2, 3, 4], e);
    PickSkip(sents, [1, 2, 3, 4], [t]);
  }

  /** The last three picks of `PicksWithRepeat`, each new. */
  lemma PicksAfterRepeat(sents: seq<string>, t: string)
    requires |sents| == 5 && |t| == 153
    requires 15 < |sents[2]| <= 150 && 15 < |sents[3]| <= 150 && 15 < |sents[4]| <= 150
    requires sents[2] != sents[3] && sents[3] != sents[4] && sents[2] != sents[4]
    ensures PickFrom(sents, [2, 3, 4], [t]) == [t, sents[2], sents[3], sents[4]]
  {
    var b, c, d := sents[2], sents[3], sents[4];
    IndexTails();
    assert Truncate150(b) == b && Truncate150(c) == c && Truncate150(d) == d;
    assert [t] + [b] == [t, b] && [t, b] + [c] == [t, b, c] && [t, b, c] + [d] == [t, b, c, d];
    PickAdd(sents, [2, 3, 4], [t]);
    PickAdd(sents, [3, 4], [t, b]);
    PickAdd(sents, [4], [t, b, c]);
  }


  /**
   * Sentences `[a, a, b, c, d]` with `a` longer than 153 characters: the
   * fixed picks keep `a` shortened and skip its repeat, and the top-up's
   * first draw of index 0 adds `a` again, whole.
   */
  lemma LongPointAfterTopUp(a: string, b: string, c: string, d: string, draws: seq<nat>)
    requires |a| > 153 && 15 < |b| <= 150 && 15 < |c| <= 150 && 15 < |d| <= 150
    requires b != c && c != d && b != d
    requires ValidDraws(draws, 5) && |draws| > 0 && draws[0] == 0
    ensures var sents := [a, a, b, c, d];
      var r := TopUpAsWritten(PickFrom(sents, PickIndices(5), []), sents, draws);
      r == Some([Truncate150(a), b, c, d, a]) && |r.value[4]| > 153
  {
    var sents := [a, a, b, c, d];
    PicksWithRepeat(a, b, c, d);
    var t := Truncate150(a);
    assert |t| == 153;
    assert a !in [t, b, c, d];
    assert [t, b, c, d] + [a] == [t, b, c, d, a];
    assert TopUpAsWritten([t, b, c, d, a], sents, draws[1..]) == Some([t, b, c, d, a]);
  }

  // ----------------------------------------------------------------------
  // generateBlogSummary
  // ----------------------------------------------------------------------

  datatype SummaryReply = SummaryRejected(status: nat, message: string) | Summary(points: seq<string>)

  /** The cleaned content: sanitised, then cut to its first 2000 characters. */
  function CleanContent(content: string): (r: string)
    ensures |r| == Min(2000, |Sanitize(content)|) && r == Sanitize(content)[..|r|]
    ensures r == [] || !IsSpace(r[0])
    ensures Collapsed(r)
  {
    var s := Sanitize(content);
    var r := Prefix(s, 2000);
    CollapsedSlice(s, s, r);
    r
  }

  /** Plain text, already trimmed and with its whitespace collapsed, of at most 2000 characters is its own cleaned form. */
  lemma {:induction false} CleanContentOfPlainText(content: string)
    requires '>' !in content && '&' !in content
    requires IsTrimmed(content) && Collapsed(content) && |content| <= 2000
    ensures CleanContent(content) == content
  {
    assert ReplaceTags(content, " ") == content;
    assert ReplaceEntities(content) == content;
    CollapseSpacesOfCollapsed(content);
    TrimOfTrimmed(content);
    assert Sanitize(content) == content;
  }

  /**
   * `generateBlogSummary`: `modelReply` is the text of the model's answer,
   * `None` when no API key is set or the call fails. Its points are used
   * when there are at least 5; otherwise the fallback summary is.
   */
  function BlogSummary(title: Option<string>, content: Option<string>, modelReply: Option<string>): (r: SummaryReply)
    ensures r.SummaryRejected? <==> title.None? || title.value == "" || content.None? || content.value == ""
    ensures r.SummaryRejected? ==> r == SummaryRejected(400, "Blog title and content are required")
    ensures r.Summary? && modelReply.Some? && |ParsePoints(modelReply.value)| >= 5 ==>
              r.points == ParsePoints(modelReply.value)
    ensures r.Summary? && (modelReply.None? || |ParsePoints(modelReply.value)| < 5) ==>
              r.points == FallbackSummary(CleanContent(content.value))
    ensures r.Summary? ==> forall k :: 0 <= k < |r.points| ==> r.points[k] != ""
  {
    if title.None? || title.value == "" || content.None? || content.value == "" then
      SummaryRejected(400, "Blog title and content are required")
    else
      var clean := CleanContent(content.value);
      if modelReply.Some? && |ParsePoints(modelReply.value)| >= 5 then Summary(ParsePoints(modelReply.value))
      else Summary(FallbackSummary(clean))
  }

  /**
   * `generateBlogSummary` as written, on the fallback as written: `None`
   * means the top-up loop has not finished after the supplied draws.
   */
  function BlogSummaryAsWritten(title: Option<string>, content: Option<string>, modelReply: Option<string>,
                                draws: seq<nat>): (r: Option<SummaryReply>)
    requires content.Some? ==> ValidDraws(draws, |Sentences(CleanContent(content.value))|)
    ensures title.None? || title.value == "" || content.None? || content.value == "" ==>
              r == Some(SummaryRejected(400, "Blog title and content are required"))
    ensures title.Some? && title.value != "" && content.Some? && content.value != "" ==>
              && (modelReply.Some? && |ParsePoints(modelReply.value)| >= 5 ==>
                    r == Some(Summary(ParsePoints(modelReply.value))))
              && (!(modelReply.Some? && |ParsePoints(modelReply.value)| >= 5) ==>
                    var fallback := FallbackSummaryAsWritten(CleanContent(content.value), draws);
                    && (fallback.Some? ==> r == Some(Summary(fallback.value)))
                    && (r.None? <==> fallback.None?))
    ensures r.None? <==>
              && title.Some? && title.value != "" && content.Some? && content.value != ""
              && !(modelReply.Some? && |ParsePoints(modelReply.value)| >= 5)
              && FallbackSummaryAsWritten(CleanContent(content.value), draws).None?
  {
    if title.None? || title.value == "" || content.None? || content.value == "" then
      Some(SummaryRejected(400, "Blog title and content are required"))
    else
      var clean := CleanContent(content.value);
      if modelReply.Some? && |ParsePoints(modelReply.value)| >= 5 then Some(Summary(ParsePoints(modelReply.value)))
      else match FallbackSummaryAsWritten(clean, draws)
        case None => None
        case Some(ps) => Some(Summary(ps))
  }

  /**
   * The two versions agree on every request that does not reach the random
   * top-up: a rejected request, five or more points from the model, or
   * fixed picks that already give five points.
   */
  lemma BlogSummaryVersionsAgree(title: Option<string>, content: Option<string>, modelReply: Option<string>,
                                 draws: seq<nat>)
    requires content.Some? ==> ValidDraws(draws, |Sentences(CleanContent(content.value))|)
    requires content.Some? ==>
      var sents := Sentences(CleanContent(content.value));
      |sents| < 5 || |PickFrom(sents, PickIndices(|sents|), [])| >= 5
    ensures BlogSummaryAsWritten(title, content, modelReply, draws) == Some(BlogSummary(title, content, modelReply))
  {
    if content.Some? {
      FallbackVersionsAgree(CleanContent(content.value), draws);
    }
  }
}

=== FILE: auth.dfy ===
/**
 * The server's account-verification and session handlers (`register`,
 * `verifyOTP`, `login`, `refreshToken`) as pure transitions over the users
 * collection. Hashing, token signing, mail delivery, randomness and the clock
 * are parameters: the caller supplies the hash, the signer, the verifier, the
 * outcome of the mail send, the random draw and the current time.
 */
module Auth {
  import opened Wrappers
  import opened Text

  type Id = nat

  datatype User = User(
    id: Id,
    name: string,
    lastname: string,
    email: string,
    password: string,         // the bcrypt hash, never the plain text
    isVerified: bool,
    otp: string,              // "" once the account is verified
    otpExpires: Option<int>)  // milliseconds since the epoch; null once verified

  /** The users collection in natural order; `findOne` returns the first match. */
  type Store = seq<User>

  /** Ten minutes, in milliseconds. */
  const OtpLifetime: int := 10 * 60 * 1000
  const OtpLow: nat := 100000
  const OtpSpan: nat := 900000

  /** No two records share an id or an email, and a verified record has no pending code. */
  ghost predicate Valid(store: Store) {
    && (forall i, j :: 0 <= i < j < |store| ==> store[i].id != store[j].id)
    && (forall i, j :: 0 <= i < j < |store| ==> store[i].email != store[j].email)
    && (forall i :: 0 <= i < |store| && store[i].isVerified ==> store[i].otp == "" && store[i].otpExpires.None?)
  }

  predicate FreshId(store: Store, id: Id) {
    forall k :: 0 <= k < |store| ==> store[k].id != id
  }

  // ---------------------------------------------------------------------------
  // Replies
  // ---------------------------------------------------------------------------

  datatype Profile = Profile(name: string, lastname: string, email: string, isAdmin: bool)

  datatype Body =
    | NoBody
    | Registered(userId: Id)
    | LoggedIn(token: string, user: Profile)
    | Refreshed(token: string)

  /** An HTTP status with the JSON body's `message` and payload; `success` is `status < 300`. */
  datatype Reply = Reply(status: nat, message: string, body: Body)

  // ---------------------------------------------------------------------------
  // Collection access
  // ---------------------------------------------------------------------------

  /** `User.findOne({ email })` */
  function FindByEmail(store: Store, email: string): (r: Option<nat>)
    ensures r.Some? ==> r.value < |store| && store[r.value].email == email
    ensures r.Some? ==> forall k :: 0 <= k < r.value ==> store[k].email != email
    ensures r.None? ==> forall k :: 0 <= k < |store| ==> store[k].email != email
  {
    FindFirst(store, (u: User) => u.email == email)
  }

  /** `User.findById(id)` */
  function FindById(store: Store, id: Id): (r: Option<nat>)
    ensures r.Some? ==> r.value < |store| && store[r.value].id == id
    ensures r.Some? ==> forall k :: 0 <= k < r.value ==> store[k].id != id
    ensures r.None? ==> FreshId(store, id)
  {
    FindFirst(store, (u: User) => u.id == id)
  }

  /** The first record with `id` sits at `i` when none before it has that id. */
  lemma FindByIdAt(store: Store, id: Id, i: nat)
    requires i < |store| && store[i].id == id
    requires forall k :: 0 <= k < i ==> store[k].id != id
    ensures FindById(store, id) == Some(i)
  {
    FindFirstAt(store, (u: User) => u.id == id, i);
  }

  /** The first record with `email` sits at `i` when none before it has that email. */
  lemma FindByEmailAt(store: Store, email: string, i: nat)
    requires i < |store| && store[i].email == email
    requires forall k :: 0 <= k < i ==> store[k].email != email
    ensures FindByEmail(store, email) == Some(i)
  {
    FindFirstAt(store, (u: User) => u.email == email, i);
  }

  function RemoveAt(store: Store, i: nat): Store
    requires i < |store|
  {
    store[..i] + store[i + 1..]
  }

  /** `User.findByIdAndDelete(id)` */
  function RemoveById(store: Store, id: Id): Store {
    match FindById(store, id)
    case None => store
    case Some(i) => RemoveAt(store, i)
  }

  // ---------------------------------------------------------------------------
  // generateOTP
  // ---------------------------------------------------------------------------

  /**
   * `Math.floor(100000 + Math.random() * 900000).toString()`, with the random
   * draw already scaled and floored to an integer `draw` in [0, 900000).
   */
  function GenerateOtp(draw: nat): (otp: string)
    requires draw < OtpSpan
    ensures |otp| == 6
    ensures forall i :: 0 <= i < |otp| ==> IsDigit(otp[i])
    ensures ParseDecimal(otp) == OtpLow + draw
    ensures OtpLow <= ParseDecimal(otp) <= 999999
  {
    var n := OtpLow + draw;
    assert Pow10(5) == 100000 && Pow10(6) == 1000000 by {
      assert Pow10(1) == 10 && Pow10(2) == 100 && Pow10(3) == 1000 && Pow10(4) == 10000;
    }
    DecimalStringLength(n, 6);
    ParseDecimalString(n);
    DecimalString(n)
  }

  // ---------------------------------------------------------------------------
  // register
  // ---------------------------------------------------------------------------

  datatype RegisterRequest = RegisterRequest(
    name: Option<string>, lastname: Option<string>, email: Option<string>, password: Option<string>)

  /** What `sendOTP` did: resolved, or threw an error with this message. */
  datatype MailOutcome = Delivered | MailFailed(message: string)

  /** One call of `sendOTP(to, otp)`. */
  datatype OtpMail = OtpMail(to: string, otp: string)

  /** The reply, the collection afterwards, and the OTP mail the handler tried to send, if any. */
  datatype RegisterOutcome = RegisterOutcome(reply: Reply, store: Store, mail: Option<OtpMail>)

  /** The fields an update to an unverified record overwrites, kept to undo it (`user.__prev`). */
  datatype Snapshot = Snapshot(name: string, lastname: string, password: string, otp: string, otpExpires: Option<int>)

  /** `x ? String(x).trim() : ""` */
  function TrimmedField(x: Option<string>): string {
    match x
    case None => ""
    case Some(s) => Trim(s)
  }

  /** `email ? String(email).trim().toLowerCase() : ""` */
  function NormalizedEmail(x: Option<string>): string {
    ToLower(TrimmedField(x))
  }

  /** `password ? String(password) : ""`: the password is not trimmed. */
  function PasswordField(x: Option<string>): string {
    x.GetOr("")
  }

  /**
   * `if (!value) missing.push(field)` for each `(field, value)` check in
   * turn: the fields whose value is empty, in the order of the checks.
   */
  function Missing(checks: seq<(string, string)>): (m: seq<string>)
    ensures |m| <= |checks|
  {
    if checks == [] then []
    else (if checks[0].1 == "" then [checks[0].0] else []) + Missing(checks[1..])
  }

  /** A field is listed exactly when one of the checks names it with an empty value. */
  lemma {:induction false} MissingMember(checks: seq<(string, string)>, f: string)
    ensures f in Missing(checks) <==> exists k :: 0 <= k < |checks| && checks[k] == (f, "")
  {
    if checks != [] {
      var rest := checks[1..];
      MissingMember(rest, f);
      assert forall k :: 1 <= k < |checks| ==> checks[k] == rest[k - 1];
    }
  }

  /** Every listed field ranks above `b` when every checked field does. */
  lemma {:induction false} MissingAbove(checks: seq<(string, string)>, rank: string -> nat, b: int)
    requires forall k :: 0 <= k < |checks| ==> b < rank(checks[k].0)
    ensures forall j :: 0 <= j < |Missing(checks)| ==> b < rank(Missing(checks)[j])
  {
    if checks != [] {
      var rest := checks[1..];
      MissingAbove(rest, rank, b);
      var m := Missing(rest);
      var full := Missing(checks);
      if checks[0].1 == "" {
        assert full == [checks[0].0] + m;
        forall j | 0 <= j < |full| ensures b < rank(full[j]) {
          if j > 0 {
            assert full[j] == m[j - 1];
          }
        }
      } else {
        assert full == m;
      }
    }
  }

  /** The checks of the register handler, in its order. */
  function RegisterChecks(name: string, lastname: string, email: string, password: string): seq<(string, string)> {
    [("name", name), ("lastname", lastname), ("email", email), ("password", password)]
  }

  /** The fields of a register request that are missing: none exactly when all four are non-empty. */
  function MissingFields(name: string, lastname: string, email: string, password: string): (m: seq<string>)
    ensures m == [] <==> name != "" && lastname != "" && email != "" && password != ""
  {
    var checks := RegisterChecks(name, lastname, email, password);
    MissingEmpty(checks);
    assert checks[0].1 == name && checks[1].1 == lastname && checks[2].1 == email && checks[3].1 == password;
    Missing(checks)
  }

  /** No field is listed exactly when every checked value is non-empty. */
  lemma {:induction false} MissingEmpty(checks: seq<(string, string)>)
    ensures Missing(checks) == [] <==> forall k :: 0 <= k < |checks| ==> checks[k].1 != ""
  {
    if checks != [] {
      var rest := checks[1..];
      MissingEmpty(rest);
      assert forall k :: 1 <= k < |checks| ==> checks[k] == rest[k - 1];
    }
  }

  /** Position of a field name in the order the handler checks the fields. */
  function FieldRank(f: string): nat {
    if f == "name" then 0 else if f == "lastname" then 1 else if f == "email" then 2 else 3
  }

  /** The error list names exactly the empty fields, in the order name, lastname, email, password. */
  lemma MissingFieldsInOrder(name: string, lastname: string, email: string, password: string)
    ensures var m := MissingFields(name, lastname, email, password);
      && ("name" in m <==> name == "")
      && ("lastname" in m <==> lastname == "")
      && ("email" in m <==> email == "")
      && ("password" in m <==> password == "")
      && (forall i, j :: 0 <= i < j < |m| ==> FieldRank(m[i]) < FieldRank(m[j]))
  {
    var checks := RegisterChecks(name, lastname, email, password);
    assert FieldRank("name") == 0 && FieldRank("lastname") == 1;
    assert FieldRank("email") == 2 && FieldRank("password") == 3;
    MissingKeepsOrder(checks, FieldRank);
    MissingByRank(checks, FieldRank, "name", 0);
    MissingByRank(checks, FieldRank, "lastname", 1);
    MissingByRank(checks, FieldRank, "email", 2);
    MissingByRank(checks, FieldRank, "password", 3);
  }

  /** With one check per rank, a field is listed exactly when its own check finds it empty. */
  lemma MissingByRank(checks: seq<(string, string)>, rank: string -> nat, f: string, r: nat)
    requires r < |checks| && checks[r].0 == f
    requires forall k :: 0 <= k < |checks| ==> rank(checks[k].0) == k
    ensures f in Missing(checks) <==> checks[r].1 == ""
  {
    MissingMember(checks, f);
    if f in Missing(checks) {
      var k :| 0 <= k < |checks| && checks[k] == (f, "");
      assert k == rank(f) == r;
    }
  }

  /** The ranks strictly increase along `m`. */
  predicate Increasing(m: seq<string>, rank: string -> nat) {
    forall i, j :: 0 <= i < j < |m| ==> rank(m[i]) < rank(m[j])
  }

  /** Checks whose field ranks increase give a list whose ranks increase. */
  lemma {:induction false} MissingKeepsOrder(checks: seq<(string, string)>, rank: string -> nat)
    requires forall i, j :: 0 <= i < j < |checks| ==> rank(checks[i].0) < rank(checks[j].0)
    ensures Increasing(Missing(checks), rank)
  {
    if checks != [] {
      var rest := checks[1..];
      MissingKeepsOrder(rest, rank);
      if checks[0].1 == "" {
        MissingAbove(rest, rank, rank(checks[0].0));
        IncreasingCons(checks[0].0, Missing(rest), rank);
      }
    }
  }

  lemma IncreasingCons(x: string, m: seq<string>, rank: string -> nat)
    requires Increasing(m, rank)
    requires forall j :: 0 <= j < |m| ==> rank(x) < rank(m[j])
    ensures Increasing([x] + m, rank)
  {
    var full := [x] + m;
    forall i, j | 0 <= i < j < |full| ensures rank(full[i]) < rank(full[j]) {
      assert full[j] == m[j - 1];
      if i > 0 {
        assert full[i] == m[i - 1];
      }
    }
  }

  function TakeSnapshot(u: User): Snapshot {
    Snapshot(u.name, u.lastname, u.password, u.otp, u.otpExpires)
  }

  function Overwrite(u: User, name: string, lastname: string, password: string, otp: string, expires: int): User {
    u.(name := name, lastname := lastname, password := password, otp := otp, otpExpires := Some(expires))
  }

  function Restore(u: User, s: Snapshot): User {
    u.(name := s.name, lastname := s.lastname, password := s.password, otp := s.otp, otpExpires := s.otpExpires)
  }

  /** Restoring the snapshot taken before an overwrite gives the record back unchanged. */
  lemma RollbackRoundTrip(u: User, name: string, lastname: string, password: string, otp: string, expires: int)
    ensures Restore(Overwrite(u, name, lastname, password, otp, expires), TakeSnapshot(u)) == u
    ensures Overwrite(u, name, lastname, password, otp, expires).id == u.id
  {
  }

  /** `/Invalid login|BadCredentials|Invalid user|EAUTH/.test(message)` */
  predicate IsMailAuthError(message: string) {
    Contains(message, "Invalid login") || Contains(message, "BadCredentials")
    || Contains(message, "Invalid user") || Contains(message, "EAUTH")
  }

  function MailFailureMessage(message: string): string {
    if IsMailAuthError(message) then
      "Could not send OTP: mail service authentication failed. Please check MAIL_USER and MAIL_PASS (use App Password or OAuth2 for Gmail)."
    else "Could not send OTP. Please try again later."
  }

  /**
   * `register`. `hashed` is the bcrypt hash of the password, `otp` the code
   * `GenerateOtp` produced, `newId` the id the database assigns a created
   * record, and `mail` what the OTP send did.
   */
  function Register(store: Store, req: RegisterRequest, hashed: string, otp: string, now: int, newId: Id, mail: MailOutcome): RegisterOutcome {
    var name := TrimmedField(req.name);
    var lastname := TrimmedField(req.lastname);
    var email := NormalizedEmail(req.email);
    var password := PasswordField(req.password);
    var missing := MissingFields(name, lastname, email, password);
    if |missing| > 0 then
      RegisterOutcome(Reply(400, "Missing or empty fields: " + Join(missing, ", "), NoBody), store, None)
    else
      var expires := now + OtpLifetime;
      var sent := Some(OtpMail(email, otp));
      match FindByEmail(store, email)
      case Some(i) =>
        var user := store[i];
        if user.isVerified then
          RegisterOutcome(Reply(400, "Email already exists", NoBody), store, None)
        else
          var prev := TakeSnapshot(user);
          var updated := Overwrite(user, name, lastname, hashed, otp, expires);
          (match mail
           case Delivered =>
             RegisterOutcome(Reply(201, "OTP sent to your email.", Registered(user.id)), store[i := updated], sent)
           case MailFailed(msg) =>
             RegisterOutcome(Reply(500, MailFailureMessage(msg), NoBody), store[i := Restore(updated, prev)], sent))
      case None =>
        var user := User(newId, name, lastname, email, hashed, false, otp, Some(expires));
        match mail
        case Delivered =>
          RegisterOutcome(Reply(201, "OTP sent to your email.", Registered(newId)), store + [user], sent)
        case MailFailed(msg) =>
          RegisterOutcome(Reply(500, MailFailureMessage(msg), NoBody), RemoveById(store + [user], newId), sent)
  }

  /** The four fields the handler requires, normalised as it normalises them, are all present. */
  predicate FieldsPresent(req: RegisterRequest) {
    TrimmedField(req.name) != "" && TrimmedField(req.lastname) != ""
    && NormalizedEmail(req.email) != "" && PasswordField(req.password) != ""
  }

  /** A missing or blank field is rejected with 400, naming the missing fields, and nothing is written or sent. */
  lemma RegisterRejectsMissingFields(store: Store, req: RegisterRequest, hashed: string, otp: string, now: int, newId: Id, mail: MailOutcome)
    requires !FieldsPresent(req)
    ensures var out := Register(store, req, hashed, otp, now, newId, mail);
      && out.reply == Reply(400, "Missing or empty fields: " + Join(MissingFields(TrimmedField(req.name), TrimmedField(req.lastname),
                                                                     NormalizedEmail(req.email), PasswordField(req.password)), ", "), NoBody)
      && |MissingFields(TrimmedField(req.name), TrimmedField(req.lastname), NormalizedEmail(req.email), PasswordField(req.password))| > 0
      && out.store == store && out.mail.None?
  {
    var name, lastname := TrimmedField(req.name), TrimmedField(req.lastname);
    var email, password := NormalizedEmail(req.email), PasswordField(req.password);
    MissingFieldsInOrder(name, lastname, email, password);
  }

  /** Registering the email of a verified account is refused; nothing is written and no mail goes out. */
  lemma RegisterRejectsVerifiedEmail(store: Store, req: RegisterRequest, hashed: string, otp: string, now: int, newId: Id, mail: MailOutcome, i: nat)
    requires FieldsPresent(req)
    requires i < |store| && store[i].email == NormalizedEmail(req.email) && store[i].isVerified
    requires Valid(store)
    ensures var out := Register(store, req, hashed, otp, now, newId, mail);
      out.reply == Reply(400, "Email already exists", NoBody) && out.store == store && out.mail.None?
  {
    FindByEmailAt(store, NormalizedEmail(req.email), i);
  }

  /**
   * A fresh email: on a delivered mail exactly one unverified record is added,
   * holding the issued code and an expiry ten minutes ahead; on a failed mail
   * the collection is exactly as before.
   */
  lemma RegisterFreshEmail(store: Store, req: RegisterRequest, hashed: string, otp: string, now: int, newId: Id, mail: MailOutcome)
    requires FieldsPresent(req)
    requires forall k :: 0 <= k < |store| ==> store[k].email != NormalizedEmail(req.email)
    requires FreshId(store, newId)
    ensures var out := Register(store, req, hashed, otp, now, newId, mail);
      && out.mail == Some(OtpMail(NormalizedEmail(req.email), otp))
      && (mail.Delivered? ==>
            && out.reply == Reply(201, "OTP sent to your email.", Registered(newId))
            && out.store == store + [User(newId, TrimmedField(req.name), TrimmedField(req.lastname), NormalizedEmail(req.email),
                                          hashed, false, otp, Some(now + 600000))])
      && (mail.MailFailed? ==> out.reply.status == 500 && out.store == store)
  {
    if mail.MailFailed? {
      var user := User(newId, TrimmedField(req.name), TrimmedField(req.lastname), NormalizedEmail(req.email), hashed, false, otp, Some(now + OtpLifetime));
      var all := store + [user];
      assert all[|store|].id == newId;
      FindByIdAt(all, newId, |store|);
      assert all[..|store|] == store;
    }
  }

  /**
   * An unverified account: on a delivered mail the record keeps its id, email
   * and verification state while name, lastname, password hash, code and expiry
   * are overwritten; on a failed mail all five are restored and the collection
   * is exactly as before.
   */
  lemma RegisterUnverifiedEmail(store: Store, req: RegisterRequest, hashed: string, otp: string, now: int, newId: Id, mail: MailOutcome, i: nat)
    requires FieldsPresent(req)
    requires Valid(store)
    requires i < |store| && store[i].email == NormalizedEmail(req.email) && !store[i].isVerified
    ensures var out := Register(store, req, hashed, otp, now, newId, mail);
      && out.mail == Some(OtpMail(NormalizedEmail(req.email), otp))
      && (mail.Delivered? ==>
            && out.reply == Reply(201, "OTP sent to your email.", Registered(store[i].id))
            && |out.store| == |store|
            && out.store[i] == User(store[i].id, TrimmedField(req.name), TrimmedField(req.lastname), store[i].email,
                                    hashed, false, otp, Some(now + 600000))
            && (forall k :: 0 <= k < |store| && k != i ==> out.store[k] == store[k]))
      && (mail.MailFailed? ==> out.reply.status == 500 && out.store == store)
  {
    var u := store[i];
    var email := NormalizedEmail(req.email);
    FindByEmailAt(store, email, i);
    RollbackRoundTrip(u, TrimmedField(req.name), TrimmedField(req.lastname), hashed, otp, now + OtpLifetime);
    var updated := Overwrite(u, TrimmedField(req.name), TrimmedField(req.lastname), hashed, otp, now + OtpLifetime);
    if mail.MailFailed? {
      assert store[i := Restore(updated, TakeSnapshot(u))] == store;
    }
  }

  /** Whatever the request and the mail outcome, every verified record keeps its place and its contents. */
  lemma RegisterKeepsVerifiedRecords(store: Store, req: RegisterRequest, hashed: string, otp: string, now: int, newId: Id, mail: MailOutcome)
    requires FreshId(store, newId)
    ensures var out := Register(store, req, hashed, otp, now, newId, mail);
      forall k :: 0 <= k < |store| && store[k].isVerified ==> k < |out.store| && out.store[k] == store[k]
  {
    var out := Register(store, req, hashed, otp, now, newId, mail);
    var email := NormalizedEmail(req.email);
    if FieldsPresent(req) && FindByEmail(store, email).None? {
      RegisterFreshEmail(store, req, hashed, otp, now, newId, mail);
    }
  }

  /** Replacing a record by one with the same id and email keeps the collection valid. */
  lemma ReplacePreservesValid(store: Store, i: nat, u: User)
    requires Valid(store) && i < |store|
    requires u.id == store[i].id && u.email == store[i].email
    requires u.isVerified ==> u.otp == "" && u.otpExpires.None?
    ensures Valid(store[i := u])
  {
  }

  /** Appending a record with a fresh id and a fresh email keeps the collection valid. */
  lemma AppendPreservesValid(store: Store, u: User)
    requires Valid(store) && FreshId(store, u.id)
    requires forall k :: 0 <= k < |store| ==> store[k].email != u.email
    requires u.isVerified ==> u.otp == "" && u.otpExpires.None?
    ensures Valid(store + [u])
  {
  }

  /** `register` keeps ids and emails unique and leaves verified records without a pending code. */
  lemma RegisterPreservesValid(store: Store, req: RegisterRequest, hashed: string, otp: string, now: int, newId: Id, mail: MailOutcome)
    requires Valid(store) && FreshId(store, newId)
    ensures Valid(Register(store, req, hashed, otp, now, newId, mail).store)
  {
    var out := Register(store, req, hashed, otp, now, newId, mail);
    var email := NormalizedEmail(req.email);
    if FieldsPresent(req) {
      match FindByEmail(store, email)
      case Some(i) =>
        if !store[i].isVerified {
          RegisterUnverifiedEmail(store, req, hashed, otp, now, newId, mail, i);
          if mail.Delivered? {
            ReplacePreservesValid(store, i, out.store[i]);
            assert out.store == store[i := out.store[i]];
          }
        }
      case None =>
        RegisterFreshEmail(store, req, hashed, otp, now, newId, mail);
        if mail.Delivered? {
          AppendPreservesValid(store, out.store[|store|]);
          assert out.store == store + [out.store[|store|]];
        }
    }
  }

  // ---------------------------------------------------------------------------
  // verifyOTP
  // ---------------------------------------------------------------------------

  datatype Outcome = Outcome(reply: Reply, store: Store)

  /** `user.otpExpires < new Date()`; a null expiry compares as 0. */
  predicate Expired(expires: Option<int>, now: int) {
    expires.GetOr(0) < now
  }

  /** `verifyOTP`: presence check, lookup, code comparison, then expiry. */
  function VerifyOtp(store: Store, userId: Option<Id>, code: Option<string>, now: int): Outcome {
    if userId.None? || code.None? || code.value == "" then
      Outcome(Reply(400, "User ID and OTP are required", NoBody), store)
    else match FindById(store, userId.value)
      case None => Outcome(Reply(404, "User not found", NoBody), store)
      case Some(i) =>
        var u := store[i];
        if u.otp != code.value then Outcome(Reply(400, "Invalid OTP", NoBody), store)
        else if Expired(u.otpExpires, now) then
          Outcome(Reply(400, "OTP expired", NoBody), RemoveById(store, userId.value))
        else
          Outcome(Reply(200, "Account verified successfully!", NoBody),
                  store[i := u.(isVerified := true, otp := "", otpExpires := None)])
  }

  /** A wrong code is refused without touching the collection, whether or not the stored code has expired. */
  lemma VerifyOtpMismatchFirst(store: Store, id: Id, code: string, now: int, i: nat)
    requires code != ""
    requires i < |store| && store[i].id == id && FreshId(store[..i], id)
    requires store[i].otp != code
    ensures VerifyOtp(store, Some(id), Some(code), now) == Outcome(Reply(400, "Invalid OTP", NoBody), store)
  {
    assert forall k :: 0 <= k < i ==> store[k] == store[..i][k];
    FindByIdAt(store, id, i);
  }

  /** A matching but expired code deletes the record; a later attempt for that id finds nothing. */
  lemma VerifyOtpExpiredDeletes(store: Store, id: Id, code: string, now: int, later: Option<string>, now2: int, i: nat)
    requires Valid(store)
    requires code != ""
    requires i < |store| && store[i].id == id
    requires store[i].otp == code && Expired(store[i].otpExpires, now)
    ensures var out := VerifyOtp(store, Some(id), Some(code), now);
      && out.reply == Reply(400, "OTP expired", NoBody)
      && out.store == RemoveAt(store, i)
      && (later.Some? && later.value != "" ==> VerifyOtp(out.store, Some(id), later, now2).reply.status == 404)
  {
    FindByIdAt(store, id, i);
    var rest := RemoveAt(store, i);
    assert FreshId(rest, id) by {
      forall k | 0 <= k < |rest| ensures rest[k].id != id {
        if k < i { assert rest[k] == store[k]; } else { assert rest[k] == store[k + 1]; }
      }
    }
  }

  /**
   * A matching, unexpired code verifies the account and clears the code, so
   * the same code is refused as invalid next time and changes nothing.
   */
  lemma VerifyOtpSingleUse(store: Store, id: Id, code: string, now: int, now2: int, i: nat)
    requires code != ""
    requires i < |store| && store[i].id == id && FreshId(store[..i], id)
    requires store[i].otp == code && !Expired(store[i].otpExpires, now)
    ensures var out := VerifyOtp(store, Some(id), Some(code), now);
      && out.reply.status == 200
      && out.store == store[i := store[i].(isVerified := true, otp := "", otpExpires := None)]
      && VerifyOtp(out.store, Some(id), Some(code), now2) == Outcome(Reply(400, "Invalid OTP", NoBody), out.store)
  {
    assert forall k :: 0 <= k < i ==> store[k] == store[..i][k];
    FindByIdAt(store, id, i);
    var out := VerifyOtp(store, Some(id), Some(code), now);
    assert out.store[..i] == store[..i];
    FindByIdAt(out.store, id, i);
  }

  /** `verifyOTP` keeps ids and emails unique and leaves verified records without a pending code. */
  lemma VerifyOtpPreservesValid(store: Store, userId: Option<Id>, code: Option<string>, now: int)
    requires Valid(store)
    ensures Valid(VerifyOtp(store, userId, code, now).store)
  {
    if userId.Some? && code.Some? && FindById(store, userId.value).Some? {
      var i := FindById(store, userId.value).value;
      var rest := RemoveAt(store, i);
      forall a, b | 0 <= a < b < |rest|
        ensures rest[a].id != rest[b].id && rest[a].email != rest[b].email
      {
        var a' := if a < i then a else a + 1;
        var b' := if b < i then b else b + 1;
        assert rest[a] == store[a'] && rest[b] == store[b'];
      }
    }
  }

  // ---------------------------------------------------------------------------
  // login
  // ---------------------------------------------------------------------------

  /** `process.env.ADMIN_EMAIL && user.email === process.env.ADMIN_EMAIL` */
  predicate IsAdmin(adminEmail: Option<string>, email: string) {
    adminEmail.Some? && adminEmail.value != "" && email == adminEmail.value
  }

  /**
   * `login`. `matches(plain, hash)` is `bcrypt.compare`; `sign(id)` is the
   * seven-day token `jwt.sign` issues for that id.
   */
  function Login(store: Store, email: Option<string>, password: Option<string>,
                 matches: (string, string) -> bool, sign: Id -> string, adminEmail: Option<string>): Reply
  {
    if email.None? || email.value == "" || password.None? || password.value == "" then
      Reply(400, "Email and password are required", NoBody)
    else match FindByEmail(store, ToLower(Trim(email.value)))
      case None => Reply(404, "User not found", NoBody)
      case Some(i) =>
        var u := store[i];
        if !u.isVerified then Reply(401, "Please verify your email first", NoBody)
        else if !matches(password.value, u.password) then Reply(401, "Incorrect password", NoBody)
        else Reply(200, "Login successful", LoggedIn(sign(u.id), Profile(u.name, u.lastname, u.email, IsAdmin(adminEmail, u.email))))
  }

  /** An unverified account is refused with 401 whatever the password and whatever `bcrypt.compare` would say. */
  lemma LoginRejectsUnverified(store: Store, email: string, password: string,
                               matches: (string, string) -> bool, sign: Id -> string, adminEmail: Option<string>)
    requires email != "" && password != ""
    requires var i := FindByEmail(store, ToLower(Trim(email))); i.Some? && !store[i.value].isVerified
    ensures Login(store, Some(email), Some(password), matches, sign, adminEmail) == Reply(401, "Please verify your email first", NoBody)
  {
  }

  /**
   * The refusals of `login`, in the handler's order: a missing email or
   * password is 400; an address no record holds is 404; a verified record
   * whose hash does not match the password is 401 "Incorrect password".
   */
  lemma LoginRejects(store: Store, email: Option<string>, password: Option<string>,
                     matches: (string, string) -> bool, sign: Id -> string, adminEmail: Option<string>)
    ensures var r := Login(store, email, password, matches, sign, adminEmail);
      && (r == Reply(400, "Email and password are required", NoBody) <==>
            email.None? || email.value == "" || password.None? || password.value == "")
      && (email.Some? && email.value != "" && password.Some? && password.value != "" ==>
            var i := FindByEmail(store, ToLower(Trim(email.value)));
            && (i.None? ==> r == Reply(404, "User not found", NoBody))
            && (i.Some? && store[i.value].isVerified && !matches(password.value, store[i.value].password) ==>
                  r == Reply(401, "Incorrect password", NoBody)))
  {
  }

  /**
   * Login succeeds exactly when both fields are given, the normalised email
   * belongs to a verified record and the password matches its hash; the token
   * is issued for that record's id and `isAdmin` holds exactly when the admin
   * address is configured and equals the record's email.
   */
  lemma LoginSucceedsIff(store: Store, email: string, password: string,
                         matches: (string, string) -> bool, sign: Id -> string, adminEmail: Option<string>)
    ensures var r := Login(store, Some(email), Some(password), matches, sign, adminEmail);
      var i := FindByEmail(store, ToLower(Trim(email)));
      && (r.status == 200 <==>
            email != "" && password != "" && i.Some? && store[i.value].isVerified && matches(password, store[i.value].password))
      && (r.status == 200 ==>
            && r.body.LoggedIn? && r.body.token == sign(store[i.value].id)
            && r.body.user.email == store[i.value].email
            && (r.body.user.isAdmin <==> adminEmail.Some? && adminEmail.value != "" && adminEmail.value == store[i.value].email))
  {
  }

  // ---------------------------------------------------------------------------
  // refreshToken
  // ---------------------------------------------------------------------------

  /** `header.startsWith("Bearer ") ? header.slice(7) : header` (section 2.1 of RFC 6750). */
  function BearerToken(header: string): string {
    if StartsWith(header, "Bearer ") then header[7..] else header
  }

  /** The prefix is removed exactly once and a bare token passes through unchanged. */
  lemma BearerTokenRoundTrip(token: string)
    ensures BearerToken("Bearer " + token) == token
    ensures !StartsWith(token, "Bearer ") ==> BearerToken(token) == token
  {
    assert ("Bearer " + token)[..7] == "Bearer ";
  }

  /**
   * `refreshToken`. `verify(token)` is `jwt.verify`: the id the token was
   * signed for, or none when it is forged or expired (the handler's catch).
   */
  function Refresh(store: Store, authorization: Option<string>, verify: string -> Option<Id>, sign: Id -> string): Reply {
    if authorization.None? || authorization.value == "" then Reply(401, "No token provided", NoBody)
    else match verify(BearerToken(authorization.value))
      case None => Reply(401, "Token refresh failed", NoBody)
      case Some(id) =>
        match FindById(store, id)
        case None => Reply(401, "User not found or not verified", NoBody)
        case Some(i) =>
          if !store[i].isVerified then Reply(401, "User not found or not verified", NoBody)
          else Reply(200, "", Refreshed(sign(id)))
  }

  /**
   * Refresh answers 200 exactly when a header is present, its token verifies
   * and names an existing verified record, and then re-issues a token for
   * that same id; every other case is 401.
   */
  lemma RefreshSucceedsIff(store: Store, authorization: Option<string>, verify: string -> Option<Id>, sign: Id -> string)
    ensures var r := Refresh(store, authorization, verify, sign);
      && (r.status == 200 || r.status == 401)
      && (r.status == 200 <==>
            && authorization.Some? && authorization.value != ""
            && var id := verify(BearerToken(authorization.value));
               id.Some? && FindById(store, id.value).Some? && store[FindById(store, id.value).value].isVerified)
      && (r.status == 200 ==> r.body == Refreshed(sign(verify(BearerToken(authorization.value)).value)))
  {
  }

  // ---------------------------------------------------------------------------
  // The whole flow
  // ---------------------------------------------------------------------------

  /**
   * Register a fresh email with a delivered mail, then verify with the issued
   * code before it expires: the collection gains exactly one record, verified,
   * with no pending code.
   */
  lemma RegisterThenVerify(store: Store, req: RegisterRequest, hashed: string, otp: string, now: int, later: int, newId: Id)
    requires FreshId(store, newId)
    requires FieldsPresent(req)
    requires otp != ""
    requires forall k :: 0 <= k < |store| ==> store[k].email != NormalizedEmail(req.email)
    requires later <= now + 600000
    ensures var s1 := Register(store, req, hashed, otp, now, newId, Delivered);
      var s2 := VerifyOtp(s1.store, Some(newId), Some(otp), later);
      && s1.reply.body == Registered(newId)
      && s2.reply.status == 200
      && s2.store == store + [User(newId, TrimmedField(req.name), TrimmedField(req.lastname), NormalizedEmail(req.email), hashed, true, "", None)]
  {
    RegisterFreshEmail(store, req, hashed, otp, now, newId, Delivered);
    var s1 := Register(store, req, hashed, otp, now, newId, Delivered);
    var n := |store|;
    assert s1.store[n].id == newId && s1.store[n].otp == otp;
    assert s1.store[..n] == store;
    VerifyOtpSingleUse(s1.store, newId, otp, later, later, n);
  }

  /**
   * A verified account whose email is unique logs in with a matching password,
   * and the token it receives, presented to refresh bare or with a `Bearer `
   * prefix, yields a new token for the same account.
   */
  lemma LoginThenRefresh(store: Store, email: string, password: string,
                         matches: (string, string) -> bool, sign: Id -> string, verify: string -> Option<Id>,
                         adminEmail: Option<string>, withPrefix: bool, n: nat)
    requires email != "" && password != ""
    requires n < |store| && store[n].isVerified && store[n].email == ToLower(Trim(email))
    requires forall k :: 0 <= k < n ==> store[k].email != store[n].email && store[k].id != store[n].id
    requires matches(password, store[n].password)
    requires verify(sign(store[n].id)) == Some(store[n].id)
    requires sign(store[n].id) != "" && !StartsWith(sign(store[n].id), "Bearer ")  // a JWT starts with its base64url header
    ensures var r := Login(store, Some(email), Some(password), matches, sign, adminEmail);
      && r.status == 200 && r.body.token == sign(store[n].id)
      && Refresh(store, Some(if withPrefix then "Bearer " + r.body.token else r.body.token), verify, sign).body
         == Refreshed(sign(store[n].id))
  {
    FindByEmailAt(store, store[n].email, n);
    FindByIdAt(store, store[n].id, n);
    BearerTokenRoundTrip(sign(store[n].id));
  }
}

=== FILE: auth_modal.dfy ===
/**
 * The authentication-modal state of `client/src/context/AuthContext.jsx`:
 * which modal is open (none, login, signup or OTP entry) and the id of the
 * user awaiting OTP verification.
 */
module AuthModal {
  import opened Wrappers

  /** The modal on screen; `None` stands for `null`, so every state names one of the four values. */
  datatype Modal = Login | Signup | Otp

  datatype ModalState = ModalState(modal: Option<Modal>, tempUserId: Option<string>)

  const Initial: ModalState := ModalState(None, None)

  /** `openLogin`: show the login modal; the pending user id is kept. */
  function OpenLogin(s: ModalState): (r: ModalState)
    ensures r.modal == Some(Login) && r.tempUserId == s.tempUserId
  {
    s.(modal := Some(Login))
  }

  /** `openSignup`: show the signup modal; the pending user id is kept. */
  function OpenSignup(s: ModalState): (r: ModalState)
    ensures r.modal == Some(Signup) && r.tempUserId == s.tempUserId
  {
    s.(modal := Some(Signup))
  }

  /** `openOTP(id)`: remember `id` (possibly `undefined`) and show the OTP modal. */
  function OpenOtp(s: ModalState, id: Option<string>): (r: ModalState)
    ensures r.modal == Some(Otp) && r.tempUserId == id
  {
    ModalState(Some(Otp), id)
  }

  /** `closeModal`: hide whatever modal is open; the pending user id is kept. */
  function CloseModal(s: ModalState): (r: ModalState)
    ensures r.modal.None? && r.tempUserId == s.tempUserId
  {
    s.(modal := None)
  }

  /** `closeSignup` does exactly what `closeModal` does. */
  function CloseSignup(s: ModalState): (r: ModalState)
    ensures r.modal.None? && r.tempUserId == s.tempUserId
  {
    s.(modal := None)
  }

  /** `closeOTP`: hide the modal and forget the pending user id. */
  function CloseOtp(s: ModalState): (r: ModalState)
    ensures r == Initial
  {
    ModalState(None, None)
  }

  /** Closing the OTP modal undoes opening it, from any state. */
  lemma CloseOtpUndoesOpenOtp(s: ModalState, id: Option<string>)
    ensures CloseOtp(OpenOtp(s, id)) == Initial
    ensures CloseModal(OpenOtp(s, id)).tempUserId == id
  {
  }

  /** The user actions that drive the context. */
  datatype Action =
    | LoginRequested
    | SignupRequested
    | OtpRequested(id: Option<string>)
    | Dismissed
    | SignupDismissed
    | OtpDismissed

  function Step(s: ModalState, a: Action): ModalState {
    match a
    case LoginRequested => OpenLogin(s)
    case SignupRequested => OpenSignup(s)
    case OtpRequested(id) => OpenOtp(s, id)
    case Dismissed => CloseModal(s)
    case SignupDismissed => CloseSignup(s)
    case OtpDismissed => CloseOtp(s)
  }

  /** The state after performing `actions` in order. */
  function Run(s: ModalState, actions: seq<Action>): ModalState
    decreases |actions|
  {
    if actions == [] then s else Run(Step(s, actions[0]), actions[1..])
  }

  /** The modal each action leaves on screen, whatever the state before. */
  function Shows(a: Action): Option<Modal> {
    match a
    case LoginRequested => Some(Login)
    case SignupRequested => Some(Signup)
    case OtpRequested(_) => Some(Otp)
    case _ => None
  }

  /**
   * Reference definition of the pending id: the id of the last `openOTP`
   * unless a `closeOTP` came after it; otherwise the initial one.
   */
  function PendingId(s: ModalState, actions: seq<Action>): Option<string>
    decreases |actions|
  {
    if actions == [] then s.tempUserId
    else match actions[|actions| - 1]
      case OtpRequested(id) => id
      case OtpDismissed => None
      case _ => PendingId(s, actions[..|actions| - 1])
  }

  lemma {:induction false} RunAppend(s: ModalState, actions: seq<Action>, a: Action)
    ensures Run(s, actions + [a]) == Step(Run(s, actions), a)
    decreases |actions|
  {
    if actions != [] {
      assert (actions + [a])[1..] == actions[1..] + [a];
      RunAppend(Step(s, actions[0]), actions[1..], a);
    }
  }

  /**
   * After any sequence of actions the modal is the one the last action
   * shows, and the pending id is the reference `PendingId`.
   */
  lemma {:induction false} RunMatchesReference(s: ModalState, actions: seq<Action>)
    ensures Run(s, actions).modal == (if actions == [] then s.modal else Shows(actions[|actions| - 1]))
    ensures Run(s, actions).tempUserId == PendingId(s, actions)
    decreases |actions|
  {
    if actions != [] {
      var init := actions[..|actions| - 1];
      assert actions == init + [actions[|actions| - 1]];
      RunAppend(s, init, actions[|actions| - 1]);
      RunMatchesReference(s, init);
    }
  }
}

=== FILE: blog.dfy ===
/**
 * The text helpers of the blog page, `client/src/Pages/Blog.jsx`: the choice
 * of a speech-synthesis voice, the preparation of the text read aloud
 * (sanitising, sentence splitting, 450-character chunks), the compaction of
 * a summary string, and the text sent to the server-side TTS endpoint.
 */
module Blog {
  import opened Wrappers
  import opened Text
  import Ai

  // ----------------------------------------------------------------------
  // pickFemaleEnglishVoice
  // ----------------------------------------------------------------------

  /** A browser voice; an absent `name` or `lang` is the empty string. */
  datatype SpeechVoice = SpeechVoice(name: string, lang: string)

  const PreferredNames: seq<string> :=
    ["Samantha", "Joanna", "Emma", "Olivia", "Amy", "Ivy", "Alloy", "Google US English", "Kendra", "Nicole", "Aria"]

  /** The alternatives of `/female|woman|sara|emma|olivia|amy|joanna|samantha|kendra|nicole/i`. */
  const HeuristicWords: seq<string> :=
    ["female", "woman", "sara", "emma", "olivia", "amy", "joanna", "samantha", "kendra", "nicole"]

  predicate IsEnUs(v: SpeechVoice) { v.lang != "" && StartsWith(ToLower(v.lang), "en-us") }
  predicate IsEn(v: SpeechVoice) { v.lang != "" && StartsWith(ToLower(v.lang), "en") }

  /** `v.name && v.name.toLowerCase().includes(name.toLowerCase())` */
  predicate NameMatches(v: SpeechVoice, name: string) {
    v.name != "" && Contains(ToLower(v.name), ToLower(name))
  }

  predicate Preferred(v: SpeechVoice) {
    exists i :: 0 <= i < |PreferredNames| && NameMatches(v, PreferredNames[i])
  }

  predicate Heuristic(v: SpeechVoice) {
    exists i :: 0 <= i < |HeuristicWords| && Contains(ToLower(v.name), HeuristicWords[i])
  }

  /** `vs.find(p)`: the element at the first position `FindFirst` finds. */
  function Find(vs: seq<SpeechVoice>, p: SpeechVoice -> bool): (r: Option<SpeechVoice>)
    ensures r.Some? ==> r.value in vs && p(r.value)
    ensures r.Some? ==> exists k :: 0 <= k < |vs| && vs[k] == r.value && forall j :: 0 <= j < k ==> !p(vs[j])
    ensures r.None? <==> forall k :: 0 <= k < |vs| ==> !p(vs[k])
  {
    match FindFirst(vs, p)
    case None => None
    case Some(i) => Some(vs[i])
  }

  /** `vs.filter(p)` */
  function Filter(vs: seq<SpeechVoice>, p: SpeechVoice -> bool): (r: seq<SpeechVoice>)
    ensures forall v :: v in r <==> v in vs && p(v)
  {
    if vs == [] then [] else (if p(vs[0]) then [vs[0]] else []) + Filter(vs[1..], p)
  }

  /** The test `v.name.includes(name)` for one name. */
  function MatchesName(name: string): SpeechVoice -> bool {
    (v: SpeechVoice) => NameMatches(v, name)
  }

  /** `names[i]` is the first of `names` that some voice of `arr` matches. */
  predicate FirstMatchedName(arr: seq<SpeechVoice>, names: seq<string>, i: int) {
    && 0 <= i < |names|
    && (forall j, v :: 0 <= j < i && v in arr ==> !NameMatches(v, names[j]))
    && Find(arr, MatchesName(names[i])).Some?
  }

  /**
   * `findIn(arr)`: the names are tried in order, and the first one that some
   * voice matches gives its first matching voice.
   */
  function FindIn(arr: seq<SpeechVoice>, names: seq<string>): (r: Option<SpeechVoice>)
    ensures r.Some? ==> r.value in arr && exists i :: 0 <= i < |names| && NameMatches(r.value, names[i])
    ensures r.None? ==> forall v, i :: v in arr && 0 <= i < |names| ==> !NameMatches(v, names[i])
    ensures r.Some? ==> exists i :: FirstMatchedName(arr, names, i) && r == Find(arr, MatchesName(names[i]))
  {
    if names == [] then None
    else
      var f := Find(arr, MatchesName(names[0]));
      if f.Some? then
        assert FirstMatchedName(arr, names, 0);
        f
      else
        var r := FindIn(arr, names[1..]);
        assert forall i :: 1 <= i < |names| ==> names[i] == names[1..][i - 1];
        if r.Some? then
          var i :| FirstMatchedName(arr, names[1..], i) && r == Find(arr, MatchesName(names[1..][i]));
          FirstMatchedNameNext(arr, names, i);
          r
        else r
  }

  lemma FirstMatchedNameNext(arr: seq<SpeechVoice>, names: seq<string>, i: int)
    requires names != [] && Find(arr, MatchesName(names[0])).None?
    requires FirstMatchedName(arr, names[1..], i)
    ensures FirstMatchedName(arr, names, i + 1) && names[i + 1] == names[1..][i]
  {
    forall j, v | 0 <= j < i + 1 && v in arr ensures !NameMatches(v, names[j]) {
      if j == 0 {
        assert !MatchesName(names[0])(v);
      } else {
        assert names[j] == names[1..][j - 1];
      }
    }
  }

  /** A voice named `selected` is in the list. */
  predicate SelectionAvailable(list: seq<SpeechVoice>, selected: string) {
    selected != "" && exists k :: 0 <= k < |list| && list[k].name == selected
  }

  predicate SomePreferred(list: seq<SpeechVoice>, p: SpeechVoice -> bool) {
    exists k :: 0 <= k < |list| && p(list[k]) && Preferred(list[k])
  }

  lemma EnUsIsEn(v: SpeechVoice)
    ensures IsEnUs(v) ==> IsEn(v)
  {
    if IsEnUs(v) {
      assert ToLower(v.lang)[..2] == ToLower(v.lang)[..5][..2];
    }
  }

  /**
   * The last resorts of `pickFemaleEnglishVoice`: the first `en-us` voice,
   * the first `en` voice, the first voice the name heuristic accepts, the
   * first voice.
   */
  function Fallback(list: seq<SpeechVoice>): (r: SpeechVoice)
    requires list != []
    ensures r in list
    ensures Find(list, IsEnUs).Some? ==> r == Find(list, IsEnUs).value
    ensures Find(list, IsEnUs).None? ==>
              r == (if Find(list, IsEn).Some? then Find(list, IsEn).value
                    else if Find(list, Heuristic).Some? then Find(list, Heuristic).value
                    else list[0])
  {
    var enUs := Filter(list, IsEnUs);
    var en := Filter(list, IsEn);
    PickFallbackFacts(list);
    if enUs != [] then enUs[0]
    else if en != [] then en[0]
    else
      var h := Find(list, Heuristic);
      if h.Some? then h.value else list[0]
  }

  /**
   * `pickFemaleEnglishVoice` once no selected voice applies: a preferred
   * name among the `en-us` voices, then among the `en` voices, then
   * `Fallback`.
   */
  function PickUnselected(list: seq<SpeechVoice>): (r: SpeechVoice)
    requires list != []
    ensures r in list
    ensures SomePreferred(list, IsEnUs) ==> IsEnUs(r) && Preferred(r)
    ensures !SomePreferred(list, IsEnUs) && SomePreferred(list, IsEn) ==> IsEn(r) && Preferred(r)
    ensures !SomePreferred(list, IsEn) ==> r == Fallback(list)
    ensures SomePreferred(list, IsEnUs) ==>
              var arr := Filter(list, IsEnUs);
              exists i :: FirstMatchedName(arr, PreferredNames, i) && Some(r) == Find(arr, MatchesName(PreferredNames[i]))
    ensures !SomePreferred(list, IsEnUs) && SomePreferred(list, IsEn) ==>
              var arr := Filter(list, IsEn);
              exists i :: FirstMatchedName(arr, PreferredNames, i) && Some(r) == Find(arr, MatchesName(PreferredNames[i]))
  {
    var f1 := FindIn(Filter(list, IsEnUs), PreferredNames);
    FindInFiltered(list, IsEnUs);
    PreferredEnUsIsEn(list);
    if f1.Some? then f1.value
    else
      var f2 := FindIn(Filter(list, IsEn), PreferredNames);
      FindInFiltered(list, IsEn);
      if f2.Some? then f2.value else Fallback(list)
  }

  lemma PreferredEnUsIsEn(list: seq<SpeechVoice>)
    ensures SomePreferred(list, IsEnUs) ==> SomePreferred(list, IsEn)
  {
    if SomePreferred(list, IsEnUs) {
      var k :| 0 <= k < |list| && IsEnUs(list[k]) && Preferred(list[k]);
      EnUsIsEn(list[k]);
    }
  }

  /** `findIn` over the voices a filter keeps finds a preferred voice exactly when one exists. */
  lemma FindInFiltered(list: seq<SpeechVoice>, p: SpeechVoice -> bool)
    ensures FindIn(Filter(list, p), PreferredNames).Some? ==>
              var v := FindIn(Filter(list, p), PreferredNames).value; v in list && p(v) && Preferred(v)
    ensures FindIn(Filter(list, p), PreferredNames).None? <==> !SomePreferred(list, p)
  {
    var f := FindIn(Filter(list, p), PreferredNames);
    if f.None? {
      forall k | 0 <= k < |list| && p(list[k]) ensures !Preferred(list[k]) {
        assert list[k] in Filter(list, p);
      }
    } else {
      assert f.value in Filter(list, p);
      var k :| 0 <= k < |list| && list[k] == f.value;
    }
  }

  /**
   * `pickFemaleEnglishVoice`: `None` exactly for an empty list, otherwise a
   * voice of the list: the selected one when it is present, else
   * `PickUnselected`.
   */
  function PickVoice(list: seq<SpeechVoice>, selected: string): (r: Option<SpeechVoice>)
    ensures r.None? <==> list == []
    ensures r.Some? ==> r.value in list
    ensures SelectionAvailable(list, selected) ==> r.value.name == selected
    ensures list != [] && !SelectionAvailable(list, selected) ==> r == Some(PickUnselected(list))
  {
    if list == [] then None
    else
      var sel := if selected != "" then Find(list, (v: SpeechVoice) => v.name == selected) else None;
      if sel.Some? then sel else Some(PickUnselected(list))
  }

  /**
   * The priority order of the voice choice, from any list and selection:
   * selected name, preferred `en-us`, preferred `en`, first `en-us`, first
   * `en`, name heuristic, first voice.
   */
  lemma PickVoicePriority(list: seq<SpeechVoice>, selected: string)
    requires list != [] && !SelectionAvailable(list, selected)
    ensures SomePreferred(list, IsEnUs) ==> IsEnUs(PickVoice(list, selected).value) && Preferred(PickVoice(list, selected).value)
    ensures !SomePreferred(list, IsEnUs) && SomePreferred(list, IsEn) ==>
              IsEn(PickVoice(list, selected).value) && Preferred(PickVoice(list, selected).value)
    ensures !SomePreferred(list, IsEn) && Find(list, IsEnUs).Some? ==> PickVoice(list, selected) == Find(list, IsEnUs)
    ensures !SomePreferred(list, IsEn) && Find(list, IsEnUs).None? && Find(list, IsEn).Some? ==>
              PickVoice(list, selected) == Find(list, IsEn)
    ensures Find(list, IsEn).None? && Find(list, Heuristic).Some? ==>
              PickVoice(list, selected) == Find(list, Heuristic)
    ensures Find(list, IsEn).None? && Find(list, Heuristic).None? ==> PickVoice(list, selected) == Some(list[0])
  {
    if Find(list, IsEn).None? {
      forall k | 0 <= k < |list| ensures !IsEnUs(list[k]) && !IsEn(list[k]) {
        EnUsIsEn(list[k]);
      }
    }
  }

  /** The first element of a filtered list is the first element satisfying the filter. */
  lemma {:induction false} FilterHead(vs: seq<SpeechVoice>, p: SpeechVoice -> bool)
    ensures Filter(vs, p) == [] <==> Find(vs, p).None?
    ensures Filter(vs, p) != [] ==> Find(vs, p) == Some(Filter(vs, p)[0])
  {
    if vs != [] && !p(vs[0]) {
      FilterHead(vs[1..], p);
    }
  }

  lemma PickFallbackFacts(list: seq<SpeechVoice>)
    ensures Filter(list, IsEnUs) == [] <==> Find(list, IsEnUs).None?
    ensures Filter(list, IsEnUs) != [] ==> Find(list, IsEnUs) == Some(Filter(list, IsEnUs)[0])
    ensures Filter(list, IsEn) == [] <==> Find(list, IsEn).None?
    ensures Filter(list, IsEn) != [] ==> Find(list, IsEn) == Some(Filter(list, IsEn)[0])
  {
    FilterHead(list, IsEnUs);
    FilterHead(list, IsEn);
  }

  // ----------------------------------------------------------------------
  // Text read aloud
  // ----------------------------------------------------------------------

  const Stops: set<char> := {'.', '?', '!'}

  /** `[A-Z0-9]` */
  predicate IsCapitalOrDigit(c: char) { IsUpper(c) || IsDigit(c) }

  /**
   * A split point of `/(?<=[.?!])\s+(?=[A-Z0-9])/` (when `capital`) or of
   * `/(?<=[.?!])\s+/` (otherwise): a maximal whitespace run `s[i..j]` right
   * after a stop, followed by a capital or digit when `capital` is set.
   */
  predicate BreakAt(s: string, i: int, j: int, capital: bool) {
    && 0 < i < j <= |s| && s[i - 1] in Stops
    && (forall k :: i <= k < j ==> IsSpace(s[k]))
    && (j == |s| || !IsSpace(s[j]))
    && (capital ==> j < |s| && IsCapitalOrDigit(s[j]))
  }

  /** The end of the whitespace run starting at `i`. */
  function SpaceEnd(s: string, i: nat): (j: nat)
    requires i <= |s|
    ensures i <= j <= |s| && (forall k :: i <= k < j ==> IsSpace(s[k])) && (j == |s| || !IsSpace(s[j]))
    decreases |s| - i
  {
    if i < |s| && IsSpace(s[i]) then SpaceEnd(s, i + 1) else i
  }

  /** A split point always spans the whole whitespace run. */
  lemma BreakEndsRun(s: string, i: int, j: int, capital: bool)
    ensures BreakAt(s, i, j, capital) ==> 0 < i < |s| && IsSpace(s[i]) && j == SpaceEnd(s, i)
  {
    if BreakAt(s, i, j, capital) {
      var e := SpaceEnd(s, i);
      assert j < |s| ==> !IsSpace(s[j]);
      assert e < |s| ==> !IsSpace(s[e]);
      assert j == e;
    }
  }

  /** The leftmost split point at or after `from`, if any. */
  function NextBreak(s: string, from: nat, capital: bool): (b: Option<(nat, nat)>)
    requires from >= 1
    ensures b.Some? ==> from <= b.value.0 && BreakAt(s, b.value.0, b.value.1, capital)
    ensures b.Some? ==> forall i, j :: from <= i < b.value.0 ==> !BreakAt(s, i, j, capital)
    ensures b.None? ==> forall i, j :: from <= i ==> !BreakAt(s, i, j, capital)
    decreases |s| - from
  {
    if from >= |s| then None
    else if s[from - 1] in Stops && IsSpace(s[from]) && BreakAt(s, from, SpaceEnd(s, from), capital) then
      Some((from, SpaceEnd(s, from)))
    else
      assert forall j :: !BreakAt(s, from, j, capital) by {
        forall j ensures !BreakAt(s, from, j, capital) {
          BreakEndsRun(s, from, j, capital);
        }
      }
      NextBreak(s, from + 1, capital)
  }

  /** `s.split(regex)` for the two sentence-splitting expressions. */
  function SplitAtBreaks(s: string, capital: bool): (parts: seq<string>)
    ensures |parts| >= 1
    decreases |s|
  {
    match NextBreak(s, 1, capital)
    case None => [s]
    case Some((i, j)) => [s[..i]] + SplitAtBreaks(s[j..], capital)
  }

  /** No split point anywhere in `s`. */
  predicate NoBreak(s: string, capital: bool) {
    forall i, j :: 0 < i < j <= |s| ==> !BreakAt(s, i, j, capital)
  }

  /** `s.split(regex)` keeps `s` whole exactly when the expression matches nowhere in it. */
  lemma {:induction false} SplitAtBreaksWhole(s: string, capital: bool)
    ensures NoBreak(s, capital) <==> SplitAtBreaks(s, capital) == [s]
  {
    match NextBreak(s, 1, capital)
    case None =>
    case Some((i, j)) =>
      assert |SplitAtBreaks(s, capital)| >= 2;
  }

  /**
   * The first piece is the text before the leftmost split point `s[i..j]`,
   * and the rest are the pieces of what follows it.
   */
  lemma {:induction false} SplitAtBreaksAtFirst(s: string, capital: bool, i: int, j: int)
    requires BreakAt(s, i, j, capital)
    requires forall i', j' :: i' < i ==> !BreakAt(s, i', j', capital)
    ensures SplitAtBreaks(s, capital) == [s[..i]] + SplitAtBreaks(s[j..], capital)
  {
    match NextBreak(s, 1, capital)
    case None =>
      assert false;
    case Some((i0, j0)) =>
      assert i0 == i;
      BreakEndsRun(s, i, j, capital);
      BreakEndsRun(s, i0, j0, capital);
  }

  /** The text before the leftmost split point holds no split point of its own. */
  lemma NoBreakBeforeFirst(s: string, capital: bool, i: int, j: int)
    requires BreakAt(s, i, j, capital)
    requires forall i', j' :: i' < i ==> !BreakAt(s, i', j', capital)
    ensures NoBreak(s[..i], capital)
  {
    var p := s[..i];
    forall a, b ensures !BreakAt(p, a, b, capital) {
      if BreakAt(p, a, b, capital) {
        assert p[i - 1] == s[i - 1];
        if b == i {
          assert false;
        }
        assert p[b] == s[b] && p[a - 1] == s[a - 1];
        assert forall k :: a <= k < b ==> p[k] == s[k];
        assert BreakAt(s, a, b, capital);
        assert false;
      }
    }
  }

  /** The `k`-th piece of a split holds no split point. */
  lemma {:induction false} SplitAtBreaksPiece(s: string, capital: bool, k: nat)
    requires k < |SplitAtBreaks(s, capital)|
    ensures NoBreak(SplitAtBreaks(s, capital)[k], capital)
    decreases |s|
  {
    match NextBreak(s, 1, capital)
    case None =>
      SplitAtBreaksWhole(s, capital);
    case Some((i, j)) =>
      var parts := SplitAtBreaks(s, capital);
      var rest := SplitAtBreaks(s[j..], capital);
      assert parts == [s[..i]] + rest;
      if k == 0 {
        NoBreakBeforeFirst(s, capital, i, j);
      } else {
        assert parts[k] == rest[k - 1];
        SplitAtBreaksPiece(s[j..], capital, k - 1);
      }
  }

  /** No piece of a split holds a split point: each split point was cut at. */
  lemma SplitAtBreaksPieces(s: string, capital: bool)
    ensures forall k :: 0 <= k < |SplitAtBreaks(s, capital)| ==> NoBreak(SplitAtBreaks(s, capital)[k], capital)
  {
    forall k | 0 <= k < |SplitAtBreaks(s, capital)| ensures NoBreak(SplitAtBreaks(s, capital)[k], capital) {
      SplitAtBreaksPiece(s, capital, k);
    }
  }

  /**
   * On collapsed text every split point is a single space, so joining the
   * pieces with a space restores the text.
   */
  lemma {:induction false} SplitAtBreaksJoin(s: string, capital: bool)
    requires Collapsed(s)
    ensures Join(SplitAtBreaks(s, capital), " ") == s
    decreases |s|
  {
    match NextBreak(s, 1, capital)
    case None =>
    case Some((i, j)) =>
      assert IsSpace(s[i]) && s[i] == ' ';
      BreakEndsRun(s, i, j, capital);
      assert SpaceEnd(s, i + 1) == i + 1;
      assert j == i + 1;
      var rest := s[j..];
      assert Collapsed(rest) by {
        forall k | 0 <= k < |rest| && IsSpace(rest[k])
          ensures rest[k] == ' ' && (k + 1 == |rest| || !IsSpace(rest[k + 1]))
        {
          assert rest[k] == s[j + k];
          if k + 1 < |rest| { assert rest[k + 1] == s[j + k + 1]; }
        }
      }
      SplitAtBreaksJoin(rest, capital);
      var parts := SplitAtBreaks(s, capital);
      assert parts == [s[..i]] + SplitAtBreaks(rest, capital);
      assert parts[1..] == SplitAtBreaks(rest, capital);
      if |parts| == 1 {
        assert false;
      }
      assert s == s[..i] + " " + rest;
  }

  /** `.map(s => s.trim()).filter(Boolean)` */
  function TrimNonEmpty(xs: seq<string>): (r: seq<string>)
    ensures |r| <= |xs|
    ensures forall k :: 0 <= k < |r| ==> r[k] != "" && IsTrimmed(r[k])
  {
    if xs == [] then []
    else (if Trim(xs[0]) != "" then [Trim(xs[0])] else []) + TrimNonEmpty(xs[1..])
  }

  /** The first piece is trimmed and kept when non-empty, ahead of the rest. */
  lemma TrimNonEmptyCons(x: string, xs: seq<string>)
    ensures TrimNonEmpty([x] + xs) == (if Trim(x) != "" then [Trim(x)] else []) + TrimNonEmpty(xs)
  {
    assert ([x] + xs)[0] == x && ([x] + xs)[1..] == xs;
  }

  /** Trimming and filtering distributes over concatenation, so the pieces' order is kept. */
  lemma {:induction false} TrimNonEmptyAppend(a: seq<string>, b: seq<string>)
    ensures TrimNonEmpty(a + b) == TrimNonEmpty(a) + TrimNonEmpty(b)
    decreases |a|
  {
    if a != [] {
      var h := if Trim(a[0]) != "" then [Trim(a[0])] else [];
      AppendHead(a, b);
      TrimNonEmptyCons(a[0], a[1..] + b);
      TrimNonEmptyAppend(a[1..], b);
      TrimNonEmptyCons(a[0], a[1..]);
      AppendAssoc(h, TrimNonEmpty(a[1..]), TrimNonEmpty(b));
    } else {
      assert a + b == b;
    }
  }

  /** `t` is the non-empty trimmed form of one of `xs`. */
  predicate TrimmedPiece(t: string, xs: seq<string>) {
    exists k :: 0 <= k < |xs| && t == Trim(xs[k]) && t != ""
  }

  /** A piece is kept exactly when it is the non-empty trimmed form of one of the inputs. */
  lemma {:induction false} TrimNonEmptyMembers(xs: seq<string>, t: string)
    ensures t in TrimNonEmpty(xs) <==> TrimmedPiece(t, xs)
    decreases |xs|
  {
    if xs != [] {
      var rest := xs[1..];
      var u := Trim(xs[0]);
      var h := if u != "" then [u] else [];
      assert TrimNonEmpty(xs) == h + TrimNonEmpty(rest);
      TrimNonEmptyMembers(rest, t);
      if TrimmedPiece(t, xs) {
        var k :| 0 <= k < |xs| && t == Trim(xs[k]) && t != "";
        if k > 0 {
          assert rest[k - 1] == xs[k];
          assert t in TrimNonEmpty(rest);
        } else {
          assert t in h;
        }
      }
      if t in TrimNonEmpty(xs) {
        if t in h {
          assert t == Trim(xs[0]) && t != "";
        } else {
          assert t in TrimNonEmpty(rest);
          var k :| 0 <= k < |rest| && t == Trim(rest[k]) && t != "";
          assert xs[k + 1] == rest[k];
        }
      }
    }
  }

  /** The text read aloud: the title and a period when there is a title, then the sanitised body. */
  function FullText(title: string, html: string): (t: string)
    ensures title == "" ==> t == Sanitize(html)
    ensures title != "" ==> |t| == |title| + 2 + |Sanitize(html)| && t[..|title|] == title && t[|title|..|title| + 2] == ". "
    ensures t[|t| - |Sanitize(html)|..] == Sanitize(html)
  {
    (if title != "" then title + ". " else "") + Sanitize(html)
  }

  /**
   * The sentence pieces of the text read aloud: non-empty and trimmed, and a
   * string is a piece exactly when it is the trimmed form of a part of the
   * text between sentence breaks.
   */
  function SentencePieces(title: string, html: string): (r: seq<string>)
    ensures forall k :: 0 <= k < |r| ==> r[k] != "" && IsTrimmed(r[k])
    ensures |r| <= |SplitAtBreaks(FullText(title, html), true)|
  {
    TrimNonEmpty(SplitAtBreaks(FullText(title, html), true))
  }

  /** Every piece comes from a part of the text between breaks, and every non-blank part is kept. */
  lemma SentencePiecesFromText(title: string, html: string, t: string)
    ensures t in SentencePieces(title, html) <==> TrimmedPiece(t, SplitAtBreaks(FullText(title, html), true))
  {
    TrimNonEmptyMembers(SplitAtBreaks(FullText(title, html), true), t);
  }

  const MaxChunk: nat := 450

  /** `c.slice(i, i + 450)` for `i = 0, 450, 900, …` */
  function Slices(c: string): seq<string>
    decreases |c|
  {
    if c == [] then []
    else if |c| <= MaxChunk then [c]
    else [c[..MaxChunk]] + Slices(c[MaxChunk..])
  }

  /** The slices are non-empty, at most 450 long, and concatenate back to the piece. */
  lemma {:induction false} SlicesCover(c: string)
    ensures Concat(Slices(c)) == c
    ensures forall k :: 0 <= k < |Slices(c)| ==> 0 < |Slices(c)[k]| <= MaxChunk
    decreases |c|
  {
    if |c| > MaxChunk {
      var rest := c[MaxChunk..];
      SlicesCover(rest);
      var r := Slices(c);
      assert r[1..] == Slices(rest);
      assert c == c[..MaxChunk] + rest;
      forall k | 1 <= k < |r| ensures 0 < |r[k]| <= MaxChunk {
        assert r[k] == Slices(rest)[k - 1];
      }
    }
  }

  /**
   * The slicing loop `for (i = 0; i < c.length; i += 450)`, with `rest`
   * standing for `c.slice(i)`: it yields exactly the slices.
   */
  method CutSlices(c: string) returns (pieces: seq<string>)
    ensures pieces == Slices(c)
  {
    var rest := c;
    pieces := [];
    while rest != []
      invariant pieces + Slices(rest) == Slices(c)
      decreases |rest|
    {
      var n := Min(MaxChunk, |rest|);
      var piece := rest[..n];
      SlicesStep(rest);
      assert (pieces + [piece]) + Slices(rest[n..]) == pieces + ([piece] + Slices(rest[n..]));
      pieces := pieces + [piece];
      rest := rest[n..];
    }
  }

  /** The slices of a non-empty text: its first slice, then the slices of the remainder. */
  lemma SlicesStep(c: string)
    requires c != []
    ensures Slices(c) == [c[..Min(MaxChunk, |c|)]] + Slices(c[Min(MaxChunk, |c|)..])
  {
    if |c| <= MaxChunk {
      assert c[..|c|] == c;
      assert Slices(c[|c|..]) == [];
    }
  }

  /** One utterance per piece of at most 450 characters, and the slices of each longer piece. */
  function Utterances(cs: seq<string>): seq<string> {
    if cs == [] then [] else (if |cs[0]| <= MaxChunk then [cs[0]] else Slices(cs[0])) + Utterances(cs[1..])
  }

  /** The utterances of two runs of pieces are those of the first run, then those of the second. */
  lemma {:induction false} UtterancesAppend(a: seq<string>, b: seq<string>)
    ensures Utterances(a + b) == Utterances(a) + Utterances(b)
    decreases |a|
  {
    if a != [] {
      var h := if |a[0]| <= MaxChunk then [a[0]] else Slices(a[0]);
      AppendHead(a, b);
      assert Utterances(a + b) == h + Utterances(a[1..] + b);
      assert Utterances(a) == h + Utterances(a[1..]);
      UtterancesAppend(a[1..], b);
      AppendAssoc(h, Utterances(a[1..]), Utterances(b));
    } else {
      assert a + b == b;
    }
  }

  /**
   * The chunking loop of `speakBrowser`: a piece of at most 450 characters
   * is kept whole, a longer one is cut into consecutive 450-character slices.
   */
  method FinalChunks(chunks: seq<string>) returns (out: seq<string>)
    ensures forall k :: 0 <= k < |out| ==> |out[k]| <= MaxChunk
    ensures (forall k :: 0 <= k < |chunks| ==> chunks[k] != "") ==> forall k :: 0 <= k < |out| ==> out[k] != ""
    ensures Concat(out) == Concat(chunks)
    ensures (forall k :: 0 <= k < |chunks| ==> |chunks[k]| <= MaxChunk) ==> out == chunks
    ensures out == Utterances(chunks)
  {
    out := [];
    var n := 0;
    while n < |chunks|
      invariant 0 <= n <= |chunks|
      invariant out == Utterances(chunks[..n])
    {
      var c := chunks[n];
      assert chunks[..n + 1] == chunks[..n] + [c];
      UtterancesAppend(chunks[..n], [c]);
      assert Utterances([c]) == (if |c| <= MaxChunk then [c] else Slices(c)) + Utterances([]);
      if |c| <= MaxChunk {
        out := out + [c];
      } else {
        var pieces := CutSlices(c);
        out := out + pieces;
      }
      n := n + 1;
    }
    assert chunks[..n] == chunks;
    UtterancesCover(chunks);
  }

  /** The utterances of the first piece, then those of the rest. */
  lemma UtterancesCons(cs: seq<string>)
    requires cs != []
    ensures Utterances(cs) == (if |cs[0]| <= MaxChunk then [cs[0]] else Slices(cs[0])) + Utterances(cs[1..])
  {
  }

  /** Every utterance is at most 450 long, and non-empty when every piece is. */
  lemma {:induction false} UtterancesBounded(cs: seq<string>, k: nat)
    requires k < |Utterances(cs)|
    ensures |Utterances(cs)[k]| <= MaxChunk
    ensures (forall j :: 0 <= j < |cs| ==> cs[j] != "") ==> Utterances(cs)[k] != ""
    decreases |cs|
  {
    var c := cs[0];
    var h := if |c| <= MaxChunk then [c] else Slices(c);
    UtterancesCons(cs);
    if k < |h| {
      assert Utterances(cs)[k] == h[k];
      SlicesCover(c);
    } else {
      assert Utterances(cs)[k] == Utterances(cs[1..])[k - |h|];
      assert forall j :: 0 <= j < |cs| - 1 ==> cs[1..][j] == cs[j + 1];
      UtterancesBounded(cs[1..], k - |h|);
    }
  }

  /** The utterances concatenate to the pieces. */
  lemma {:induction false} UtterancesConcat(cs: seq<string>)
    ensures Concat(Utterances(cs)) == Concat(cs)
    decreases |cs|
  {
    if cs != [] {
      var c := cs[0];
      var h := if |c| <= MaxChunk then [c] else Slices(c);
      UtterancesCons(cs);
      UtterancesConcat(cs[1..]);
      ConcatAppend(h, Utterances(cs[1..]));
      if |c| <= MaxChunk {
        assert Concat(h) == c + Concat([]);
      } else {
        SlicesCover(c);
      }
    }
  }

  /** Pieces that are all at most 450 long are their own utterances. */
  lemma {:induction false} UtterancesOfShort(cs: seq<string>)
    requires forall k :: 0 <= k < |cs| ==> |cs[k]| <= MaxChunk
    ensures Utterances(cs) == cs
    decreases |cs|
  {
    if cs != [] {
      UtterancesCons(cs);
      assert forall j :: 0 <= j < |cs| - 1 ==> cs[1..][j] == cs[j + 1];
      UtterancesOfShort(cs[1..]);
      assert cs == [cs[0]] + cs[1..];
    }
  }

  /**
   * The utterances are at most 450 long, non-empty when the pieces are,
   * concatenate to the pieces, and are the pieces themselves when all are short.
   */
  lemma UtterancesCover(cs: seq<string>)
    ensures forall k :: 0 <= k < |Utterances(cs)| ==> |Utterances(cs)[k]| <= MaxChunk
    ensures (forall k :: 0 <= k < |cs| ==> cs[k] != "") ==> forall k :: 0 <= k < |Utterances(cs)| ==> Utterances(cs)[k] != ""
    ensures Concat(Utterances(cs)) == Concat(cs)
    ensures (forall k :: 0 <= k < |cs| ==> |cs[k]| <= MaxChunk) ==> Utterances(cs) == cs
  {
    forall k | 0 <= k < |Utterances(cs)|
      ensures |Utterances(cs)[k]| <= MaxChunk
      ensures (forall j :: 0 <= j < |cs| ==> cs[j] != "") ==> Utterances(cs)[k] != ""
    {
      UtterancesBounded(cs, k);
    }
    UtterancesConcat(cs);
    if forall k :: 0 <= k < |cs| ==> |cs[k]| <= MaxChunk {
      UtterancesOfShort(cs);
    }
  }

  /**
   * The chunks `speakBrowser` hands to the speech engine, one utterance
   * each; an empty text is not read at all.
   */
  method SpeechChunks(title: string, html: string) returns (out: seq<string>)
    ensures html == "" ==> out == []
    ensures forall k :: 0 <= k < |out| ==> 0 < |out[k]| <= MaxChunk
    ensures html != "" ==> Concat(out) == Concat(SentencePieces(title, html))
    ensures html != "" ==> out == Utterances(SentencePieces(title, html))
  {
    if html == "" {
      return [];
    }
    out := FinalChunks(SentencePieces(title, html));
  }

  // ----------------------------------------------------------------------
  // Summary compaction and the HQ request
  // ----------------------------------------------------------------------

  /** A summary as the endpoint returns it: one string, or a list of points. */
  datatype SummaryValue = Text(s: string) | Points(items: seq<string>)

  function NonEmptyParts(xs: seq<string>): (r: seq<string>)
    ensures |r| <= |xs|
    ensures forall k :: 0 <= k < |r| ==> r[k] != "" && r[k] in xs
  {
    if xs == [] then [] else (if xs[0] != "" then [xs[0]] else []) + NonEmptyParts(xs[1..])
  }

  /**
   * A string summary is split after `.`, `?` or `!` and reduced to its
   * first three sentences when it has at least two; a list is kept.
   */
  function CompactSummary(v: SummaryValue): (r: SummaryValue)
    ensures v.Points? ==> r == v
    ensures v.Text? && r.Points? ==>
      var parts := NonEmptyParts(SplitAtBreaks(v.s, false));
      && 2 <= |r.items| == Min(3, |parts|) && r.items == parts[..|r.items|]
      && forall k :: 0 <= k < |r.items| ==> r.items[k] != "" && r.items[k] in SplitAtBreaks(v.s, false)
    ensures v.Text? ==> (r.Text? <==> |NonEmptyParts(SplitAtBreaks(v.s, false))| <= 1)
    ensures r.Text? ==> r == v
  {
    match v
    case Points(_) => v
    case Text(s) =>
      var top := Prefix(NonEmptyParts(SplitAtBreaks(s, false)), 3);
      if |top| > 1 then Points(top) else v
  }

  /** Compacting a compacted summary changes nothing. */
  lemma CompactSummaryIdempotent(v: SummaryValue)
    ensures CompactSummary(CompactSummary(v)) == CompactSummary(v)
  {
  }

  /** Every piece of a split but the last is non-empty: a split point never sits at the start. */
  lemma {:induction false} SplitAtBreaksLeading(s: string, capital: bool, k: nat)
    requires k + 1 < |SplitAtBreaks(s, capital)|
    ensures SplitAtBreaks(s, capital)[k] != ""
    decreases |s|
  {
    match NextBreak(s, 1, capital)
    case None =>
    case Some((i, j)) =>
      var parts := SplitAtBreaks(s, capital);
      var rest := SplitAtBreaks(s[j..], capital);
      assert parts == [s[..i]] + rest;
      if k == 0 {
        assert |parts[0]| == i > 0;
      } else {
        assert parts[k] == rest[k - 1];
        SplitAtBreaksLeading(s[j..], capital, k - 1);
      }
  }

  /** When only the last part may be empty, dropping empty parts leaves a prefix of the parts. */
  lemma {:induction false} NonEmptyPartsOfLeading(xs: seq<string>)
    requires forall k :: 0 <= k < |xs| - 1 ==> xs[k] != ""
    ensures NonEmptyParts(xs) == xs[..|NonEmptyParts(xs)|]
    decreases |xs|
  {
    if |xs| == 1 {
      assert NonEmptyParts(xs) == (if xs[0] != "" then [xs[0]] else []) + NonEmptyParts([]);
    } else if |xs| > 1 {
      var rest := xs[1..];
      assert forall k :: 0 <= k < |rest| - 1 ==> rest[k] == xs[k + 1];
      NonEmptyPartsOfLeading(rest);
      var n := |NonEmptyParts(rest)|;
      assert NonEmptyParts(xs) == [xs[0]] + rest[..n];
      assert [xs[0]] + rest[..n] == xs[..n + 1];
    }
  }

  /**
   * A compacted text summary is made of the leading pieces of the split,
   * and on collapsed text they are read, joined by a space, from its start.
   */
  lemma CompactSummaryLeading(v: SummaryValue)
    requires v.Text?
    ensures var r := CompactSummary(v);
      r.Points? ==>
        && r.items == SplitAtBreaks(v.s, false)[..|r.items|]
        && (Collapsed(v.s) ==> Join(r.items, " ") <= v.s)
  {
    var parts := SplitAtBreaks(v.s, false);
    var r := CompactSummary(v);
    if r.Points? {
      forall k | 0 <= k < |parts| - 1 ensures parts[k] != "" {
        SplitAtBreaksLeading(v.s, false, k);
      }
      NonEmptyPartsOfLeading(parts);
      var m := |r.items|;
      assert r.items == parts[..m];
      if Collapsed(v.s) {
        SplitAtBreaksJoin(v.s, false);
        JoinPrefix(parts, " ", m);
      }
    }
  }

  const MaxHqText: nat := 20000

  /** `` `${title}. ${raw}`.slice(0, 20000) `` */
  function HqText(title: string, html: string): (t: string)
    ensures |t| <= MaxHqText
  {
    Prefix(title + ". " + Sanitize(html), MaxHqText)
  }

  /**
   * The server accepts every HQ request the page sends for a title shorter
   * than the cap (the period after the title survives the cut) and, having
   * a key, reads it with the default English neural voice.
   */
  lemma HqRequestAccepted(title: string, html: string, apiKey: string)
    requires |title| < MaxHqText && apiKey != ""
    ensures Ai.GenerateTts(Ai.TtsRequest(Some(Ai.Str(HqText(title, html))), Some("en"), None), Some(apiKey))
            == Ai.TtsSynthesize(HqText(title, html), Ai.ByName(Ai.DefaultEnglishVoice))
  {
    var t := HqText(title, html);
    HqTextKeepsPeriod(title, Sanitize(html));
    PeriodIsUsable(t, |title|);
  }

  lemma HqTextKeepsPeriod(title: string, body: string)
    requires |title| < MaxHqText
    ensures |title| < |Prefix(title + ". " + body, MaxHqText)|
    ensures Prefix(title + ". " + body, MaxHqText)[|title|] == '.'
  {
    var full := title + ". " + body;
    assert full[|title|] == '.';
  }

  lemma PeriodIsUsable(t: string, k: nat)
    requires k < |t| && t[k] == '.'
    ensures Ai.UsableText(Some(Ai.Str(t)))
  {
    TrimEmpty(t);
  }
}

=== FILE: feature_menu.dfy ===
/**
 * The AI feature menu of a blog post, `client/src/components/FeatureMenu.jsx`:
 * the local one-third summary and the dispatch of a feature button.
 */
module FeatureMenu {
  import opened Wrappers
  import opened Text

  /** The characters of `/[.!?]+/`. */
  const Stops: set<char> := {'.', '!', '?'}

  /** `.filter(s => s.trim())`: the pieces that are not blank, in order. */
  function NonBlank(xs: seq<string>): (r: seq<string>)
    ensures |r| <= |xs|
    ensures forall k :: 0 <= k < |r| ==> Trim(r[k]) != "" && r[k] in xs
    ensures forall x :: x in xs && Trim(x) != "" ==> x in r
  {
    if xs == [] then []
    else (if Trim(xs[0]) != "" then [xs[0]] else []) + NonBlank(xs[1..])
  }

  /** The filter distributes over concatenation, so the pieces keep their order. */
  lemma {:induction false} NonBlankAppend(a: seq<string>, b: seq<string>)
    ensures NonBlank(a + b) == NonBlank(a) + NonBlank(b)
    decreases |a|
  {
    if a != [] {
      var h := if Trim(a[0]) != "" then [a[0]] else [];
      AppendHead(a, b);
      assert NonBlank(a + b) == h + NonBlank(a[1..] + b);
      NonBlankAppend(a[1..], b);
      AppendAssoc(h, NonBlank(a[1..]), NonBlank(b));
    } else {
      assert a + b == b;
    }
  }

  /** The sentences of the post: tags removed, split at runs of `.`, `!`, `?`, blank pieces dropped. */
  function Sentences(content: string): (r: seq<string>)
    ensures forall k :: 0 <= k < |r| ==> Trim(r[k]) != "" && NoneIn(r[k], Stops)
    ensures r == NonBlank(SplitRuns(ReplaceTags(content, ""), Stops))
    ensures forall x :: x in r <==> x in SplitRuns(ReplaceTags(content, ""), Stops) && Trim(x) != ""
  {
    var pieces := SplitRuns(ReplaceTags(content, ""), Stops);
    NonBlank(pieces)
  }

  /** The sentences the summary keeps: the first third, rounded up. */
  function KeptSentences(content: string): (r: seq<string>)
    ensures |r| == CeilDiv(|Sentences(content)|, 3)
    ensures r == Sentences(content)[..|r|]
  {
    var all := Sentences(content);
    all[..CeilDiv(|all|, 3)]
  }

  /**
   * `handleSummarize`: no summary for empty content; otherwise the kept
   * sentences joined by ". " and closed with a period, so that reading the
   * summary without its punctuation gives exactly the kept sentences
   * separated by single spaces.
   */
  function Summarize(content: string): (r: Option<string>)
    ensures r.None? <==> content == ""
    ensures r.Some? ==> |r.value| >= 1 && r.value[|r.value| - 1] == '.'
    ensures r.Some? ==> Without(r.value, Stops) == Join(KeptSentences(content), " ")
    ensures r.Some? ==> r.value == Join(KeptSentences(content), ". ") + "."
  {
    if content == "" then None
    else
      var kept := KeptSentences(content);
      var j := Join(kept, ". ");
      WithoutJoin(kept);
      WithoutAppend(j, ".", Stops);
      WithoutSeparator();
      Some(j + ".")
  }

  /** The summary keeps at least a third of the sentences, and fewer than a third plus one. */
  lemma SummaryKeepsAThird(content: string)
    ensures 3 * |KeptSentences(content)| >= |Sentences(content)|
    ensures 3 * (|KeptSentences(content)| - 1) < |Sentences(content)|
    ensures |Sentences(content)| > 0 ==> |KeptSentences(content)| > 0
  {
  }

  lemma WithoutSeparator()
    ensures Without(". ", Stops) == " " && Without(".", Stops) == ""
  {
    assert ". "[1..] == " ";
    assert " "[1..] == "";
    assert "."[1..] == "";
  }

  lemma {:induction false} WithoutJoin(parts: seq<string>)
    requires forall k :: 0 <= k < |parts| ==> NoneIn(parts[k], Stops)
    ensures Without(Join(parts, ". "), Stops) == Join(parts, " ")
    decreases |parts|
  {
    if |parts| == 1 {
      WithoutNone(parts[0], Stops);
    } else if |parts| > 1 {
      var head := parts[0];
      var tail := Join(parts[1..], ". ");
      assert Join(parts, ". ") == head + ". " + tail;
      assert Join(parts, " ") == head + " " + Join(parts[1..], " ");
      WithoutJoin(parts[1..]);
      WithoutAppend(head + ". ", tail, Stops);
      WithoutAppend(head, ". ", Stops);
      WithoutNone(head, Stops);
      WithoutSeparator();
    }
  }

  /** Content made only of punctuation summarises to a lone period. */
  lemma PunctuationOnly()
    ensures Summarize("?!") == Some(".")
  {
    var s := "?!";
    assert ReplaceTags(s, "") == s;
    assert Without(s, Stops) == "" by {
      assert s[1..] == "!" && s[1..][1..] == "";
    }
    var pieces := SplitRuns(s, Stops);
    forall k | 0 <= k < |pieces| ensures Trim(pieces[k]) == "" {
      ConcatEmpty(pieces, k);
      TrimEmpty(pieces[k]);
    }
    NonBlankOfBlank(pieces);
    assert Sentences(s) == [];
    assert KeptSentences(s) == [];
    var e: seq<string> := [];
    assert Join(e, ". ") == "";
    assert Join(KeptSentences(s), ". ") == "";
    assert Summarize(s) == Some(Join(KeptSentences(s), ". ") + ".");
    var d := Join(KeptSentences(s), ". ") + ".";
    assert |d| == 1 && d[0] == '.';
    assert d == ".";
  }

  lemma {:induction false} NonBlankOfBlank(xs: seq<string>)
    requires forall k :: 0 <= k < |xs| ==> Trim(xs[k]) == ""
    ensures NonBlank(xs) == []
  {
    if xs != [] {
      NonBlankOfBlank(xs[1..]);
    }
  }

  lemma ConcatEmpty(parts: seq<string>, k: nat)
    requires Concat(parts) == "" && k < |parts|
    ensures parts[k] == ""
  {
    if k > 0 {
      ConcatEmpty(parts[1..], k - 1);
    }
  }

  // ----------------------------------------------------------------------
  // handleFeature
  // ----------------------------------------------------------------------

  const KnownFeatures: set<string> := {"resume", "summarize", "imageGen"}

  /** What a feature button leads to once its timers have run. */
  datatype Effect =
    | OpenedResumeBuilder
    | SummaryShown(title: string, summary: string)
    | ImageComingSoon
    | Error(message: string)

  /** `active` is the recorded `activeFeature`. */
  datatype FeatureOutcome = FeatureOutcome(active: string, effect: Effect)

  const NotAvailable: string := "Feature not available"

  /**
   * `handleFeature(id)`: the id is always recorded as the active feature;
   * the three known ids run their handler and any other id reports that
   * the feature is not available.
   */
  function HandleFeature(id: string, title: string, content: string): (r: FeatureOutcome)
    ensures r.active == id
    ensures r.effect == Error(NotAvailable) <==> id !in KnownFeatures
    ensures id == "resume" ==> r.effect == OpenedResumeBuilder
    ensures id == "summarize" ==> (r.effect.SummaryShown? <==> content != "")
    ensures id == "summarize" && content == "" ==> r.effect == Error("No blog content to summarize")
    ensures r.effect.SummaryShown? ==> r.effect.title == title && Some(r.effect.summary) == Summarize(content)
    ensures id == "imageGen" ==> (r.effect == ImageComingSoon <==> title != "")
    ensures id == "imageGen" && title == "" ==> r.effect == Error("Please provide a blog title for image generation")
  {
    var effect :=
      if id == "resume" then OpenedResumeBuilder
      else if id == "summarize" then
        (if content == "" then Error("No blog content to summarize")
         else SummaryShown(title, Summarize(content).value))
      else if id == "imageGen" then
        (if title == "" then Error("Please provide a blog title for image generation") else ImageComingSoon)
      else Error(NotAvailable);
    FeatureOutcome(id, effect)
  }

  /**
   * What a button does depends only on what its handler reads: the resume
   * and unknown buttons on nothing, the summary button on the summary of
   * the content and on the title it shows, the image button on whether a
   * title is given.
   */
  lemma HandleFeatureReads(id: string, title: string, content: string, title2: string, content2: string)
    ensures id != "summarize" && id != "imageGen" ==>
      HandleFeature(id, title, content) == HandleFeature(id, title2, content2)
    ensures id == "summarize" && title == title2 && Summarize(content) == Summarize(content2) ==>
      HandleFeature(id, title, content) == HandleFeature(id, title2, content2)
    ensures id == "imageGen" && (title == "" <==> title2 == "") ==>
      HandleFeature(id, title, content) == HandleFeature(id, title2, content2)
  {
  }
}

=== FILE: resume.dfy ===
/**
 * The form state of the resume wizard, `client/src/Pages/ResumeBuilder.jsx`:
 * the step counter and the updates the inputs make to the resume data.
 */
module ResumeBuilder {
  import opened Text

  // ----------------------------------------------------------------------
  // Wizard steps
  // ----------------------------------------------------------------------

  const FirstStep: int := 1
  const LastStep: int := 4

  predicate ValidStep(step: int) { FirstStep <= step <= LastStep }

  /** `handleNext`: one step forward, never past the last step. */
  function Next(step: int): (r: int)
    ensures r <= LastStep
    ensures ValidStep(step) ==> ValidStep(r)
    ensures step < LastStep ==> r == step + 1
    ensures step >= LastStep ==> r == LastStep
  {
    Min(step + 1, LastStep)
  }

  /** `handleBack`: one step back, never before the first step. */
  function Back(step: int): (r: int)
    ensures r >= FirstStep
    ensures ValidStep(step) ==> ValidStep(r)
    ensures step > FirstStep ==> r == step - 1
    ensures step <= FirstStep ==> r == FirstStep
  {
    Max(step - 1, FirstStep)
  }

  /** Going forward then back returns to the step, except from the last; back then forward likewise except from the first. */
  lemma NextBackInverse(step: int)
    requires ValidStep(step)
    ensures step < LastStep ==> Back(Next(step)) == step
    ensures step > FirstStep ==> Next(Back(step)) == step
    ensures Next(LastStep) == LastStep && Back(FirstStep) == FirstStep
  {
  }

  /** A button press of the wizard: `true` for Next, `false` for Back. */
  function Press(step: int, forward: bool): int {
    if forward then Next(step) else Back(step)
  }

  function Presses(step: int, buttons: seq<bool>): int
    decreases |buttons|
  {
    if buttons == [] then step else Presses(Press(step, buttons[0]), buttons[1..])
  }

  /**
   * From the initial step, any sequence of presses keeps the step in
   * `[1, 4]`, and the step never moves by more than the number of presses.
   */
  lemma {:induction false} PressesStayInRange(step: int, buttons: seq<bool>)
    requires ValidStep(step)
    ensures ValidStep(Presses(step, buttons))
    ensures step - |buttons| <= Presses(step, buttons) <= step + |buttons|
    decreases |buttons|
  {
    if buttons != [] {
      PressesStayInRange(Press(step, buttons[0]), buttons[1..]);
    }
  }

  // ----------------------------------------------------------------------
  // Resume data
  // ----------------------------------------------------------------------

  /** An object of string fields, indexed by the field name the input passes. */
  type Fields = map<string, string>

  datatype ResumeForm = ResumeForm(
    personal: Fields,
    summary: string,
    experience: seq<Fields>,
    education: seq<Fields>,
    skills: seq<string>)

  /** The entry `addExperience` appends, also the initial one. */
  const DefaultExperience: Fields :=
    map["jobTitle" := "", "company" := "", "location" := "", "startDate" := "", "endDate" := "Present", "achievements" := ""]

  const InitialForm: ResumeForm := ResumeForm(
    map["fullName" := "", "professionalTitle" := "", "phone" := "", "email" := "", "location" := ""],
    "",
    [DefaultExperience],
    [map["institution" := "", "degree" := "", "graduationDate" := ""]],
    ["React", "Tailwind CSS", "Project Management"])

  /** `updatePersonal(field, value)`: that field of `personal` takes the value; nothing else changes. */
  function UpdatePersonal(f: ResumeForm, field: string, value: string): (r: ResumeForm)
    ensures field in r.personal && r.personal[field] == value
    ensures r.personal.Keys == f.personal.Keys + {field}
    ensures r.personal - {field} == f.personal - {field}
    ensures r.(personal := f.personal) == f
  {
    f.(personal := f.personal[field := value])
  }

  /** A later update of the same field wins; updates of different fields commute. */
  lemma UpdatePersonalOverwrites(f: ResumeForm, a: string, b: string, x: string, y: string)
    ensures UpdatePersonal(UpdatePersonal(f, a, x), a, y) == UpdatePersonal(f, a, y)
    ensures a != b ==> UpdatePersonal(UpdatePersonal(f, a, x), b, y) == UpdatePersonal(UpdatePersonal(f, b, y), a, x)
  {
  }

  /**
   * `updateExperience(index, field, value)` for an index of a rendered
   * entry: that field of that entry takes the value; the list keeps its
   * length, the other entries, the other fields and the rest of the form.
   */
  function UpdateExperience(f: ResumeForm, index: nat, field: string, value: string): (r: ResumeForm)
    requires index < |f.experience|
    ensures |r.experience| == |f.experience|
    ensures field in r.experience[index] && r.experience[index][field] == value
    ensures r.experience[index] - {field} == f.experience[index] - {field}
    ensures forall j :: 0 <= j < |f.experience| && j != index ==> r.experience[j] == f.experience[j]
    ensures r.(experience := f.experience) == f
  {
    var entry := f.experience[index];
    f.(experience := f.experience[index := entry[field := value]])
  }

  /** Writing back the value a field already holds changes nothing. */
  lemma UpdateExperienceSameValue(f: ResumeForm, index: nat, field: string)
    requires index < |f.experience| && field in f.experience[index]
    ensures UpdateExperience(f, index, field, f.experience[index][field]) == f
  {
    var r := UpdateExperience(f, index, field, f.experience[index][field]);
    assert r.experience[index] == f.experience[index];
    assert r.experience == f.experience;
  }

  /** `addExperience`: one default entry, ending "Present", is appended; the existing entries stay. */
  function AddExperience(f: ResumeForm): (r: ResumeForm)
    ensures |r.experience| == |f.experience| + 1
    ensures r.experience[..|f.experience|] == f.experience
    ensures r.experience[|f.experience|] == DefaultExperience
    ensures r.experience[|f.experience|]["endDate"] == "Present"
    ensures r.(experience := f.experience) == f
  {
    f.(experience := f.experience + [DefaultExperience])
  }

  /**
   * Editing the entry just added changes only that entry: the earlier
   * entries and the rest of the form are those from before the addition.
   */
  lemma AddThenUpdateExperience(f: ResumeForm, field: string, value: string)
    ensures var r := UpdateExperience(AddExperience(f), |f.experience|, field, value);
      r == f.(experience := f.experience + [DefaultExperience[field := value]])
  {
    var r := UpdateExperience(AddExperience(f), |f.experience|, field, value);
    assert r.experience == f.experience + [DefaultExperience[field := value]];
  }

  // ----------------------------------------------------------------------
  // Skills
  // ----------------------------------------------------------------------

  /** The skills input shows `skills.join(', ')`. */
  function SkillsText(skills: seq<string>): string {
    Join(skills, ", ")
  }

  /** The skills input's `onChange`: `value.split(',').map(s => s.trim())`. */
  function SplitSkills(value: string): (r: seq<string>)
    ensures |r| == |Split(value, ',')| >= 1
    ensures forall k :: 0 <= k < |r| ==> IsTrimmed(r[k]) && ',' !in r[k]
  {
    var parts := Split(value, ',');
    seq(|parts|, k requires 0 <= k < |parts| =>
      NoneInTrim(parts[k], {','});
      Trim(parts[k]))
  }

  /** Clearing the input leaves one empty skill, not an empty list. */
  lemma ClearedSkills()
    ensures SplitSkills("") == [""]
  {
    assert Split("", ',') == [""];
  }

  /** The parts of `Join(skills, ", ")` when split on the comma. */
  function Spaced(skills: seq<string>): (r: seq<string>)
    requires |skills| >= 1
    ensures |r| == |skills| && r[0] == skills[0]
    ensures forall k :: 1 <= k < |r| ==> r[k] == " " + skills[k]
  {
    [skills[0]] + seq(|skills| - 1, k requires 0 <= k < |skills| - 1 => " " + skills[k + 1])
  }

  lemma {:induction false} JoinSpaced(skills: seq<string>)
    requires |skills| >= 1
    ensures Join(skills, ", ") == Join(Spaced(skills), [','])
    decreases |skills|
  {
    if |skills| > 1 {
      var rest := skills[1..];
      JoinSpaced(rest);
      var sp := Spaced(skills);
      assert sp[1..] == [" " + rest[0]] + Spaced(rest)[1..];
      assert Join(sp[1..], [',']) == " " + Join(Spaced(rest), [',']) by {
        JoinPrefixFirst(rest[0], Spaced(rest)[1..], " ");
        assert Spaced(rest) == [rest[0]] + Spaced(rest)[1..];
      }
    }
  }

  /** Prefixing the first part prefixes the join. */
  lemma JoinPrefixFirst(first: string, rest: seq<string>, p: string)
    ensures Join([p + first] + rest, [',']) == p + Join([first] + rest, [','])
  {
    var q := [p + first] + rest;
    var r := [first] + rest;
    assert q[1..] == rest && r[1..] == rest;
    if rest != [] {
      var tail := Join(rest, [',']);
      assert Join(q, [',']) == (p + first) + [','] + tail;
      assert Join(r, [',']) == first + [','] + tail;
    }
  }

  /** The parts of the shown text carry no comma and trim back to the skills. */
  lemma SpacedParts(skills: seq<string>, k: nat)
    requires |skills| >= 1 && k < |skills|
    requires IsTrimmed(skills[k]) && ',' !in skills[k]
    ensures ',' !in Spaced(skills)[k]
    ensures Trim(Spaced(skills)[k]) == skills[k]
  {
    var sp := Spaced(skills);
    if k == 0 {
      TrimOfTrimmed(skills[0]);
    } else if skills[k] == [] {
      assert sp[k] == " ";
      TrimEmpty(" ");
    } else {
      assert sp[k] == " " + skills[k];
      TrimAfterSpace(skills[k]);
    }
  }

  /**
   * Showing the skills and reading the input back gives the same list, for
   * any non-empty list of trimmed skills without commas.
   */
  lemma {:induction false} SkillsRoundTrip(skills: seq<string>)
    requires |skills| >= 1
    requires forall k :: 0 <= k < |skills| ==> IsTrimmed(skills[k]) && ',' !in skills[k]
    ensures SplitSkills(SkillsText(skills)) == skills
  {
    var sp := Spaced(skills);
    forall k | 0 <= k < |sp| ensures ',' !in sp[k] && Trim(sp[k]) == skills[k] {
      SpacedParts(skills, k);
    }
    JoinSpaced(skills);
    SplitOfJoin(sp, ',');
    assert Split(SkillsText(skills), ',') == sp;
  }
}

=== FILE: session.dfy ===
/**
 * The browser-side session manager of `client/src/context/AppContext.jsx`:
 * the in-memory token, its copy in `localStorage` and the default
 * `Authorization` header of the HTTP client, the refresh call, the two
 * interceptors that retry a request once after a 401, the initial load from
 * storage and the theme toggle.
 *
 * React state updates are modelled as immediate; the one place where their
 * deferral matters (the request interceptor's captured token) is modelled
 * explicitly by `Send` and its corrected counterpart `SendLive`.
 */
module Session {
  import opened Wrappers

  /** Storage key under which the token is persisted. */
  const TokenKey: string := "token"
  /** Storage key under which the theme is persisted. */
  const ThemeKey: string := "theme"
  const SessionExpired: string := "Session expired. Please login again."
  const GenericError: string := "An error occurred"

  /**
   * `token` is the React state (`null` is `None`), `storage` is
   * `localStorage`, `defaultAuth` is the client's default `Authorization`
   * header (absent when deleted).
   */
  datatype State = State(token: Option<string>, storage: map<string, string>,
                         defaultAuth: Option<string>, theme: string)

  /** JavaScript truthiness of a possibly-null string. */
  predicate Truthy(t: Option<string>) {
    t.Some? && t.value != ""
  }

  /** The three copies of the token agree: all set to it, or all cleared. */
  predicate InStep(s: State) {
    if Truthy(s.token) then
      TokenKey in s.storage && s.storage[TokenKey] == s.token.value && s.defaultAuth == s.token
    else
      TokenKey !in s.storage && s.defaultAuth.None?
  }

  /** Storage agrees on every key other than `key`. */
  predicate SameExcept(a: map<string, string>, b: map<string, string>, key: string) {
    a - {key} == b - {key}
  }

  /** `setAuthToken`: store the token in state, storage and default header, or clear all three. */
  function SetAuthToken(s: State, t: Option<string>): (r: State)
    ensures r.token == t && InStep(r)
    ensures Truthy(t) ==> r.storage[TokenKey] == t.value && r.defaultAuth == t
    ensures !Truthy(t) ==> TokenKey !in r.storage && r.defaultAuth.None?
    ensures SameExcept(r.storage, s.storage, TokenKey) && r.theme == s.theme
  {
    if Truthy(t) then s.(token := t, storage := s.storage[TokenKey := t.value], defaultAuth := t)
    else s.(token := t, storage := s.storage - {TokenKey}, defaultAuth := None)
  }

  /** Setting the same token twice is the same as setting it once. */
  lemma SetAuthTokenIdempotent(s: State, t: Option<string>)
    ensures SetAuthToken(SetAuthToken(s, t), t) == SetAuthToken(s, t)
  {
  }

  /** A session whose copies agree is left alone by re-setting its own token. */
  lemma SetAuthTokenFixesInStep(s: State)
    requires InStep(s)
    ensures SetAuthToken(s, s.token) == s
  {
    if Truthy(s.token) {
      assert s.storage[TokenKey := s.token.value] == s.storage;
    } else {
      assert s.storage - {TokenKey} == s.storage;
    }
  }

  // ----------------------------------------------------------------------
  // Requests and the response interceptor
  // ----------------------------------------------------------------------

  /**
   * A server reply: HTTP status (0 when no response arrived) and the body's
   * `message`, `success` and `token` fields.
   */
  datatype Response = Response(status: int, message: Option<string>, success: bool, token: Option<string>)

  predicate Ok(r: Response) { 200 <= r.status < 300 }

  /** `token || localStorage.getItem('token') || ''`. */
  function CurrentToken(s: State): (t: string)
    ensures Truthy(s.token) ==> t == s.token.value
    ensures !Truthy(s.token) && TokenKey in s.storage ==> t == s.storage[TokenKey]
    ensures !Truthy(s.token) && TokenKey !in s.storage ==> t == ""
  {
    if Truthy(s.token) then s.token.value
    else if TokenKey in s.storage && s.storage[TokenKey] != "" then s.storage[TokenKey]
    else ""
  }

  /**
   * The request interceptor: `if (token) config.headers.Authorization = token`,
   * where `token` is the value the interceptor closure captured.
   */
  function Attach(captured: Option<string>, header: Option<string>): (h: Option<string>)
    ensures Truthy(captured) ==> h == captured
    ensures !Truthy(captured) ==> h == header
  {
    if Truthy(captured) then captured else header
  }

  /**
   * The header the refresh request carries: the current token as an explicit
   * header when there is one, else the client's default header, and the
   * request interceptor's captured token over both.
   */
  function RefreshHeader(s: State): (h: Option<string>)
    ensures Truthy(s.token) ==> h == s.token
    ensures CurrentToken(s) != "" ==> h == Some(CurrentToken(s))
    ensures CurrentToken(s) == "" ==> h == s.defaultAuth
  {
    var current := CurrentToken(s);
    Attach(s.token, if current != "" then Some(current) else s.defaultAuth)
  }

  /** The toast for an error status of 400 or more: the server's message, or a generic text. */
  function ErrorToast(r: Response): (t: Option<string>)
    ensures t.Some? <==> r.status >= 400
    ensures t.Some? && Truthy(r.message) ==> t == r.message
    ensures t.Some? && !Truthy(r.message) ==> t == Some(GenericError)
  {
    if r.status >= 400 then Some(if Truthy(r.message) then r.message.value else GenericError) else None
  }

  /** The error toast of a reply as a list: one toast or none. */
  function Toasts(r: Response): seq<string> {
    if r.status >= 400 then [ErrorToast(r).value] else []
  }

  /** The response interceptor's branch for a request that failed with `r`. */
  datatype Reaction = RefreshAndRetry | ToastAndReject(message: string) | RejectSilently

  /**
   * `if (status === 401 && !originalRequest._retry) … else if (status >= 400) toast.error(…)`:
   * `retried` is the request's `_retry` flag.
   */
  function React(r: Response, retried: bool): (a: Reaction)
    ensures a.RefreshAndRetry? <==> r.status == 401 && !retried
    ensures a.ToastAndReject? <==> r.status >= 400 && !(r.status == 401 && !retried)
    ensures a.ToastAndReject? ==> Some(a.message) == ErrorToast(r)
  {
    if r.status == 401 && !retried then RefreshAndRetry
    else if r.status >= 400 then ToastAndReject(ErrorToast(r).value)
    else RejectSilently
  }

  /**
   * How a request settles: resolved with a 2xx response, rejected with the
   * error's response, or never, because the refresh it waits on never ends.
   */
  datatype Fate = Resolved(response: Response) | Rejected(response: Response) | Pending

  /**
   * `sent` lists the `Authorization` header of each attempt, `refreshes`
   * counts the calls of `refreshToken` the request's own interceptor makes,
   * and `toasts` are the toasts shown, in order.
   */
  datatype SendOutcome = SendOutcome(fate: Fate, sent: seq<Option<string>>, refreshes: nat,
                                     toasts: seq<string>, session: State)

  /** What a call of `refreshToken` returns, the header its request carried, the session after it and its toasts. */
  datatype RefreshResult = RefreshResult(newToken: Option<string>, header: Option<string>, session: State, toasts: seq<string>)

  /** A call of `refreshToken` either returns, or waits for ever. */
  datatype Refresh = Refreshed(result: RefreshResult) | Waiting

  /**
   * The response interceptor's handling of a request sent with header `h1`
   * whose first response is `r1`; `retried` is its `_retry` flag, `refresh` is
   * what the `refreshToken()` call it would make comes to, and `retryHeader`
   * gives the header the retry actually carries once the refresh yielded a
   * new token and the session became `s1`.
   */
  function Settle(s: State, h1: Option<string>, r1: Response, retried: bool,
                  respond: Option<string> -> Response, refresh: Refresh,
                  retryHeader: (Option<string>, State) -> Option<string>): SendOutcome
  {
    if Ok(r1) then SendOutcome(Resolved(r1), [h1], 0, [], s)
    else
      match React(r1, retried)
      case ToastAndReject(m) => SendOutcome(Rejected(r1), [h1], 0, [m], s)
      case RejectSilently => SendOutcome(Rejected(r1), [h1], 0, [], s)
      case RefreshAndRetry =>
        match refresh
        case Waiting => SendOutcome(Pending, [h1], 1, [], s)
        case Refreshed(rr) =>
          if rr.newToken.Some? then
            var h2 := retryHeader(rr.newToken, rr.session);
            var r2 := respond(h2);
            // the retried request carries `_retry`, so a second 401 is not retried
            if Ok(r2) then SendOutcome(Resolved(r2), [h1, h2], 1, rr.toasts, rr.session)
            else SendOutcome(Rejected(r2), [h1, h2], 1, rr.toasts + Toasts(r2), rr.session)
          else SendOutcome(Rejected(r1), [h1], 1, rr.toasts + [SessionExpired], rr.session)
  }

  // ----------------------------------------------------------------------
  // refreshToken
  // ----------------------------------------------------------------------

  /**
   * The end of `refreshToken` once its request settled as `o`: a 2xx body
   * with `success` and a truthy token installs that token and returns it;
   * any other body, and a rejection (the `catch`), clear the session and
   * return `null`.
   */
  function FinishRefresh(o: SendOutcome, header: Option<string>): Refresh {
    match o.fate
    case Pending => Waiting
    case Resolved(r) =>
      if r.success && Truthy(r.token) then Refreshed(RefreshResult(r.token, header, SetAuthToken(o.session, r.token), o.toasts))
      else Refreshed(RefreshResult(None, header, SetAuthToken(o.session, None), o.toasts))
    case Rejected(_) => Refreshed(RefreshResult(None, header, SetAuthToken(o.session, None), o.toasts))
  }

  /**
   * `refreshToken` as written, allowed `calls` nested calls. The refresh
   * request passes the same response interceptor as any other and carries
   * no `_retry` flag, so a 401 from the refresh endpoint makes the
   * interceptor await a nested `refreshToken()`, from the same session since
   * nothing has returned yet. `Waiting` means that none of the allowed calls
   * has returned.
   */
  function RefreshAsWritten(s: State, server: Option<string> -> Response, calls: nat): Refresh
    decreases calls
  {
    if calls == 0 then Waiting
    else
      var h := RefreshHeader(s);
      var nested := RefreshAsWritten(s, server, calls - 1);
      FinishRefresh(Settle(s, h, server(h), false, server, nested, (t, s1) => Attach(s.token, t)), h)
  }

  /**
   * `refreshToken` as written. The refresh endpoint answers the same header
   * the same way, so a 401 from it never returns, whereas any other reply is
   * settled by the first call alone (`RefreshCallsAgree`).
   */
  function RefreshToken(s: State, server: Option<string> -> Response): (r: Refresh)
    ensures var reply := server(RefreshHeader(s));
      && (r.Waiting? <==> reply.status == 401)
      && (r.Refreshed? ==> RefreshSettles(s, reply, r.result) && r.result.toasts == Toasts(reply))
  {
    RefreshAsWritten(s, server, 1)
  }

  /**
   * What a returned refresh promises: it sent the refresh header; it returns
   * a token exactly for a 2xx reply with `success` and a truthy token, and
   * installs it; otherwise it clears the session.
   */
  predicate RefreshSettles(s: State, reply: Response, r: RefreshResult) {
    && r.header == RefreshHeader(s)
    && (r.newToken.Some? <==> Ok(reply) && reply.success && Truthy(reply.token))
    && (r.newToken.Some? ==> r.newToken == reply.token && r.session.token == r.newToken)
    && (r.newToken.None? ==> r.session.token.None? && TokenKey !in r.session.storage && r.session.defaultAuth.None?)
    && InStep(r.session) && r.session.theme == s.theme
    && SameExcept(r.session.storage, s.storage, TokenKey)
  }

  /** However many nested calls are allowed, a refused refresh never returns, so it never clears the session. */
  lemma {:induction false} RefreshRefusedLoops(s: State, server: Option<string> -> Response, calls: nat)
    requires server(RefreshHeader(s)).status == 401
    ensures RefreshAsWritten(s, server, calls) == Waiting
    decreases calls
  {
    if calls > 0 {
      RefreshRefusedLoops(s, server, calls - 1);
    }
  }

  /** Any reply other than a 401 is settled by the first call: more nested calls change nothing. */
  lemma RefreshCallsAgree(s: State, server: Option<string> -> Response, calls: nat)
    requires server(RefreshHeader(s)).status != 401 && calls >= 1
    ensures RefreshAsWritten(s, server, calls) == RefreshToken(s, server)
    ensures RefreshToken(s, server).Refreshed?
  {
  }

  /**
   * The intended `refreshToken`: its request is never retried (it carries
   * `_retry`), so a refused refresh shows the server's error and clears the
   * session like any other failure.
   */
  function RefreshLive(s: State, server: Option<string> -> Response): (r: Refresh)
    ensures r.Refreshed?
    ensures RefreshSettles(s, server(RefreshHeader(s)), r.result)
    ensures r.result.toasts == Toasts(server(RefreshHeader(s)))
  {
    var h := RefreshHeader(s);
    FinishRefresh(Settle(s, h, server(h), true, server, Waiting, (t, s1) => Attach(s.token, t)), h)
  }

  /** The two versions of `refreshToken` agree on every reply but a 401. */
  lemma RefreshVersionsAgree(s: State, server: Option<string> -> Response)
    ensures server(RefreshHeader(s)).status != 401 <==> RefreshToken(s, server) == RefreshLive(s, server)
  {
  }

  // ----------------------------------------------------------------------
  // A request through both interceptors
  // ----------------------------------------------------------------------

  /** The first attempt's header: the request's own, else the default, with the captured token over both. */
  function FirstHeader(s: State, header: Option<string>): Option<string> {
    Attach(s.token, if header.Some? then header else s.defaultAuth)
  }

  /**
   * A request as the code runs it. Both attempts pass the request interceptor
   * installed for the token of the last render, which is still `s.token`
   * when the retry is issued: the state update made by the refresh has not
   * re-rendered the provider yet. The header set on the retried request is
   * therefore overwritten by the stale token whenever that token is truthy.
   */
  function Send(s: State, header: Option<string>,
                respond: Option<string> -> Response, server: Option<string> -> Response): (o: SendOutcome)
    ensures 1 <= |o.sent| <= 2 && o.refreshes <= 1 && o.sent[0] == FirstHeader(s, header)
    ensures o.fate.Pending? <==> respond(o.sent[0]).status == 401 && server(RefreshHeader(s)).status == 401
  {
    var h1 := FirstHeader(s, header);
    Settle(s, h1, respond(h1), false, respond, RefreshToken(s, server), (t, s1) => Attach(s.token, t))
  }

  /**
   * The intended behaviour: the retry carries the token the refresh
   * returned, and the refresh request itself is never retried, so every
   * request settles.
   */
  function SendLive(s: State, header: Option<string>,
                    respond: Option<string> -> Response, server: Option<string> -> Response): (o: SendOutcome)
    ensures 1 <= |o.sent| <= 2 && o.refreshes <= 1 && o.sent[0] == FirstHeader(s, header)
    ensures !o.fate.Pending?
  {
    var h1 := FirstHeader(s, header);
    Settle(s, h1, respond(h1), false, respond, RefreshLive(s, server), (t, s1: State) => Attach(s1.token, t))
  }

  /**
   * A request refreshes exactly after a 401; it is retried exactly when that
   * refresh returned a token; and, as written, it never settles exactly when
   * the refresh endpoint refuses with 401 too.
   */
  lemma SendRetriesOnlyAfter401(s: State, header: Option<string>,
                                respond: Option<string> -> Response, server: Option<string> -> Response)
    ensures var o := Send(s, header, respond, server);
      var refresh := RefreshToken(s, server);
      && (o.refreshes == 1 <==> respond(o.sent[0]).status == 401)
      && (|o.sent| == 2 <==> respond(o.sent[0]).status == 401 && refresh.Refreshed? && refresh.result.newToken.Some?)
      && (o.fate.Pending? <==> respond(o.sent[0]).status == 401 && refresh.Waiting?)
  {
  }

  /** A non-2xx status other than 401 is rejected at once: no refresh, no retry, session untouched. */
  lemma SendOtherErrorNoRetry(s: State, header: Option<string>,
                              respond: Option<string> -> Response, server: Option<string> -> Response)
    requires !Ok(respond(FirstHeader(s, header))) && respond(FirstHeader(s, header)).status != 401
    ensures var o := Send(s, header, respond, server);
      && o.fate == Rejected(respond(o.sent[0])) && o.sent == [o.sent[0]] && o.refreshes == 0 && o.session == s
      && o.toasts == Toasts(respond(o.sent[0]))
  {
  }

  /**
   * A 401 whose refresh returns without a token clears the session, shows
   * the refresh's own toasts then the expiry toast, and rejects the original
   * error. As written this happens only for a refresh reply other than 401;
   * in the corrected version for every failed refresh.
   */
  lemma SendRefreshFailureClears(s: State, header: Option<string>,
                                 respond: Option<string> -> Response, server: Option<string> -> Response)
    requires respond(FirstHeader(s, header)).status == 401
    requires var reply := server(RefreshHeader(s)); !(Ok(reply) && reply.success && Truthy(reply.token))
    ensures var o := SendLive(s, header, respond, server);
      && o.fate == Rejected(respond(o.sent[0])) && |o.sent| == 1
      && o.toasts == Toasts(server(RefreshHeader(s))) + [SessionExpired]
      && o.session.token.None? && TokenKey !in o.session.storage && o.session.defaultAuth.None?
    ensures server(RefreshHeader(s)).status != 401 ==> Send(s, header, respond, server) == SendLive(s, header, respond, server)
  {
  }

  /**
   * As written, a request refused with 401 whose refresh is refused with 401
   * too never settles: no toast, the session is never cleared, and every
   * further nested refresh call meets the same refusal. The corrected version
   * rejects it with the server's error and the expiry toast, and clears the
   * session.
   */
  lemma SendRefusedRefresh(s: State, header: Option<string>,
                           respond: Option<string> -> Response, server: Option<string> -> Response, calls: nat)
    requires respond(FirstHeader(s, header)).status == 401 && server(RefreshHeader(s)).status == 401
    ensures var o := Send(s, header, respond, server);
      o.fate == Pending && o.toasts == [] && o.session == s
    ensures RefreshAsWritten(s, server, calls) == Waiting
    ensures var o := SendLive(s, header, respond, server);
      && o.fate == Rejected(respond(o.sent[0]))
      && o.toasts == [ErrorToast(server(RefreshHeader(s))).value, SessionExpired]
      && o.session.token.None? && TokenKey !in o.session.storage
  {
    RefreshRefusedLoops(s, server, calls);
  }

  /** Every outcome of a request leaves the three copies of the token in step. */
  lemma SendKeepsInStep(s: State, header: Option<string>,
                        respond: Option<string> -> Response, server: Option<string> -> Response)
    requires InStep(s)
    ensures InStep(Send(s, header, respond, server).session)
    ensures InStep(SendLive(s, header, respond, server).session)
  {
  }

  /** In the corrected version a retry carries exactly the token the refresh returned. */
  lemma SendLiveRetryCarriesNewToken(s: State, header: Option<string>,
                                     respond: Option<string> -> Response, server: Option<string> -> Response)
    ensures var o := SendLive(s, header, respond, server);
      |o.sent| == 2 ==> o.sent[1] == RefreshLive(s, server).result.newToken && o.sent[1] == o.session.token
  {
  }

  /**
   * Both versions agree on a request that is sent once, unless it waits as
   * written on a refused refresh.
   */
  lemma SendAgreesWithoutRetry(s: State, header: Option<string>,
                               respond: Option<string> -> Response, server: Option<string> -> Response)
    requires |Send(s, header, respond, server).sent| == 1
    ensures !Send(s, header, respond, server).fate.Pending? <==> Send(s, header, respond, server) == SendLive(s, header, respond, server)
  {
  }

  /**
   * As written, a session holding token `old` whose request is refused with
   * 401 obtains `fresh` from the refresh endpoint and retries with `old`
   * again: a server that accepts `fresh` but not `old` makes the request
   * fail, where the corrected version succeeds.
   */
  lemma StaleRetryWitness()
    ensures var s := State(Some("old"), map[TokenKey := "old"], Some("old"), "light");
      var ok := Response(200, None, false, None);
      var respond := (h: Option<string>) => if h == Some("fresh") then ok else Response(401, None, false, None);
      var server := (h: Option<string>) => Response(200, None, true, Some("fresh"));
      && Send(s, None, respond, server).sent == [Some("old"), Some("old")]
      && Send(s, None, respond, server).fate.Rejected?
      && Send(s, None, respond, server).session.token == Some("fresh")
      && SendLive(s, None, respond, server).sent == [Some("old"), Some("fresh")]
      && SendLive(s, None, respond, server).fate == Resolved(ok)
  {
  }

  // ----------------------------------------------------------------------
  // Initial load and theme
  // ----------------------------------------------------------------------

  /** Drop a leading run of `"` characters (`/^"+/`). */
  function DropLeadingQuotes(s: string): (r: string)
    ensures |r| <= |s| && r == s[|s| - |r|..]
    ensures forall k :: 0 <= k < |s| - |r| ==> s[k] == '"'
    ensures r == [] || r[0] != '"'
  {
    if s != [] && s[0] == '"' then DropLeadingQuotes(s[1..]) else s
  }

  /** Drop a trailing run of `"` characters (`/"+$/`). */
  function DropTrailingQuotes(s: string): (r: string)
    ensures |r| <= |s| && r == s[..|r|]
    ensures forall k :: |r| <= k < |s| ==> s[k] == '"'
    ensures r == [] || r[|r| - 1] != '"'
  {
    if s != [] && s[|s| - 1] == '"' then DropTrailingQuotes(s[..|s| - 1]) else s
  }

  /**
   * `storedToken.replace(/^"+|"+$/g, "")`: the leading run of quotes is
   * matched first, then the trailing run of what remains.
   */
  function StripQuotes(s: string): (r: string)
    ensures r == [] || (r[0] != '"' && r[|r| - 1] != '"')
    ensures exists i, j :: 0 <= i <= j <= |s| && r == s[i..j] && StripBounds(s, i, j)
  {
    var a := DropLeadingQuotes(s);
    var r := DropTrailingQuotes(a);
    var i := |s| - |a|;
    assert r == s[i..i + |r|] && StripBounds(s, i, i + |r|);
    r
  }

  /** Everything outside `s[i..j]` is a quote character. */
  predicate StripBounds(s: string, i: nat, j: nat)
    requires i <= j <= |s|
  {
    (forall k :: 0 <= k < i ==> s[k] == '"') && (forall k :: j <= k < |s| ==> s[k] == '"')
  }

  /** A token without surrounding quotes is kept as it is, and stripping twice is stripping once. */
  lemma {:induction false} StripQuotesKeeps(s: string)
    ensures (s == [] || (s[0] != '"' && s[|s| - 1] != '"')) ==> StripQuotes(s) == s
    ensures StripQuotes(StripQuotes(s)) == StripQuotes(s)
  {
    var r := StripQuotes(s);
    assert r == [] || r[0] != '"';
    assert DropLeadingQuotes(r) == r;
    assert r == [] || r[|r| - 1] != '"';
    assert DropTrailingQuotes(r) == r;
  }

  /** A session before anything is loaded. */
  function Blank(storage: map<string, string>): State {
    State(None, storage, None, "light")
  }

  /**
   * The mount effect: a stored token that is present, non-empty and not the
   * literal `"undefined"` is unquoted and installed; the theme is the stored
   * one, or `"light"` when none (or an empty one) is stored.
   */
  function InitialLoad(storage: map<string, string>): (s: State)
    ensures var stored := if TokenKey in storage then storage[TokenKey] else "";
      && (stored == "" || stored == "undefined" ==> s.token.None? && s.storage == storage)
      && (stored != "" && stored != "undefined" ==> s.token == Some(StripQuotes(stored)) && InStep(s))
    ensures s.theme == (if ThemeKey in storage && storage[ThemeKey] != "" then storage[ThemeKey] else "light")
  {
    var stored := if TokenKey in storage then storage[TokenKey] else "";
    var s0 := Blank(storage);
    var s1 := if stored != "" && stored != "undefined" then SetAuthToken(s0, Some(StripQuotes(stored))) else s0;
    s1.(theme := if ThemeKey in storage && storage[ThemeKey] != "" then storage[ThemeKey] else "light")
  }

  /** Reloading right after a token was set installs the same token again. */
  lemma ReloadKeepsToken(s: State, t: string)
    requires t != "" && t != "undefined" && (t[0] != '"' && t[|t| - 1] != '"')
    ensures InitialLoad(SetAuthToken(s, Some(t)).storage).token == Some(t)
  {
    StripQuotesKeeps(t);
  }

  /** `toggleTheme`: `"light"` becomes `"dark"`, anything else `"light"`, and the result is persisted. */
  function ToggleTheme(s: State): (r: State)
    ensures r.theme in {"light", "dark"} && r.theme != s.theme
    ensures r.storage == s.storage[ThemeKey := r.theme]
    ensures r.token == s.token && r.defaultAuth == s.defaultAuth
  {
    var next := if s.theme == "light" then "dark" else "light";
    s.(theme := next, storage := s.storage[ThemeKey := next])
  }

  /** From either valid theme, toggling twice restores the theme. */
  lemma ToggleTwice(s: State)
    requires s.theme in {"light", "dark"}
    ensures ToggleTheme(ToggleTheme(s)).theme == s.theme
    ensures ToggleTheme(ToggleTheme(s)).storage == s.storage[ThemeKey := s.theme]
  {
  }
}

=== FILE: signup.dfy ===
/**
 * The password rules and the pre-request checks of the signup form,
 * `client/src/components/auth/SignupModal.jsx`.
 */
module SignupForm {
  import opened Wrappers
  import opened Text
  import AuthModal

  /** The password rules, in the order `validatePassword` tests them. */
  datatype Rule = Length | Uppercase | Lowercase | Number | Special

  function Rank(r: Rule): nat {
    match r
    case Length => 0
    case Uppercase => 1
    case Lowercase => 2
    case Number => 3
    case Special => 4
  }

  function Message(r: Rule): string {
    match r
    case Length => "Password must be at least 8 characters"
    case Uppercase => "Password must contain one uppercase letter"
    case Lowercase => "Password must contain one lowercase letter"
    case Number => "Password must contain a number"
    case Special => "Password must contain a special character"
  }

  predicate IsAsciiAlnum(c: char) { IsUpper(c) || IsLower(c) || IsDigit(c) }

  /** Eight characters from `i` on, none a line terminator. */
  predicate RunAt(p: string, i: int) {
    0 <= i && i + 8 <= |p| && forall k :: i <= k < i + 8 ==> !IsLineTerminator(p[k])
  }

  /** `/.{8,}/.test(p)`: somewhere there are eight consecutive characters other than line terminators. */
  predicate HasRun8(p: string) {
    exists i :: 0 <= i <= |p| - 8 && RunAt(p, i)
  }

  /** The regular expression each rule of `validatePassword` tests. */
  predicate Holds(r: Rule, p: string) {
    match r
    case Length => HasRun8(p)
    case Uppercase => HasChar(p, IsUpper)
    case Lowercase => HasChar(p, IsLower)
    case Number => HasChar(p, IsDigit)
    case Special => HasChar(p, c => !IsAsciiAlnum(c))
  }

  /** `validatePassword`: the first rule the password fails, or `null`. */
  function ValidatePassword(p: string): (r: Option<Rule>)
    ensures r.None? <==> forall rule: Rule :: Holds(rule, p)
    ensures r.Some? ==> !Holds(r.value, p)
    ensures r.Some? ==> forall rule: Rule :: Rank(rule) < Rank(r.value) ==> Holds(rule, p)
  {
    if !Holds(Length, p) then Some(Length)
    else if !Holds(Uppercase, p) then Some(Uppercase)
    else if !Holds(Lowercase, p) then Some(Lowercase)
    else if !Holds(Number, p) then Some(Number)
    else if !Holds(Special, p) then Some(Special)
    else None
  }

  predicate NoLineTerminator(p: string) {
    forall k :: 0 <= k < |p| ==> !IsLineTerminator(p[k])
  }

  /** The live checklist shown while typing (`validations`, without `match`). */
  predicate LiveChecks(p: string) {
    && |p| >= 8 && HasChar(p, IsUpper) && HasChar(p, IsLower) && HasChar(p, IsDigit)
    && HasChar(p, c => !IsAsciiAlnum(c))
  }

  /** On a password without line breaks the length rule is exactly "at least 8 characters". */
  lemma {:induction false} Run8IsLength(p: string)
    requires NoLineTerminator(p)
    ensures HasRun8(p) <==> |p| >= 8
  {
    if |p| >= 8 {
      assert RunAt(p, 0);
    }
  }

  /**
   * A password the validator accepts satisfies every live check, and on
   * passwords without line breaks the two agree exactly.
   */
  lemma {:induction false} ValidateAgreesWithLiveChecks(p: string)
    ensures ValidatePassword(p).None? ==> LiveChecks(p)
    ensures NoLineTerminator(p) ==> (ValidatePassword(p).None? <==> LiveChecks(p))
  {
    if ValidatePassword(p).None? {
      assert Holds(Length, p);
      var i :| 0 <= i <= |p| - 8 && RunAt(p, i);
    }
    if NoLineTerminator(p) {
      Run8IsLength(p);
    }
  }

  /** Ten characters with a line break in the middle: the live length check passes, validation does not. */
  lemma LineBreakDefeatsLength()
    ensures LiveChecks("Abcd1!\nXyz") && ValidatePassword("Abcd1!\nXyz") == Some(Length)
  {
    var p := "Abcd1!\nXyz";
    assert IsUpper(p[0]) && IsLower(p[1]) && IsDigit(p[4]) && !IsAsciiAlnum(p[5]);
    assert !HasRun8(p) by {
      forall i | 0 <= i <= |p| - 8 ensures !RunAt(p, i) {
        assert IsLineTerminator(p[6]);
      }
    }
  }

  /** `validations.match`. */
  predicate Match(password: string, confirm: string) {
    confirm != "" && password == confirm
  }

  datatype Form = Form(name: string, lastname: string, email: string, password: string, confirm: string)

  /** The body posted to `/auth/register`. */
  datatype RegisterRequest = RegisterRequest(name: string, lastname: string, email: string, password: string)

  /** How the registration request settled. */
  datatype RegisterReply =
    | Threw(message: Option<string>)
    | Answered(success: bool, message: Option<string>, userId: Option<string>)

  /**
   * `sent` is the request made, if any; `toast` the error toast shown
   * (`None` on success, where "OTP sent!" is shown instead).
   */
  datatype SubmitOutcome = SubmitOutcome(sent: Option<RegisterRequest>, toast: Option<string>, modal: AuthModal.ModalState)

  function OrElse(m: Option<string>, fallback: string): string {
    if m.Some? && m.value != "" then m.value else fallback
  }

  /**
   * `submit`: the first failing password rule, then a confirm mismatch,
   * stop before any request; otherwise the form is posted and a success
   * reply opens the OTP modal for the returned user id.
   */
  function Submit(form: Form, reply: RegisterReply, modal: AuthModal.ModalState): (o: SubmitOutcome)
    ensures o.sent.Some? <==> ValidatePassword(form.password).None? && form.password == form.confirm
    ensures ValidatePassword(form.password).Some? ==>
              o.toast == Some(Message(ValidatePassword(form.password).value)) && o.modal == modal
    ensures ValidatePassword(form.password).None? && form.password != form.confirm ==>
              o.toast == Some("Passwords do not match") && o.modal == modal
    ensures o.sent.Some? ==> o.sent.value.password == form.password && o.sent.value.email == form.email
    ensures o.sent.Some? && reply.Answered? && reply.success ==>
              o.toast.None? && o.modal == AuthModal.OpenOtp(modal, reply.userId)
    ensures o.modal != modal ==> o.sent.Some? && o.modal.modal == Some(AuthModal.Otp)
  {
    var error := ValidatePassword(form.password);
    if error.Some? then SubmitOutcome(None, Some(Message(error.value)), modal)
    else if form.password != form.confirm then SubmitOutcome(None, Some("Passwords do not match"), modal)
    else
      var req := RegisterRequest(form.name, form.lastname, form.email, form.password);
      match reply
      case Threw(m) => SubmitOutcome(Some(req), Some(OrElse(m, "Registration failed")), modal)
      case Answered(ok, m, id) =>
        if !ok then SubmitOutcome(Some(req), Some(OrElse(m, "Registration failed")), modal)
        else SubmitOutcome(Some(req), None, AuthModal.OpenOtp(modal, id))
  }

  /** A form that reaches the server has a confirmed password that satisfies every live check. */
  lemma SubmittedFormIsLiveValid(form: Form, reply: RegisterReply, modal: AuthModal.ModalState)
    requires Submit(form, reply, modal).sent.Some?
    ensures Match(form.password, form.confirm) && LiveChecks(form.password)
  {
    ValidateAgreesWithLiveChecks(form.password);
  }
}

=== FILE: subscribers.dfy ===
/**
 * The newsletter logic of `server/controllers/subscriberController.js`:
 * subscribing, notifying active subscribers of a new blog once each, the
 * cascading unsubscribe, and the bounded retry loop around the mailer.
 *
 * The two collections are sequences in natural order; `findOne` is the
 * first match. Mail transport is an outcome supplied by the caller.
 */
module Subscribers {
  import opened Wrappers
  import opened Text

  type Id = nat

  datatype Subscriber = Subscriber(id: Id, email: string, isActive: bool)

  /** A record that blog `blogId` was mailed to subscriber `subscriberId`. */
  datatype Delivery = Delivery(blogId: Id, subscriberId: Id, email: string)

  datatype Db = Db(subscribers: seq<Subscriber>, deliveries: seq<Delivery>)

  /** Subscriber ids and emails are unique. */
  predicate Valid(db: Db) {
    forall i, j :: 0 <= i < j < |db.subscribers| ==>
      db.subscribers[i].id != db.subscribers[j].id && db.subscribers[i].email != db.subscribers[j].email
  }

  predicate FreshId(db: Db, id: Id) {
    forall k :: 0 <= k < |db.subscribers| ==> db.subscribers[k].id != id
  }

  // ----------------------------------------------------------------------
  // Email syntax
  // ----------------------------------------------------------------------

  /** A character of the class `[^@\s]`. */
  predicate Plain(c: char) { c != '@' && !IsSpace(c) }

  predicate AllPlain(s: string) {
    forall k :: 0 <= k < |s| ==> Plain(s[k])
  }

  /** A dot with at least one character on either side. */
  predicate DotInside(d: string) {
    exists j :: 0 < j < |d| - 1 && d[j] == '.'
  }

  /**
   * The email check of `subscribe`: one `@` with a non-empty local part,
   * and a domain with an inner dot; no other `@` and no whitespace anywhere.
   */
  predicate ValidEmail(s: string) {
    '@' in s &&
    var i := IndexOf(s, '@');
    0 < i && AllPlain(s[..i]) && AllPlain(s[i + 1..]) && DotInside(s[i + 1..])
  }

  /** What `/^[^@\s]+@[^@\s]+\.[^@\s]+$/` accepts, split at the `@` (`i`) and the chosen dot (`j`). */
  ghost predicate RegexMatch(s: string, i: int, j: int) {
    && 0 < i && i + 1 < j && j + 1 < |s| && s[i] == '@' && s[j] == '.'
    && AllPlain(s[..i]) && AllPlain(s[i + 1..j]) && AllPlain(s[j + 1..])
  }

  /** `ValidEmail` accepts exactly the strings the regular expression matches. */
  lemma {:induction false} ValidEmailIsRegex(s: string)
    ensures ValidEmail(s) <==> exists i, j :: RegexMatch(s, i, j)
  {
    if ValidEmail(s) {
      var i := IndexOf(s, '@');
      var d := s[i + 1..];
      var j :| 0 < j < |d| - 1 && d[j] == '.';
      assert s[i + 1..i + 1 + j] == d[..j] && s[i + 2 + j..] == d[j + 1..];
      assert RegexMatch(s, i, i + 1 + j);
    }
    if exists i, j :: RegexMatch(s, i, j) {
      var i, j :| RegexMatch(s, i, j);
      assert forall k :: 0 <= k < i ==> s[k] != '@' by {
        forall k | 0 <= k < i ensures s[k] != '@' { assert s[k] == s[..i][k]; }
      }
      assert IndexOf(s, '@') == i;
      var d := s[i + 1..];
      assert d[j - i - 1] == '.';
      assert AllPlain(d) by {
        forall k | 0 <= k < |d| ensures Plain(d[k]) {
          if k < j - i - 1 { assert d[k] == s[i + 1..j][k]; }
          else if k > j - i - 1 { assert d[k] == s[j + 1..][k - (j - i)]; }
        }
      }
    }
  }

  // ----------------------------------------------------------------------
  // subscribe
  // ----------------------------------------------------------------------

  datatype Reply = Reply(status: nat, message: string)

  /** `Subscriber.findOne({ email })`: the first record with that email. */
  function FindEmail(subs: seq<Subscriber>, email: string): (r: Option<nat>)
    ensures r.Some? ==> r.value < |subs| && subs[r.value].email == email
    ensures r.Some? ==> forall k :: 0 <= k < r.value ==> subs[k].email != email
    ensures r.None? ==> forall k :: 0 <= k < |subs| ==> subs[k].email != email
  {
    FindFirst(subs, (s: Subscriber) => s.email == email)
  }

  /** `welcome` is the address the confirmation mail is sent to, when one is sent. */
  datatype SubscribeOutcome = SubscribeOutcome(reply: Reply, db: Db, welcome: Option<string>)

  const InvalidEmail: string := "Invalid email"
  const AlreadySubscribed: string := "Already subscribed"
  const Subscribed: string := "Subscription successful! Check your email for confirmation."

  /**
   * `subscribe`: reject a missing or malformed email; reactivate an existing
   * subscriber; otherwise create one with id `newId` and send a welcome mail,
   * whose outcome does not affect the reply.
   */
  function Subscribe(db: Db, email: Option<string>, newId: Id): (o: SubscribeOutcome)
    ensures email.None? || email.value == "" || !ValidEmail(email.value) ==>
              o == SubscribeOutcome(Reply(400, InvalidEmail), db, None)
    ensures o.db.deliveries == db.deliveries
    ensures o.reply.status == 200 ==> var e := email.value;
      FindEmail(o.db.subscribers, e).Some? && o.db.subscribers[FindEmail(o.db.subscribers, e).value].isActive
    ensures o.welcome.Some? <==> o.reply.message == Subscribed
    ensures o.welcome.Some? ==> o.db.subscribers == db.subscribers + [Subscriber(newId, email.value, true)]
    ensures email.Some? && email.value != "" && ValidEmail(email.value) ==>
      var e := email.value;
      && (FindEmail(db.subscribers, e).None? ==>
            o == SubscribeOutcome(Reply(200, Subscribed), db.(subscribers := db.subscribers + [Subscriber(newId, e, true)]), Some(e)))
      && (FindEmail(db.subscribers, e).Some? ==> o.reply == Reply(200, AlreadySubscribed) && o.welcome.None?)
  {
    if email.None? || email.value == "" || !ValidEmail(email.value) then
      SubscribeOutcome(Reply(400, InvalidEmail), db, None)
    else
      var e := email.value;
      match FindEmail(db.subscribers, e)
      case Some(k) =>
        var subs := db.subscribers[k := db.subscribers[k].(isActive := true)];
        assert FindEmail(subs, e) == Some(k) by { FindEmailAt(subs, e, k); }
        SubscribeOutcome(Reply(200, AlreadySubscribed), db.(subscribers := subs), None)
      case None =>
        var subs := db.subscribers + [Subscriber(newId, e, true)];
        assert FindEmail(subs, e) == Some(|db.subscribers|) by { FindEmailAt(subs, e, |db.subscribers|); }
        SubscribeOutcome(Reply(200, Subscribed), db.(subscribers := subs), Some(e))
  }

  /** A record with that email at `k` and none before it is what `FindEmail` finds. */
  lemma FindEmailAt(subs: seq<Subscriber>, email: string, k: nat)
    requires k < |subs| && subs[k].email == email
    requires forall m :: 0 <= m < k ==> subs[m].email != email
    ensures FindEmail(subs, email) == Some(k)
  {
    FindFirstAt(subs, (s: Subscriber) => s.email == email, k);
  }

  /** An existing email creates nothing: the only change is that the record is active. */
  lemma SubscribeExistingChangesOnlyActive(db: Db, e: string, newId: Id)
    requires ValidEmail(e) && FindEmail(db.subscribers, e).Some?
    ensures var o := Subscribe(db, Some(e), newId); var k := FindEmail(db.subscribers, e).value;
      && o.reply == Reply(200, AlreadySubscribed) && o.welcome.None?
      && o.db.subscribers == db.subscribers[k := db.subscribers[k].(isActive := true)]
  {
  }

  /** Subscribing twice with the same email has the effect of subscribing once. */
  lemma {:induction false} SubscribeIdempotent(db: Db, e: string, id1: Id, id2: Id)
    ensures var o1 := Subscribe(db, Some(e), id1);
      Subscribe(o1.db, Some(e), id2).db == o1.db
  {
    var o1 := Subscribe(db, Some(e), id1);
    if e != "" && ValidEmail(e) {
      var k := FindEmail(o1.db.subscribers, e).value;
      assert o1.db.subscribers[k].isActive;
      assert o1.db.subscribers[k := o1.db.subscribers[k].(isActive := true)] == o1.db.subscribers;
    }
  }

  /** Subscribing keeps ids and emails unique when the new id is fresh. */
  lemma SubscribePreservesValid(db: Db, email: Option<string>, newId: Id)
    requires Valid(db) && FreshId(db, newId)
    ensures Valid(Subscribe(db, email, newId).db)
  {
  }

  // ----------------------------------------------------------------------
  // sendEmailWithRetry
  // ----------------------------------------------------------------------

  const DefaultRetries: nat := 2

  /**
   * `sendEmailWithRetry`: attempt `i` (from 0) fails with `attempt(i) ==
   * Some(error)` or succeeds with `None`. Up to `retries + 1` attempts are
   * made, stopping at the first success; failed attempt `i` is followed by a
   * pause of `1000 * (i + 1)` ms unless it was the last; when every attempt
   * fails, the last error is thrown.
   */
  method SendEmailWithRetry(attempt: nat -> Option<string>, retries: nat)
    returns (sent: bool, tries: nat, pauses: seq<nat>, thrown: Option<string>)
    ensures 1 <= tries <= retries + 1
    ensures forall i :: 0 <= i < tries - 1 ==> attempt(i).Some?
    ensures sent <==> attempt(tries - 1).None?
    ensures !sent ==> tries == retries + 1 && thrown == attempt(retries)
    ensures sent ==> thrown.None?
    ensures |pauses| == tries - 1 && forall i :: 0 <= i < |pauses| ==> pauses[i] == 1000 * (i + 1)
  {
    var lastError: Option<string> := None;
    pauses := [];
    var i := 0;
    while i <= retries
      invariant 0 <= i <= retries + 1
      invariant forall k :: 0 <= k < i ==> attempt(k).Some?
      invariant i > 0 ==> lastError == attempt(i - 1)
      invariant |pauses| == (if i <= retries then i else retries)
      invariant forall k :: 0 <= k < |pauses| ==> pauses[k] == 1000 * (k + 1)
    {
      var outcome := attempt(i);
      if outcome.None? {
        return true, i + 1, pauses, None;
      }
      lastError := outcome;
      if i < retries {
        pauses := pauses + [1000 * (i + 1)];
      }
      i := i + 1;
    }
    return false, retries + 1, pauses, lastError;
  }

  // ----------------------------------------------------------------------
  // notifySubscribers
  // ----------------------------------------------------------------------

  /** `Subscriber.find({ isActive: true })`. */
  function Active(subs: seq<Subscriber>): (r: seq<Subscriber>)
    ensures forall k :: 0 <= k < |r| ==> r[k].isActive && r[k] in subs
    ensures forall k :: 0 <= k < |subs| && subs[k].isActive ==> subs[k] in r
  {
    if subs == [] then []
    else (if subs[0].isActive then [subs[0]] else []) + Active(subs[1..])
  }

  predicate HasDelivery(ds: seq<Delivery>, blogId: Id, subscriberId: Id) {
    exists k :: 0 <= k < |ds| && ds[k].blogId == blogId && ds[k].subscriberId == subscriberId
  }

  /** `sent` are the subscribers mailed, `recorded` the deliveries created after a successful send. */
  datatype NotifyOutcome = NotifyOutcome(sent: seq<Id>, recorded: seq<Delivery>)

  /**
   * The loop of `notifySubscribers` over `targets`: a target that already
   * has a delivery of this blog in `prior` is skipped; every other one is
   * mailed, and a delivery is recorded only when `delivered` says the mail
   * (with its retries) went out.
   */
  function Notify(prior: seq<Delivery>, targets: seq<Subscriber>, blogId: Id, delivered: Id -> bool): (o: NotifyOutcome)
    ensures forall k :: 0 <= k < |targets| ==>
              (targets[k].id in o.sent <==> !HasDelivery(prior, blogId, targets[k].id))
    ensures forall id :: id in o.sent ==> exists k :: 0 <= k < |targets| && targets[k].id == id
    ensures forall d :: d in o.recorded ==>
              d.blogId == blogId && d.subscriberId in o.sent && delivered(d.subscriberId)
    ensures forall k :: 0 <= k < |targets| && targets[k].id in o.sent && delivered(targets[k].id) ==>
              Delivery(blogId, targets[k].id, targets[k].email) in o.recorded
  {
    if targets == [] then NotifyOutcome([], [])
    else
      var t := targets[0];
      var rest := Notify(prior, targets[1..], blogId, delivered);
      if HasDelivery(prior, blogId, t.id) then rest
      else
        var record := if delivered(t.id) then [Delivery(blogId, t.id, t.email)] else [];
        NotifyOutcome([t.id] + rest.sent, record + rest.recorded)
  }

  /**
   * `notifySubscribers(blog)`: mail every active subscriber who has not yet
   * received this blog and record the successful deliveries. Nothing
   * happens when there is no active subscriber.
   */
  function NotifySubscribers(db: Db, blogId: Id, delivered: Id -> bool): (r: (Db, seq<Id>))
    ensures r.0.subscribers == db.subscribers
    ensures |r.0.deliveries| >= |db.deliveries| && r.0.deliveries[..|db.deliveries|] == db.deliveries
    ensures Active(db.subscribers) == [] ==> r == (db, [])
  {
    var targets := Active(db.subscribers);
    if |targets| == 0 then (db, [])
    else
      var o := Notify(db.deliveries, targets, blogId, delivered);
      (db.(deliveries := db.deliveries + o.recorded), o.sent)
  }

  /** Only active subscribers are mailed, and each of them only when this blog has not reached them yet. */
  lemma NotifyTargetsActiveUndelivered(db: Db, blogId: Id, delivered: Id -> bool, id: Id)
    requires Valid(db)
    requires id in NotifySubscribers(db, blogId, delivered).1
    ensures exists k :: 0 <= k < |db.subscribers| && db.subscribers[k].id == id && db.subscribers[k].isActive
    ensures !HasDelivery(db.deliveries, blogId, id)
  {
    var targets := Active(db.subscribers);
    var k :| 0 <= k < |targets| && targets[k].id == id;
    assert targets[k] in db.subscribers;
  }

  /**
   * Running the notification again for the same blog mails no one whose
   * earlier mail was delivered: the recorded delivery makes it skip them.
   */
  lemma {:induction false} NotifyAgainSkipsDelivered(db: Db, blogId: Id, delivered: Id -> bool, again: Id -> bool, id: Id)
    requires id in NotifySubscribers(db, blogId, delivered).1 && delivered(id)
    ensures id !in NotifySubscribers(NotifySubscribers(db, blogId, delivered).0, blogId, again).1
  {
    var targets := Active(db.subscribers);
    var o := Notify(db.deliveries, targets, blogId, delivered);
    var k :| 0 <= k < |targets| && targets[k].id == id;
    var d := Delivery(blogId, id, targets[k].email);
    assert d in o.recorded;
    var ds := db.deliveries + o.recorded;
    var m :| 0 <= m < |o.recorded| && o.recorded[m] == d;
    assert ds[|db.deliveries| + m] == d;
    assert HasDelivery(ds, blogId, id);
  }

  // ----------------------------------------------------------------------
  // unsubscribe
  // ----------------------------------------------------------------------

  /** Deliveries that mention neither the email nor the subscriber id. */
  function Unrelated(ds: seq<Delivery>, email: string, id: Id): (r: seq<Delivery>)
    ensures forall d :: d in r <==> d in ds && d.email != email && d.subscriberId != id
    ensures |r| <= |ds|
  {
    if ds == [] then []
    else (if ds[0].email != email && ds[0].subscriberId != id then [ds[0]] else []) + Unrelated(ds[1..], email, id)
  }

  function RemoveAt<T>(s: seq<T>, k: nat): (r: seq<T>)
    requires k < |s|
    ensures |r| == |s| - 1
  {
    s[..k] + s[k + 1..]
  }

  /**
   * The cascade once a subscriber was found: delete the deliveries by email,
   * then those by subscriber id, then the subscriber itself.
   */
  function Cascade(db: Db, e: string): (o: (Reply, Db)) {
    match FindEmail(db.subscribers, e)
    case None => (Reply(404, "Not Subscribed"), db)
    case Some(k) =>
      var ds := Unrelated(db.deliveries, e, db.subscribers[k].id);
      (Reply(200, "Unsubscribed"), Db(RemoveAt(db.subscribers, k), ds))
  }

  /**
   * `unsubscribe` as written: a missing email reaches `res.status(400).html`,
   * which is not a function of an Express response; the resulting TypeError
   * is answered by the catch block with status 500 and nothing is changed.
   */
  function UnsubscribeAsWritten(db: Db, email: Option<string>): (o: (Reply, Db))
    ensures email.None? || email.value == "" ==> o == (Reply(500, "Something went wrong while unsubscribing"), db)
  {
    if email.None? || email.value == "" then (Reply(500, "Something went wrong while unsubscribing"), db)
    else Cascade(db, email.value)
  }

  /** `unsubscribe` as intended: a missing email is a client error (400). */
  function Unsubscribe(db: Db, email: Option<string>): (o: (Reply, Db))
    ensures email.None? || email.value == "" ==> o == (Reply(400, "Email address is required"), db)
    ensures email.Some? && email.value != "" && FindEmail(db.subscribers, email.value).None? ==>
              o == (Reply(404, "Not Subscribed"), db)
    ensures o.0.status == 200 ==> FindEmail(db.subscribers, email.value).Some?
    ensures o.0.status == 200 ==>
              |o.1.subscribers| == |db.subscribers| - 1
              && forall d :: d in o.1.deliveries ==> d in db.deliveries && d.email != email.value
  {
    if email.None? || email.value == "" then (Reply(400, "Email address is required"), db)
    else Cascade(db, email.value)
  }

  /** The two versions differ only in the status answered for a missing email. */
  lemma UnsubscribeMissingEmailStatus(db: Db)
    ensures UnsubscribeAsWritten(db, None).0.status == 500 && Unsubscribe(db, None).0.status == 400
    ensures UnsubscribeAsWritten(db, None).1 == Unsubscribe(db, None).1 == db
  {
  }

  /** In a valid store, unsubscribing removes the one record with that email and keeps the rest. */
  lemma UnsubscribeRemovesSubscriber(db: Db, e: string)
    requires Valid(db) && e != "" && FindEmail(db.subscribers, e).Some?
    ensures var o := Unsubscribe(db, Some(e));
      && o.0.status == 200 && FindEmail(o.1.subscribers, e).None?
      && forall s :: s in db.subscribers && s.email != e ==> s in o.1.subscribers
  {
    var k := FindEmail(db.subscribers, e).value;
    var r := RemoveAt(db.subscribers, k);
    forall m | 0 <= m < |r| ensures r[m].email != e {
      if m < k { assert r[m] == db.subscribers[m]; }
      else { assert r[m] == db.subscribers[m + 1]; }
    }
    forall s | s in db.subscribers && s.email != e ensures s in r {
      var m :| 0 <= m < |db.subscribers| && db.subscribers[m] == s;
      if m < k { assert r[m] == s; }
      else { assert m != k && r[m - 1] == s; }
    }
  }

  /**
   * Subscribing a new email and unsubscribing it restores the database,
   * provided no delivery mentions that email or the new id.
   */
  lemma {:induction false} SubscribeThenUnsubscribe(db: Db, e: string, newId: Id)
    requires ValidEmail(e) && FindEmail(db.subscribers, e).None?
    requires forall d :: d in db.deliveries ==> d.email != e && d.subscriberId != newId
    ensures Unsubscribe(Subscribe(db, Some(e), newId).db, Some(e)).1 == db
  {
    var db1 := db.(subscribers := db.subscribers + [Subscriber(newId, e, true)]);
    assert Subscribe(db, Some(e), newId).db == db1;
    FindEmailAt(db1.subscribers, e, |db.subscribers|);
    assert db1.subscribers[|db.subscribers|].id == newId;
    assert RemoveAt(db1.subscribers, |db.subscribers|) == db.subscribers;
    UnrelatedKeepsAll(db.deliveries, e, newId);
    assert Cascade(db1, e).1 == Db(db.subscribers, db.deliveries);
  }

  lemma {:induction false} UnrelatedKeepsAll(ds: seq<Delivery>, email: string, id: Id)
    requires forall d :: d in ds ==> d.email != email && d.subscriberId != id
    ensures Unrelated(ds, email, id) == ds
  {
    if ds != [] {
      UnrelatedKeepsAll(ds[1..], email, id);
      assert ds == [ds[0]] + ds[1..];
    }
  }
}

=== FILE: text.dfy ===
/**
 * String helpers shared by the server controllers and the client pages: the
 * JavaScript built-ins and regular expressions they use, restated as explicit
 * functions on `seq<char>`.
 */
module Text {
  import opened Wrappers

  /** JavaScript's `\s`: the characters `String.prototype.trim` removes and `/\s+/` matches. */
  predicate IsSpace(c: char) {
    || c == ' ' || c == '\t' || c == '\n' || c == '\r' || c == '\U{000B}' || c == '\U{000C}'
    || c == '\U{00A0}' || c == '\U{1680}' || ('\U{2000}' <= c <= '\U{200A}')
    || c == '\U{2028}' || c == '\U{2029}' || c == '\U{202F}' || c == '\U{205F}'
    || c == '\U{3000}' || c == '\U{FEFF}'
  }

  /** The characters the regular-expression `.` does not match. */
  predicate IsLineTerminator(c: char) {
    c == '\n' || c == '\r' || c == '\U{2028}' || c == '\U{2029}'
  }

  predicate IsDigit(c: char) { '0' <= c <= '9' }
  predicate IsUpper(c: char) { 'A' <= c <= 'Z' }
  predicate IsLower(c: char) { 'a' <= c <= 'z' }

  predicate HasChar(s: string, p: char -> bool) {
    exists i :: 0 <= i < |s| && p(s[i])
  }

  predicate StartsWith(s: string, prefix: string) {
    |prefix| <= |s| && s[..|prefix|] == prefix
  }

  predicate OccursAt(s: string, sub: string, i: int) {
    0 <= i && i + |sub| <= |s| && s[i..i + |sub|] == sub
  }

  /** `s.includes(sub)` */
  predicate Contains(s: string, sub: string) {
    exists i :: 0 <= i <= |s| - |sub| && OccursAt(s, sub, i)
  }

  /** `s.slice(0, n)` / `s.substring(0, n)`: the first `n` characters, or all of `s`. */
  function Prefix<T>(s: seq<T>, n: nat): seq<T> {
    if n <= |s| then s[..n] else s
  }

  function Min(a: int, b: int): int { if a <= b then a else b }
  function Max(a: int, b: int): int { if a <= b then b else a }

  /** `Math.ceil(a / b)` for positive `b`. */
  function CeilDiv(a: nat, b: nat): (q: nat)
    requires b > 0
    ensures q * b >= a && (q == 0 || (q - 1) * b < a)
  {
    (a + b - 1) / b
  }

  // ---------------------------------------------------------------------------
  // Trimming and case
  // ---------------------------------------------------------------------------

  predicate IsTrimmed(s: string) {
    s == [] || (!IsSpace(s[0]) && !IsSpace(s[|s| - 1]))
  }

  /** The number of whitespace characters at the start of `s`. */
  function LeadingSpaces(s: string): (n: nat)
    ensures n <= |s|
    ensures forall i :: 0 <= i < n ==> IsSpace(s[i])
    ensures n == |s| || !IsSpace(s[n])
  {
    if |s| > 0 && IsSpace(s[0]) then 1 + LeadingSpaces(s[1..]) else 0
  }

  /** The number of whitespace characters at the end of `s`. */
  function TrailingSpaces(s: string): (n: nat)
    ensures n <= |s|
    ensures forall i :: |s| - n <= i < |s| ==> IsSpace(s[i])
    ensures n == |s| || !IsSpace(s[|s| - 1 - n])
  {
    if |s| > 0 && IsSpace(s[|s| - 1]) then 1 + TrailingSpaces(s[..|s| - 1]) else 0
  }

  /** `s.trimStart()` */
  function TrimStart(s: string): string {
    s[LeadingSpaces(s)..]
  }

  /** `s.trimEnd()` */
  function TrimEnd(s: string): string {
    s[..|s| - TrailingSpaces(s)]
  }

  /** `s.trim()` */
  function Trim(s: string): (r: string)
    ensures IsTrimmed(r)
    ensures |r| <= |s|
  {
    var t := TrimStart(s);
    var r := TrimEnd(t);
    assert r != [] ==> r[0] == t[0] == s[LeadingSpaces(s)];
    r
  }

  /** Trimming removes nothing from a string that has no surrounding whitespace. */
  lemma TrimOfTrimmed(s: string)
    requires IsTrimmed(s)
    ensures Trim(s) == s
  {
  }

  /** `s.trim()` is empty exactly when `s` is all whitespace. */
  lemma TrimEmpty(s: string)
    ensures Trim(s) == [] <==> forall i :: 0 <= i < |s| ==> IsSpace(s[i])
  {
    var t := TrimStart(s);
    if t != [] {
      assert t[0] == s[|s| - |t|];
    }
  }

  /** Trimming a string free of the characters `D` leaves it free of them. */
  lemma NoneInTrim(s: string, D: set<char>)
    requires NoneIn(s, D)
    ensures NoneIn(Trim(s), D)
  {
    var t := TrimStart(s);
    var r := TrimEnd(t);
    forall k | 0 <= k < |r| ensures r[k] !in D {
      assert r[k] == t[k] == s[|s| - |t| + k];
    }
  }

  /** Whitespace in front of a trimmed, non-empty string is exactly what trimming removes. */
  lemma TrimAfterSpace(p: string)
    requires p != [] && IsTrimmed(p)
    ensures Trim(" " + p) == p
  {
    assert (" " + p)[1..] == p;
    assert TrimStart(" " + p) == TrimStart(p) == p;
  }

  function LowerChar(c: char): char {
    if IsUpper(c) then (c as int + 32) as char else c
  }

  /** `s.toLowerCase()` on ASCII letters. */
  function ToLower(s: string): (r: string)
    ensures |r| == |s|
  {
    seq(|s|, i requires 0 <= i < |s| => LowerChar(s[i]))
  }

  // ---------------------------------------------------------------------------
  // Splitting and joining
  // ---------------------------------------------------------------------------

  /** `parts.join(sep)` */
  function Join(parts: seq<string>, sep: string): string {
    if |parts| == 0 then ""
    else if |parts| == 1 then parts[0]
    else parts[0] + sep + Join(parts[1..], sep)
  }

  function Concat(parts: seq<string>): string {
    if |parts| == 0 then "" else parts[0] + Concat(parts[1..])
  }

  /** `Array.prototype.findIndex` / `findOne`: the first position whose element satisfies `p`. */
  function FindFirst<T>(xs: seq<T>, p: T -> bool): (r: Option<nat>)
    ensures r.Some? ==> r.value < |xs| && p(xs[r.value])
    ensures r.Some? ==> forall k :: 0 <= k < r.value ==> !p(xs[k])
    ensures r.None? ==> forall k :: 0 <= k < |xs| ==> !p(xs[k])
  {
    if |xs| == 0 then None
    else if p(xs[0]) then Some(0)
    else match FindFirst(xs[1..], p)
      case None => None
      case Some(k) => Some(k + 1)
  }

  /** An element satisfying `p` at `i`, with none before it, is what `FindFirst` finds. */
  lemma FindFirstAt<T>(xs: seq<T>, p: T -> bool, i: nat)
    requires i < |xs| && p(xs[i])
    requires forall k :: 0 <= k < i ==> !p(xs[k])
    ensures FindFirst(xs, p) == Some(i)
  {
    var r := FindFirst(xs, p);
    assert r.Some?;
  }

  /** Splitting off the head of the left operand of a concatenation. */
  lemma AppendHead<T>(a: seq<T>, b: seq<T>)
    requires a != []
    ensures a == [a[0]] + a[1..]
    ensures a + b == [a[0]] + (a[1..] + b)
  {
  }

  lemma AppendAssoc<T>(h: seq<T>, x: seq<T>, y: seq<T>)
    ensures h + (x + y) == (h + x) + y
  {
  }

  lemma ConcatAppend(a: seq<string>, b: seq<string>)
    ensures Concat(a + b) == Concat(a) + Concat(b)
  {
    if |a| > 0 {
      assert (a + b)[0] == a[0];
      assert (a + b)[1..] == a[1..] + b;
      ConcatAppend(a[1..], b);
      calc {
        Concat(a + b);
        a[0] + Concat(a[1..] + b);
        a[0] + (Concat(a[1..]) + Concat(b));
        (a[0] + Concat(a[1..])) + Concat(b);
      }
    } else {
      assert a + b == b;
    }
  }

  function IndexOf(s: string, c: char): (i: nat)
    requires c in s
    ensures i < |s| && s[i] == c && c !in s[..i]
    ensures forall j :: 0 <= j < i ==> s[j] != c
  {
    if s[0] == c then 0
    else
      var j := IndexOf(s[1..], c);
      assert s[..j + 1] == [s[0]] + s[1..][..j];
      j + 1
  }

  /** `s.split(sep)` for a one-character separator. */
  function Split(s: string, sep: char): (parts: seq<string>)
    ensures |parts| >= 1
    ensures forall i :: 0 <= i < |parts| ==> sep !in parts[i]
    ensures Join(parts, [sep]) == s
    decreases |s|
  {
    if sep !in s then [s]
    else
      var i := IndexOf(s, sep);
      var rest := Split(s[i + 1..], sep);
      var parts := [s[..i]] + rest;
      assert parts[1..] == rest;
      assert s == s[..i] + [sep] + s[i + 1..];
      parts
  }

  /** Joining the first `m` parts gives a prefix of joining them all. */
  lemma {:induction false} JoinPrefix(parts: seq<string>, sep: string, m: nat)
    requires m <= |parts|
    ensures Join(parts[..m], sep) <= Join(parts, sep)
    decreases m
  {
    if m == 1 {
      assert parts[..1] == [parts[0]];
    } else if m > 1 {
      var head := parts[0] + sep;
      var front := parts[..m];
      assert front[0] == parts[0] && front[1..] == parts[1..][..m - 1];
      assert Join(front, sep) == head + Join(parts[1..][..m - 1], sep);
      assert Join(parts, sep) == head + Join(parts[1..], sep);
      JoinPrefix(parts[1..], sep, m - 1);
      PrefixAfter(head, Join(parts[1..][..m - 1], sep), Join(parts[1..], sep));
    }
  }

  lemma PrefixAfter<T>(h: seq<T>, a: seq<T>, b: seq<T>)
    requires a <= b
    ensures h + a <= h + b
  {
    assert (h + b)[..|h + a|] == h + a;
  }

  /** Splitting a join on a separator the parts do not contain gives the parts back. */
  lemma {:induction false} SplitOfJoin(parts: seq<string>, sep: char)
    requires |parts| >= 1
    requires forall i :: 0 <= i < |parts| ==> sep !in parts[i]
    ensures Split(Join(parts, [sep]), sep) == parts
  {
    if |parts| > 1 {
      var p0 := parts[0];
      var rest := parts[1..];
      var j := Join(rest, [sep]);
      var s := p0 + [sep] + j;
      assert Join(parts, [sep]) == s;
      assert s[|p0|] == sep;
      assert forall k :: 0 <= k < |p0| ==> s[k] != sep by {
        forall k | 0 <= k < |p0| ensures s[k] != sep {
          assert s[k] == p0[k];
        }
      }
      var i := IndexOf(s, sep);
      assert i == |p0|;
      assert s[..i] == p0;
      assert s[i + 1..] == j;
      SplitOfJoin(rest, sep);
      assert Split(s, sep) == [p0] + Split(j, sep);
    }
  }

  predicate NoneIn(s: string, D: set<char>) {
    forall k :: 0 <= k < |s| ==> s[k] !in D
  }

  /** `s` with every character of `D` removed. */
  function Without(s: string, D: set<char>): string {
    if |s| == 0 then "" else (if s[0] in D then "" else [s[0]]) + Without(s[1..], D)
  }

  lemma WithoutAppend(a: string, b: string, D: set<char>)
    ensures Without(a + b, D) == Without(a, D) + Without(b, D)
  {
    if |a| > 0 {
      assert (a + b)[0] == a[0];
      assert (a + b)[1..] == a[1..] + b;
      WithoutAppend(a[1..], b, D);
      var h := if a[0] in D then "" else [a[0]];
      calc {
        Without(a + b, D);
        h + Without(a[1..] + b, D);
        h + (Without(a[1..], D) + Without(b, D));
        (h + Without(a[1..], D)) + Without(b, D);
      }
    } else {
      assert a + b == b;
    }
  }

  lemma WithoutNone(s: string, D: set<char>)
    requires NoneIn(s, D)
    ensures Without(s, D) == s
  {
    if |s| > 0 {
      WithoutNone(s[1..], D);
    }
  }

  lemma WithoutAll(s: string, D: set<char>)
    requires forall k :: 0 <= k < |s| ==> s[k] in D
    ensures Without(s, D) == ""
  {
    if |s| > 0 {
      WithoutAll(s[1..], D);
    }
  }

  function FirstIn(s: string, D: set<char>): (i: nat)
    requires !NoneIn(s, D)
    ensures i < |s| && s[i] in D && NoneIn(s[..i], D)
  {
    if s[0] in D then 0
    else
      var j := FirstIn(s[1..], D);
      assert s[..j + 1] == [s[0]] + s[1..][..j];
      j + 1
  }

  /** The end of the maximal run of characters from `D` that starts at `i`. */
  function RunEnd(s: string, i: nat, D: set<char>): (j: nat)
    requires i <= |s|
    ensures i <= j <= |s|
    ensures forall k :: i <= k < j ==> s[k] in D
    ensures j == |s| || s[j] !in D
    decreases |s| - i
  {
    if i < |s| && s[i] in D then RunEnd(s, i + 1, D) else i
  }

  /**
   * `s.split(/[D]+/)`: the pieces between maximal runs of characters from `D`
   * (a leading or trailing run yields an empty first or last piece, as in JavaScript).
   */
  function SplitRuns(s: string, D: set<char>): (parts: seq<string>)
    ensures |parts| >= 1
    ensures forall k :: 0 <= k < |parts| ==> NoneIn(parts[k], D)
    ensures Concat(parts) == Without(s, D)
    decreases |s|
  {
    if NoneIn(s, D) then
      WithoutNone(s, D);
      [s]
    else
      var i := FirstIn(s, D);
      var j := RunEnd(s, i, D);
      var rest := SplitRuns(s[j..], D);
      WithoutAroundRun(s, i, j, D);
      var parts := [s[..i]] + rest;
      assert parts[1..] == rest;
      parts
  }

  lemma NoneInPrefix(s: string, D: set<char>, n: nat, k: nat)
    requires k < n <= |s| && NoneIn(s[..n], D)
    ensures s[k] !in D
  {
    assert s[..n][k] == s[k];
  }

  /** A string with no character of `D` is one piece; any other string splits in two or more. */
  lemma SplitRunsWhole(s: string, D: set<char>)
    ensures NoneIn(s, D) <==> SplitRuns(s, D) == [s]
  {
    if !NoneIn(s, D) {
      var i := FirstIn(s, D);
      assert SplitRuns(s, D) == [s[..i]] + SplitRuns(s[RunEnd(s, i, D)..], D);
    }
  }

  /**
   * The first piece is the text before the first maximal run `s[i..j]` of
   * `D`, and the rest are the pieces of what follows that run.
   */
  lemma {:induction false} SplitRunsAtRun(s: string, D: set<char>, i: nat, j: nat)
    requires i < j <= |s| && NoneIn(s[..i], D)
    requires forall k :: i <= k < j ==> s[k] in D
    requires j == |s| || s[j] !in D
    ensures SplitRuns(s, D) == [s[..i]] + SplitRuns(s[j..], D)
  {
    assert s[i] in D;
    assert !NoneIn(s, D);
    var i0 := FirstIn(s, D);
    if i0 < i {
      NoneInPrefix(s, D, i, i0);
      assert false;
    }
    if i < i0 {
      NoneInPrefix(s, D, i0, i);
      assert false;
    }
    assert RunEnd(s, i, D) == j;
  }

  /** Removing `D` from a string whose run `s[i..j]` is all `D` and whose prefix has none. */
  lemma WithoutAroundRun(s: string, i: nat, j: nat, D: set<char>)
    requires i <= j <= |s| && NoneIn(s[..i], D)
    requires forall k :: i <= k < j ==> s[k] in D
    ensures Without(s, D) == s[..i] + Without(s[j..], D)
  {
    assert s == s[..i] + s[i..j] + s[j..];
    WithoutAppend(s[..i] + s[i..j], s[j..], D);
    WithoutAppend(s[..i], s[i..j], D);
    WithoutNone(s[..i], D);
    WithoutAll(s[i..j], D);
  }

  // ---------------------------------------------------------------------------
  // The sanitiser shared by the blog page and the summary endpoint:
  // `.replace(/<[^>]+>/g, r).replace(/&nbsp;|&amp;|&quot;|&#39;/g, ' ').replace(/\s+/g, ' ').trim()`
  // ---------------------------------------------------------------------------

  /** The index of the `>` that closes a match of `/<[^>]+>/` starting at `s[0]`, if there is one. */
  function TagEnd(s: string): (k: Option<nat>)
    ensures k.Some? ==> 2 <= k.value < |s| && s[0] == '<' && s[k.value] == '>'
  {
    if |s| >= 2 && s[0] == '<' && s[1] != '>' && '>' in s[1..] then
      Some(1 + IndexOf(s[1..], '>'))
    else None
  }

  /** No match of `/<[^>]+>/` anywhere in `s`. */
  predicate NoTags(s: string) {
    forall i :: 0 <= i < |s| ==> TagEnd(s[i..]).None?
  }

  /** `s.replace(/<[^>]+>/g, rep)` */
  function ReplaceTags(s: string, rep: string): (r: string)
    ensures '>' !in s ==> r == s
    ensures |s| > 0 && s[0] != '<' ==> |r| > 0 && r[0] == s[0]
    decreases |s|
  {
    if |s| == 0 then ""
    else match TagEnd(s)
      case Some(k) => rep + ReplaceTags(s[k + 1..], rep)
      case None => [s[0]] + ReplaceTags(s[1..], rep)
  }

  /** After the global replacement no tag is left, whatever replacement without angle brackets is used. */
  lemma {:induction false} ReplaceTagsLeavesNoTags(s: string, rep: string)
    requires '<' !in rep && '>' !in rep
    ensures NoTags(ReplaceTags(s, rep))
    decreases |s|
  {
    if |s| > 0 {
      var r := ReplaceTags(s, rep);
      match TagEnd(s)
      case Some(k) =>
        var r' := ReplaceTags(s[k + 1..], rep);
        ReplaceTagsLeavesNoTags(s[k + 1..], rep);
        assert r == rep + r';
        forall i | 0 <= i < |r|
          ensures TagEnd(r[i..]).None?
        {
          if i < |rep| {
            assert r[i..][0] == rep[i];
          } else {
            assert r[i..] == r'[i - |rep|..];
          }
        }
      case None =>
        var r' := ReplaceTags(s[1..], rep);
        ReplaceTagsLeavesNoTags(s[1..], rep);
        assert r == [s[0]] + r';
        forall i | 0 <= i < |r|
          ensures TagEnd(r[i..]).None?
        {
          if i == 0 {
            if s[0] == '<' {
              if '>' !in s[1..] {
                assert r' == s[1..];
                assert r[1..] == r';
              } else {
                assert s[1] == '>';
                assert r'[0] == '>';
              }
            }
          } else {
            assert r[i..] == r'[i - 1..];
          }
        }
    }
  }

  const Entities: seq<string> := ["&nbsp;", "&amp;", "&quot;", "&#39;"]

  /** Length of the entity of `Entities` that `s` starts with, if any. */
  function EntityAt(s: string): (n: nat)
    ensures n == 0 || (0 < n <= |s| && s[..n] in Entities && s[0] == '&')
  {
    if StartsWith(s, "&nbsp;") then 6
    else if StartsWith(s, "&amp;") then 5
    else if StartsWith(s, "&quot;") then 6
    else if StartsWith(s, "&#39;") then 5
    else 0
  }

  /** `s.replace(/&nbsp;|&amp;|&quot;|&#39;/g, ' ')` */
  function ReplaceEntities(s: string): (r: string)
    ensures '&' !in s ==> r == s
    decreases |s|
  {
    if |s| == 0 then ""
    else
      var n := EntityAt(s);
      if n > 0 then " " + ReplaceEntities(s[n..])
      else [s[0]] + ReplaceEntities(s[1..])
  }

  /** Every whitespace character is a plain space and no two are adjacent. */
  predicate Collapsed(s: string) {
    forall i :: 0 <= i < |s| && IsSpace(s[i]) ==> s[i] == ' ' && (i + 1 == |s| || !IsSpace(s[i + 1]))
  }

  /** `s.replace(/\s+/g, ' ')` */
  function CollapseSpaces(s: string): (r: string)
    ensures Collapsed(r)
    ensures |s| > 0 ==> |r| > 0 && (IsSpace(r[0]) <==> IsSpace(s[0]))
    ensures |s| > 0 && !IsSpace(s[0]) ==> r[0] == s[0]
    decreases |s|
  {
    if |s| == 0 then ""
    else if IsSpace(s[0]) then
      var j := RunEnd(s, 0, set c | c in s && IsSpace(c));
      assert j < |s| ==> s[j] in s && !IsSpace(s[j]);
      var rest := CollapseSpaces(s[j..]);
      var r := " " + rest;
      assert forall i :: 1 <= i < |r| ==> r[i] == rest[i - 1];
      r
    else
      var rest := CollapseSpaces(s[1..]);
      var r := [s[0]] + rest;
      assert forall i :: 1 <= i < |r| ==> r[i] == rest[i - 1];
      r
  }

  /** Collapsing a string whose whitespace is already collapsed changes nothing. */
  lemma {:induction false} CollapseSpacesOfCollapsed(s: string)
    requires Collapsed(s)
    ensures CollapseSpaces(s) == s
    decreases |s|
  {
    if |s| > 0 {
      assert Collapsed(s[1..]) by {
        forall i | 0 <= i < |s[1..]| && IsSpace(s[1..][i])
          ensures s[1..][i] == ' ' && (i + 1 == |s[1..]| || !IsSpace(s[1..][i + 1]))
        {
          assert s[1..][i] == s[i + 1];
          if i + 1 < |s[1..]| { assert s[1..][i + 1] == s[i + 2]; }
        }
      }
      CollapseSpacesOfCollapsed(s[1..]);
      if IsSpace(s[0]) {
        var D := set c | c in s && IsSpace(c);
        assert s[0] in D;
        assert |s| > 1 ==> s[1] !in D;
        assert RunEnd(s, 0, D) == 1;
        assert s == " " + s[1..];
      } else {
        assert s == [s[0]] + s[1..];
      }
    }
  }

  /** The sanitised form of a piece of HTML: tags and the four entities become spaces, whitespace is collapsed and trimmed. */
  function Sanitize(html: string): (r: string)
    ensures IsTrimmed(r) && Collapsed(r)
  {
    var c := CollapseSpaces(ReplaceEntities(ReplaceTags(html, " ")));
    var r := Trim(c);
    CollapsedSlice(c, TrimStart(c), r);
    r
  }

  lemma CollapsedSlice(s: string, t: string, r: string)
    requires Collapsed(s)
    requires |r| <= |t| <= |s|
    requires t == s[|s| - |t|..] && r == t[..|r|]
    ensures Collapsed(r)
  {
    var d := |s| - |t|;
    forall i | 0 <= i < |r| && IsSpace(r[i])
      ensures r[i] == ' ' && (i + 1 == |r| || !IsSpace(r[i + 1]))
    {
      assert r[i] == s[d + i];
      if i + 1 < |r| { assert r[i + 1] == s[d + i + 1]; }
    }
  }

  // ---------------------------------------------------------------------------
  // Decimal numerals
  // ---------------------------------------------------------------------------

  function DigitChar(d: nat): char
    requires d < 10
  {
    ('0' as int + d) as char
  }

  /** `n.toString()` for a natural number. */
  function DecimalString(n: nat): (s: string)
    ensures |s| >= 1
    ensures forall i :: 0 <= i < |s| ==> IsDigit(s[i])
    decreases n
  {
    if n < 10 then [DigitChar(n)] else DecimalString(n / 10) + [DigitChar(n % 10)]
  }

  function DigitValue(c: char): nat
    requires IsDigit(c)
  {
    c as int - '0' as int
  }

  /** The value of a string of decimal digits. */
  function ParseDecimal(s: string): nat
    requires forall i :: 0 <= i < |s| ==> IsDigit(s[i])
  {
    if |s| == 0 then 0 else 10 * ParseDecimal(s[..|s| - 1]) + DigitValue(s[|s| - 1])
  }

  /** Reading a rendered number back gives the number. */
  lemma {:induction false} ParseDecimalString(n: nat)
    ensures ParseDecimal(DecimalString(n)) == n
    decreases n
  {
    if n >= 10 {
      var s := DecimalString(n);
      assert s[..|s| - 1] == DecimalString(n / 10);
      ParseDecimalString(n / 10);
    }
  }

  function Pow10(k: nat): nat {
    if k == 0 then 1 else 10 * Pow10(k - 1)
  }

  /** A number with `k` digits renders as `k` characters (no leading zeros, no padding). */
  lemma {:induction false} DecimalStringLength(n: nat, k: nat)
    requires k >= 1 && Pow10(k - 1) <= n < Pow10(k)
    ensures |DecimalString(n)| == k
    decreases k
  {
    if k > 1 {
      DecimalStringLength(n / 10, k - 1);
    } else {
      assert n < 10;
    }
  }
}

=== FILE: wrappers.dfy ===
/** Optional values: JavaScript's `null`/`undefined` versus a present value. */
module Wrappers {

  datatype Option<+T> = None | Some(value: T) {

    /** The value when present, otherwise `default` (JavaScript's `x ?? default`). */
    function GetOr(default: T): T {
      match this
      case Some(v) => v
      case None => default
    }
  }
}
